=== FILE: README.md ===
# UserBlogs, modelled in Dafny

UserBlogs is a MediaWiki extension that gives every user a blog. Each post is a
subpage `User_blog:<name>/<title>`, and the `Blog:` namespace holds category
pages and the "Recent posts" page. It has two generations of storage:

- **Blog metadata service.** Its tables record, for each registered post, the
  author, timestamps, comment count and last commenter. Comments are stored
  with a parent link, likes per (comment, user), and favorites that only the
  post's author may set. After each comment it fires the
  `UserBlogsAfterCommentAdded` hook. The notification handler, the REST
  handlers, the skin hook, the listing parser function and
  Special:CreateBlogPost are built on this service. Special:MyBlog only
  redirects, and Special:CreateBlogListingPage only writes a page.
- **Legacy page hooks.** They keep their own comment table and a per-user
  privacy table. Special:BlogSettings reads and writes that privacy table. They decorate user-blog pages with a blog index or a threaded
  comment section, and a small action API adds and deletes legacy comments.

This project models both generations as pure functions over immutable states:

- `BlogStore` holds the service's tables, and `BlogQueries` holds its reads.
- `BlogInvariants` proves what the service's writes preserve.
- `Notifications` models the comment hook handler.
- `Rest` models the REST handlers.
- `PageRouting` models the skin hook that routes a title to a view and handles
  a posted comment.
- `Listing` models the `{{#userblogs_listing:…}}` parser function and the
  special page that writes it.
- `Specials` models Special:CreateBlogPost, Special:BlogSettings and
  Special:MyBlog.
- `Legacy` and `LegacyApi` model the legacy hooks and API.
- The support modules are `Common` (users, rights, titles), `Php` (trim,
  `empty()`, the `(int)` cast, JSON field access) and `Ordering` (a sort key,
  rank and paging window).

The wiki is a set of parameters:

- the title lookup, the category links and the title factory;
- the page store's save;
- the user lookup and the clock.

Every operation returns the new state together with its answer. Errors are
datatype variants, not exceptions.

## Model

| member | source | states |
|---|---|---|
| BlogStore.RegisterPost | includes/Services/BlogService.php:30-76 | A title outside the user-blog namespace or without a page changes nothing. A page that already has a row only gets its last-touched time refreshed. A new page gets exactly one row with the author, both timestamps equal to now, and a count of 0. No other row or table changes. |
| BlogStore.AddComment | includes/Services/BlogService.php:192-238 | A missing page (id 0) returns 0 and changes nothing. Otherwise one row is inserted under the next auto-increment id, with the parent stored unchecked. The post row, if any, gets one more comment, the last comment time and the last commenter. Exactly one hook event is appended with the new id. Likes and favorites are untouched. On a well-formed store the id is fresh and positive. |
| BlogStore.SetCommentLike | includes/Services/BlogService.php:350-382 | Always reports success. Only the caller's (comment, user) key in the likes table is set (time refreshed) or cleared; every other table and key is unchanged. |
| BlogStore.GetCommentAndPostInfo | includes/Services/BlogService.php:384-413 | Present exactly when the comment exists and its page has a post row. It then carries the comment's page, the comment's author and the post's author. |
| BlogStore.SetCommentFavorite | includes/Services/BlogService.php:415-457 | Succeeds exactly when the caller is the author of the commented post. A refusal changes nothing. Success sets or clears only the caller's key in the favorites table. |
| BlogQueries.GetCommentsForPost | includes/Services/BlogService.php:245-348 | Empty for a missing page. Otherwise it returns the window [offset, offset+limit) of the post's comments in (created, id) order. The length is exactly min(limit, n - offset). Each item reports its row's columns, its like count, and whether the post's author favorited it. A comment appears iff its rank lies in the window. |
| BlogQueries.CommentsAscending | includes/Services/BlogService.php:279-284 | Along a comment page, creation times never decrease, and equal times are in ascending id order. |
| BlogQueries.Resolve | includes/Services/BlogService.php:107-128 | Rows whose page title cannot be loaded are skipped. Every other row is reported under its resolved title, with its stored columns. |
| BlogQueries.ResolveKeepsOrder | includes/Services/BlogService.php:100-128 | Skipping unresolvable rows keeps the SQL order of the rows that remain. |
| Ordering.RankedWindow | includes/Services/BlogService.php:100-104 | ORDER BY with LIMIT and OFFSET yields the page of ranks [offset, offset+limit): in order, the i-th row has rank offset+i, and a row is on the page iff its rank is in that range. |
| BlogQueries.GetRecentPosts | includes/Services/BlogService.php:83-131 | At most limit posts, newest first. Each reports its stored row. A post appears iff it is registered, its rank is in [offset, offset+limit), and its title resolves. |
| BlogQueries.GetUserPosts | includes/Services/BlogService.php:138-188 | The same as the recent listing, restricted to rows whose stored username equals the argument exactly. |
| BlogQueries.GetPostsByCategory | includes/Services/BlogService.php:459-523 | Empty when the category name is not a valid title. Otherwise it returns the window of user-blog-namespace posts in that category, newest first, each a stored row. |
| BlogQueries.ListingNewestFirst | includes/Services/BlogService.php:100-104 | Along a listing, creation times never increase. |
| BlogInvariants.AddCommentKeepsWellFormed | includes/Services/BlogService.php:206-217 | Adding a comment keeps every comment id positive and below the next id. |
| BlogInvariants.AddCommentComments | includes/Services/BlogService.php:206-217 | The new comment joins its own page's comments and no other page's. |
| BlogInvariants.AddCommentKeepsCounts | includes/Services/BlogService.php:219-229 | If every post's count equals its number of stored comments, that stays true after adding a comment. |
| BlogInvariants.RegisterPostKeepsCounts | includes/Services/BlogService.php:63-75 | Registration keeps the counts in step when the new page has no comments yet. |
| BlogInvariants.CountIgnoresEarlierComments | includes/Services/BlogService.php:63-75 | A comment stored before the post row exists is not counted: the new row's count is 0 while one comment is stored. |
| BlogInvariants.AddAllCounts | includes/Services/BlogService.php:219-229 | For a registered post, n added comments raise the count by exactly n, and the last commenter is the author of the last one. |
| BlogInvariants.RegisteredFirstCountsAll | includes/Services/BlogService.php:30-229 | A post registered before its comments counts exactly the comments added since. That count equals the number stored for its page. |
| BlogInvariants.AddAllKeepsCounts | includes/Services/BlogService.php:192-238 | Any run of comment additions keeps the store well formed and the counts in step. |
| BlogInvariants.RegisterPostTwice | includes/Services/BlogService.php:52-61 | Registering a page twice leaves one row, created at the first call and touched at the second. |
| BlogInvariants.LikeIdempotent | includes/Services/BlogService.php:359-370 | Liking twice equals liking once at the later time. |
| BlogInvariants.LikeThenUnlike | includes/Services/BlogService.php:350-382 | Liking then unliking a comment not liked before restores the store. |
| BlogInvariants.LikeCounts | includes/Services/BlogService.php:350-382 | A like changes only its own comment's like count, by one when it is new. |
| BlogInvariants.SetCommentFavoriteKeepsFavorites | includes/Services/BlogService.php:415-457 | Every favorite pair belongs to the author of the commented post, before and after a favorite call. |
| BlogInvariants.SetCommentLikeKeepsFavorites | includes/Services/BlogService.php:350-382 | Likes never break the favorites rule. |
| BlogInvariants.AddCommentKeepsFavorites | includes/Services/BlogService.php:192-238 | Adding a comment never breaks the favorites rule. |
| BlogInvariants.RegisterPostKeepsFavorites | includes/Services/BlogService.php:30-76 | Registering a post never breaks the favorites rule. |
| BlogInvariants.FavoritesOnlyChangeForPostAuthor | includes/Services/BlogService.php:415-457 | A call by anyone but the post's author leaves the favorites unchanged. The author's call changes only its own key. |
| BlogInvariants.ParentMayBelongToAnotherPost | includes/Services/BlogService.php:206-217 | A reply may name a parent comment of a different post; it is stored as given. |
| Notifications.OnCommentAdded | includes/Hooks/Handlers/NotificationHooks.php:28-79 | At most two notifications, never to the commenter and only to registered users. The post-author notice comes first, iff the post row exists and its author qualifies. The reply notice comes last, iff the comment is a reply whose parent exists and its author qualifies. |
| Notifications.SameAuthorNotifiedTwice | includes/Hooks/Handlers/NotificationHooks.php:35-77 | There is no de-duplication: the post's author who also wrote the parent comment is notified twice. |
| Notifications.ParentPostIgnored | includes/Hooks/Handlers/NotificationHooks.php:97-113 | Which post the parent comment belongs to does not affect what is sent. |
| Legacy.GetUserBlogPostsAsWritten | includes/Hooks.php:112-132 | The pattern is the user name as given, plus "/". The list names every user-blog page whose stored key starts with that pattern, each once and nothing else, in descending page-id order. A name is `User_blog:` plus the key with underscores shown as spaces. |
| Legacy.GetUserBlogPosts | includes/Hooks.php:112-132 | The same list, but the pattern is the database key of the user name (spaces as underscores) plus "/". Every page under the pattern is named once, nothing else is, and the names follow descending page id. |
| Legacy.SpacedUserNameMissesPosts | includes/Hooks.php:120 | For user "A B", who owns "A_B/Post", the pattern as written finds nothing. The database-key pattern finds the post. |
| Legacy.ShowUserBlogIndex | includes/Hooks.php:50-110 | There is no index for an unknown user. The private notice is shown iff the blog is private and the viewer is not its owner. Otherwise the page shows the post list, or the no-posts notice when the list is empty. |
| Legacy.OwnerSeesIndex | includes/Hooks.php:71-81 | The owner always sees the index, whatever the privacy flag. |
| Legacy.ChildrenInInputOrder | includes/Hooks.php:226-229 | The comments kept under a parent are a subsequence of the input: they sit at strictly increasing positions, and those positions are exactly the ones whose parent loosely equals the requested parent (NULL equals 0). So each level keeps the (timestamp, id) order of the page's comments. |
| Legacy.TreeButtons | includes/Hooks.php:223-282 | At every depth of the tree, a comment has a reply button iff the viewer is logged in. It has a delete button iff the viewer wrote it or holds the delete right. So a viewer who did neither sees no delete button anywhere, and an anonymous viewer sees no reply button. |
| Legacy.BuildCommentTree | includes/Hooks.php:223-282 | Given any fuel, the top level is exactly the matching children, in order. |
| Legacy.ShownIffLinked | includes/Hooks.php:223-282 | A comment is rendered iff its parent chain reaches the requested parent within the depth the fuel allows. |
| Legacy.PageComments | includes/Hooks.php:141-161 | The comment section reads every legacy row stored for the page and nothing else. Each comment carries its row's columns. The comments are strictly ordered by timestamp, then id, so none repeats. |
| Legacy.ShowComments | includes/Hooks.php:134-190 | Nothing for a missing page. The top form is shown iff the viewer is logged in, and it is visible and submits parent 0. The tree's top level is the page's root comments. |
| Legacy.SectionButtons | includes/Hooks.php:134-190 | Every comment of a page's comment section carries exactly the buttons the viewer is entitled to, as in Legacy.TreeButtons. |
| Legacy.OnBeforePageDisplay | includes/Hooks.php:30-48 | Only user-blog pages are decorated. A title without '/' gets its user's blog index, and one with '/' gets the comment section. |
| LegacyApi.AddLegacyComment | includes/Api/ApiBlogComment.php:31-72 | Content that is empty after trimming, or "0", is rejected with nothing changed. Otherwise exactly one row is inserted under the next id (parent default 0), and the reply reports it. |
| LegacyApi.DeleteLegacyComment | includes/Api/ApiBlogComment.php:74-103 | Not found iff there is no row. Refused iff the caller is neither its author nor holds the delete right. Otherwise exactly that row is removed. |
| LegacyApi.Execute | includes/Api/ApiBlogComment.php:9-29 | The login check comes first, then the dispatch on add or delete. Any other action is invalid. A failure changes nothing. |
| LegacyApi.AddedContentIsTrimmed | includes/Api/ApiBlogComment.php:33-38 | Stored content is never empty, never "0", and never starts or ends with whitespace. |
| LegacyApi.DeleteDoesNotCascade | includes/Api/ApiBlogComment.php:94-99 | Deleting a comment leaves every other row, including its replies, unchanged. |
| LegacyApi.AddThenDelete | includes/Api/ApiBlogComment.php:31-103 | The author can delete the comment just added, and that restores the comment table. |
| PageRouting.RouteOf | includes/Hooks/Handlers/OutputHooks.php:22-58 | "Blog:Recent posts" is the recent page. Another Blog: base page is a category page. A User_blog: base page is a user index. A User_blog: subpage gets the comments block. Anything else, including a Blog: subpage, is not decorated. |
| PageRouting.RoutedTitlesAreBlogPages | includes/Hooks/Handlers/OutputHooks.php:36-57 | Only titles in the two blog namespaces are routed. A Blog: subpage never is. |
| PageRouting.ParentFromRequest | includes/Hooks/Handlers/OutputHooks.php:279-280 | A parent is passed iff the field is present and its integer value is positive, and then it is that value. An absent, zero or negative field gives no parent. |
| PageRouting.GetText | includes/Hooks/Handlers/OutputHooks.php:278 | The content is read with getText: an absent field is "", the text never grows, and text without carriage returns is unchanged. |
| PageRouting.GetTextKeepsText | includes/Hooks/Handlers/OutputHooks.php:278 | getText drops only carriage returns: every other character survives, in order. |
| PageRouting.GetTextJoinsLines | includes/Hooks/Handlers/OutputHooks.php:278 | A "\r\n" line break, as a browser submits it from a textarea, is read as "\n". |
| PageRouting.DecideSubmission | includes/Hooks/Handlers/OutputHooks.php:267-291 | Only a POST with action "add" is a submission. It is checked for the commenting right, then the token, then non-blank content. Only a request that passes all three reaches addComment. The content is read with getText, so "\r\n" breaks become "\n", and then trimmed. |
| PageRouting.OnBeforePageDisplay | includes/Hooks/Handlers/OutputHooks.php:22-322 | Each view asks the service with the fixed sizes: 50 posts or 100 comments, from offset 0. A subpage without a page is undecorated. A rejected submission shows its notice with the comments. An accepted one makes exactly one addComment call. |
| PageRouting.SubmittedCommentIsStored | includes/Hooks/Handlers/OutputHooks.php:278-291 | A comment posted from the block is stored on the post's page under a fresh positive id. Its author is the logged-in user, its content is trimmed and non-blank, and its parent, if any, is positive. |
| PageRouting.RejectedSubmissionShowsPlainView | includes/Hooks/Handlers/OutputHooks.php:266-309 | A rejected submission shows exactly the comments a plain view shows. |
| Listing.MatchLimitArgIsPattern | includes/Hooks/Handlers/ParserHooks.php:59 | For a string with no final line feed, the scan matches exactly when it fits `/^limit\s*=\s*(\d+)$/i`. Every trimmed argument is such a string. Those matches are "limit" in any letter case, `\s` characters, "=", `\s` characters, then digits to the end. The scan captures the digits of that split. |
| Listing.LimitFromArg | includes/Hooks/Handlers/ParserHooks.php:55-62 | The limit is 20 unless the trimmed argument matches. A match gives max(1, the digits' value saturated at PHP_INT_MAX), so the limit is always between 1 and PHP_INT_MAX. |
| Listing.ParseListingArgs | includes/Hooks/Handlers/ParserHooks.php:36-62 | A category that is missing or blank after trimming is the error. Otherwise the category is trimmed, and the limit is 20 without a second argument. |
| Listing.RenderUserBlogsListing | includes/Hooks/Handlers/ParserHooks.php:35-110 | The service is asked for the first `limit` posts of the trimmed category. An empty answer gives the empty message; otherwise the page lists those posts. |
| Listing.ListingLimit | includes/Specials/SpecialCreateBlogListingPage.php:90-93 | The form's limit is the (int) cast of the trimmed text, or 20 when that is not positive. It is always between 1 and PHP_INT_MAX. |
| Listing.ListingLimitOfExponent | includes/Specials/SpecialCreateBlogListingPage.php:79-93 | A limit typed in exponent notation counts at its full value. Digits, "e", digits give the first digits' value times ten to the second, capped at PHP_INT_MAX, so "1e3" is 1000. |
| Php.IntCastOfExponent | includes/Specials/SpecialCreateBlogListingPage.php:90 | PHP's (int) cast reads a leading number in exponent notation at its value, clamped to the 64-bit range. |
| Php.IntCastOfFraction | includes/Specials/SpecialCreateBlogListingPage.php:90 | PHP's (int) cast truncates a decimal fraction: digits "." digits cast to the integer part. |
| Php.IntCastOfDigits | includes/Specials/SpecialCreateBlogListingPage.php:90 | A digit string casts to its value, saturated at PHP_INT_MAX. |
| Listing.SubmitListingForm | includes/Specials/SpecialCreateBlogListingPage.php:75-129 | The checks run in order: page title, category, valid non-special title, page not existing. Only then is the listing call written. The answer is "created" iff the page store's save reports a saved revision. |
| Listing.CreateListingPage | includes/Specials/SpecialCreateBlogListingPage.php:25-72 | Only a logged-in user with the posting right reaches the form. Without a valid edit token, or with an empty page title or category field, the form is shown again and nothing is written. Otherwise the fields go to the submit handler. |
| Listing.LimitArgRoundTrip | includes/Specials/SpecialCreateBlogListingPage.php:106 | The `limit=<n>` argument the special page writes is matched by the parser function's pattern and reads back as n. |
| Listing.ListingRoundTrip | includes/Specials/SpecialCreateBlogListingPage.php:106 | The page the special page writes splits back into the same category and limit argument, and parses to the same category and limit. |
| Specials.PostPageName | includes/Specials/SpecialCreateBlogPost.php:98-99 | A post's page is always `User_blog:<creator>/<trimmed title>`. |
| Specials.CreateBlogPost | includes/Specials/SpecialCreateBlogPost.php:28-143 | The checks run in order. First, logged in with the posting right. Then the form must carry a valid edit token and a non-empty title and content; otherwise it is shown again. Then a non-blank title, a valid title, and a page not existing. The post is registered, under the new page's id, only after a successful save. |
| Specials.CreatedPostIsRegistered | includes/Specials/SpecialCreateBlogPost.php:128-138 | A created post has a fresh metadata row owned by its creator, with a count of 0. Comments are untouched. |
| Specials.SaveSetting | includes/Specials/SpecialBlogSettings.php:95-124 | The checkbox is upserted as 1 or 0 for this user only. |
| Specials.BlogSettings | includes/Specials/SpecialBlogSettings.php:16-53 | Anonymous visitors see only the login message. A POST saves, then shows the submitted state. Otherwise the stored state is shown, public by default. |
| Specials.SavedSettingIsShown | includes/Specials/SpecialBlogSettings.php:43-124 | The page shows the setting that was last saved. |
| Specials.SettingGovernsIndex | includes/Specials/SpecialBlogSettings.php:95-124 | After saving, the blog index is private to a viewer iff the box was cleared and the viewer is not the owner. |
| Specials.MyBlogRedirect | includes/Specials/SpecialMyBlog.php:20-29 | Redirects to the caller's blog, or to the given non-empty subpage of it. |
| Specials.ForwardingIsFilter | includes/Specials/SpecialMyBlog.php:8-13 | The redirect keeps exactly the page's action, preload, editintro and section parameters, plus the uselang, useskin, variant, debug and safemode parameters that the RedirectSpecialPage base class always adds, with their values. A query holding only those passes through unchanged, so forwarding twice equals forwarding once. |
| Specials.MyBlogReachesCreatedPost | includes/Specials/SpecialMyBlog.php:24-27 | Special:MyBlog/<title> leads to the page Special:CreateBlogPost creates for that title. |
| Rest.PostCreateChecks | includes/Rest/UserPostCreateHandler.php:35-76 | The checks run in order, and each failure is an error answer. It is 403 without the posting right, and 403 when the caller is not the path's user. It is 400 when the trimmed title is empty. Otherwise all checks pass iff the title factory accepts `User_blog:<path user>/<title>`. |
| Rest.ApiPostPageName | includes/Rest/UserPostCreateHandler.php:69-76 | The API builds the same page name as the special page. |
| Rest.UserPostCreateAsWritten | includes/Rest/UserPostCreateHandler.php:35-95 | A failed check is answered as such, with nothing changed. After the checks, the answer is 500 iff the guard `!$result instanceof EditResult || !$result->isOK()` holds of the page store's answer. |
| Rest.UserPostCreateNeverSucceeds | includes/Rest/UserPostCreateHandler.php:87-92 | Every request that passes the checks is answered 500, and no post is ever registered. |
| Rest.SaveAndRegister | includes/Rest/UserPostCreateHandler.php:78-102 | With the intended save check: 500 iff no revision was saved, and then nothing changes. Otherwise the post is registered under the new page's id, and the answer carries that id and the title. |
| Rest.UserPostCreate | includes/Rest/UserPostCreateHandler.php:35-102 | A failed check is answered as such, with nothing changed. When the checks pass, the caller is the path's user, the title factory accepted the name, and the page is saved with the body's content and registered. |
| Rest.SavedPostIsRegistered | includes/Rest/UserPostCreateHandler.php:85-95 | A page saved under a fresh id gets exactly the author's new metadata row, and comments are untouched. |
| Rest.ApiCreatedPostIsRegistered | includes/Rest/UserPostCreateHandler.php:94-102 | A created post has a row owned by the caller under the path's username. |
| Rest.PostCommentCreate | includes/Rest/PostCommentCreateHandler.php:29-68 | The answers are 404 for a missing or non-blog page, checked before 403 for a missing commenting right, then 400 for a missing or "" content. Otherwise exactly one addComment call is made, whose id is returned. |
| Rest.BlankCommentAccepted | includes/Rest/PostCommentCreateHandler.php:50-59 | Whitespace-only content is accepted and stored verbatim. |
| Rest.PostCommentEditAsWritten | includes/Rest/PostCommentEditHandler.php:32-59 | Every answer is a failure. It is 400 iff the content is missing or null. Otherwise it is 500, because the service has no `editComment` method. |
| Rest.PostCommentEdit | includes/Rest/PostCommentEditHandler.php:32-59 | With the comment editor the handler expects: 400 iff the content is missing. Otherwise ok iff the editor accepts the edit, and 403 when it refuses. |
| Rest.EditAsWrittenNeverEdits | includes/Rest/PostCommentEditHandler.php:50-58 | The handler as written never edits. It agrees with the intended handler exactly when the content is missing. |
| Rest.EditIgnoresPostPage | includes/Rest/PostCommentEditHandler.php:32-59 | The post id in the path does not affect the answer, as written or as intended. |
| Rest.CommentLike | includes/Rest/CommentLikeHandler.php:28-50 | 403 iff the caller is anonymous. Otherwise only the caller's like key is toggled, and the requested flag is echoed. |
| Rest.LikeThenUnlikeThroughApi | includes/Rest/CommentLikeHandler.php:28-50 | A like sent through the API and then withdrawn, by a caller who did not like the comment before, restores the store. Each answer echoes its flag. |
| Rest.CommentFavorite | includes/Rest/CommentFavoriteHandler.php:28-55 | 403 iff the caller is anonymous or not the post's author, and then nothing changes. Otherwise the caller's favorite key is toggled. |
| Rest.FavoriteKeepsInvariant | includes/Rest/CommentFavoriteHandler.php:44-54 | After a favorite request, every favorite still belongs to the author of the commented post. |
| Rest.ClampLimit | includes/Rest/RecentPostsViewHandler.php:18-36 | The limit is at least 1, and the route's default when absent. |
| Rest.ClampOffset | includes/Rest/RecentPostsViewHandler.php:18-36 | The offset is never negative, and 0 when absent. |
| Rest.PostCommentsView | includes/Rest/PostCommentsViewHandler.php:38-65 | 404 iff the page is missing or not a blog post. Otherwise the service's comment page, with the clamped paging echoed (default limit 50). |
| Rest.SubpageText | includes/Rest/RecentPostsViewHandler.php:40-56 | A post's slug is the last '/'-segment of its title text. |
| Rest.SlugOfPostPage | includes/Rest/RecentPostsViewHandler.php:46 | The slug of a post page made by the special page is the trimmed title it was created with, when that title has no '/'. |
| Rest.RecentPostsView | includes/Rest/RecentPostsViewHandler.php:33-63 | One item per recent post, in order, with the clamped paging echoed (default limit 20). |
| Rest.UserPostsView | includes/Rest/UserPostsViewHandler.php:38-70 | The same for one user's posts; every item carries the path's username. |
| Rest.EchoedPagingIsStable | includes/Rest/RecentPostsViewHandler.php:35-62 | Asking again with the echoed limit and offset returns the same page. This holds for the comments view (404 aside), the recent view and the user view. |

## Left out

- HTML, CSS, JavaScript, messages and i18n are left out. Views are the data they show.
- Database transactions, replication and concurrency are left out: every call is atomic.
- MediaWiki's title factory, page store, revision saving, user lookup, session token check, category links and clock are parameters, because they are not part of the extension. For the two special-page forms, HTMLForm's token check is a boolean parameter and its required-field check is modelled. HTMLForm's other field handling is left out: line-ending normalisation and the `maxlength` limit.
- Specials.ForwardingIsFilter: array-valued request parameters, which RedirectSpecialPage also forwards, are left out. Query values are strings.
- The comment editor that `PostCommentEditHandler` expects does not exist in the service. In the corrected handler, its verdict is a parameter.
- `BlogPage.php`, the article class for the blog namespaces, is left out: it only chooses how a page is drawn.
- Notification presentation and Echo delivery are left out: only who is notified, and with what payload, is modelled.
- The API and REST frameworks' parameter typing, token checks and error-to-response mapping are left out. Requests arrive already typed, and errors are a status plus a code.
- Frame expansion of parser-function arguments is left out: arguments arrive as expanded text.
- Listing.ListingLimit: the (int) cast reads PHP's numeric prefix, with fraction and exponent, at its exact decimal value truncated toward zero. PHP first rounds a fraction or exponent string to a double. The two differ for values that need more than 53 significant bits, and for values beyond the double range, which the model clamps. The same cast is used by PageRouting.ParentFromRequest.
- Php.IntCastOfDigits, Php.IntCastOfExponent, Php.IntCastOfFraction, Listing.LimitFromArg and Listing.ListingLimitOfExponent: the model takes the exact value and saturates it at PHP_INT_MAX. PHP converts a digit string beyond the 64-bit range, and any fraction or exponent string, to a double first, then to an integer. That double rounds values needing more than 53 significant bits, so "9007199254740993.5" casts to 9007199254740994. A value too large for a double (from about 1.8e308) becomes infinity, which casts to 0. So a `limit=` capture of 309 or more digits gives limit 1, and "1e400" in the listing form gives 20, where the model gives PHP_INT_MAX.
- PageRouting.DecideSubmission: `getText` also applies Unicode NFC normalisation to the field through `getVal`. That normalisation is left out; only the "\r\n" replacement is modelled.
- Listing.MatchLimitArgIsPattern: without the D modifier, PCRE's `$` also matches before a final line feed, so "limit=5\n" fits the pattern. The scan rejects it. The parser function trims its argument first, so no such string reaches the scan.
- The install and schema-update hooks, the skin navigation tab and the article-class hook are left out: they hold no logic to prove.
- The SQL leaves posts with equal creation times unordered. The model orders them by ascending page id, and legacy comments with equal timestamps by ascending id.
- BlogQueries.GetRecentPosts, GetUserPosts, GetPostsByCategory and GetCommentsForPost take `nat` limits and offsets. Negative values cannot reach them, because every caller clamps or fixes its paging first.
- Legacy.BuildCommentTree: the source recurses without a bound. The model bounds nesting with a fuel, and the comment section sets it to the number of comments. From the root (parent 0), a chain of parent links cannot revisit a comment, because ids are positive and each comment has one parent. So the source terminates, and such a chain is at most that long. That this fuel covers every chain is argued here, not proved. Legacy.ShownIffLinked states what is rendered within the depth the fuel allows.
- Legacy.ShowUserBlogIndex: it lists posts with the corrected pattern (Legacy.GetUserBlogPosts). As written, the hook uses the pattern built from the title text (Legacy.GetUserBlogPostsAsWritten), so the index of a user whose name has a space shows the no-posts notice. The same holds for Legacy.OnBeforePageDisplay, which shows that index.
- Request bodies are modelled as maps to null, booleans, integers and strings. JSON arrays, objects and floats are left out. PHP would raise a type error for some of them, which the REST framework answers with a 500.
- Rest.UserPostCreateAsWritten and Listing.SubmitListingForm: both pass the `EDIT_NEW` flag where `saveRevision` expects an edit summary (UserPostCreateHandler.php:85, SpecialCreateBlogListingPage.php:121). Whether MediaWiki rejects that is not modelled. The model assumes the save behaves as the `save` parameter says: a saved revision or none. For the REST handler the answer is 500 either way.
- The wiki's title lookup is not required to be consistent: a title found for page id n need not report id n. Lemmas that need a page id state it in their requires.
- Legacy.RenderComment and Legacy.TreeButtons: the owner test is written in the source as a strict `===` between the viewer's integer id and the row's user id column. Whether that column arrives as a string depends on the database driver. The model compares the ids as numbers.
- PageRouting.OnBeforePageDisplay: the comments block checks `isOK()` on the integer that `addComment` returns. What the page shows after that call is left out; the model stops at the call and its effect.
- The one-row-per-page and one-key-per-(comment, user) uniqueness constraints are left out as separate properties: they hold by construction, since the tables are maps.

## Findings

| source | as written | input that shows it | evidently intended | confidence | as-written member | corrected member |
|---|---|---|---|---|---|---|
| includes/Hooks.php:120 | The LIKE pattern for a user's posts is built from the index title's text, which has spaces. Page titles are stored as database keys, with underscores. | User "A B" owning page "A_B/Post": the index lists no posts. | Build the pattern from the database key, so the user's posts are listed. | high (not executed) | Legacy.GetUserBlogPostsAsWritten, Legacy.SpacedUserNameMissesPosts | Legacy.GetUserBlogPosts |
| includes/Rest/UserPostCreateHandler.php:87-92 | After saving, the handler tests `!$result instanceof EditResult`. The page store returns a revision record or null, never an edit result. | Any valid POST to the create-post route: the page is saved, yet the answer is 500 and the post is never registered. | Answer 500 only when no revision was saved. Otherwise register the post and answer with the new page id. | medium (not executed; depends on the page store's return type) | Rest.UserPostCreateAsWritten, Rest.UserPostCreateNeverSucceeds | Rest.SaveAndRegister, Rest.UserPostCreate, Rest.ApiCreatedPostIsRegistered |
| includes/Rest/PostCommentEditHandler.php:50-51 | The handler calls `editComment` on the blog service, and the service defines no such method. The comment on line 50 says it is still to be written. | Any PUT with a `content` field: PHP raises an Error for the undefined method, and the answer is 500. | Ask a comment editor, and answer ok when it accepts the edit and 403 when it refuses. | high (not executed) | Rest.PostCommentEditAsWritten, Rest.EditAsWrittenNeverEdits | Rest.PostCommentEdit |

=== FILE: blog_invariants.dfy ===
/** Properties of the blog metadata service that relate several calls:
    the invariants its writes keep, and the algebra of likes, favorites
    and post registration (includes/Services/BlogService.php). */
module BlogInvariants {
  import opened Common
  import opened BlogStore
  import opened BlogQueries

  /* ---------- the auto-increment discipline ---------- */

  lemma AddCommentKeepsWellFormed(s: Store, postTitle: Title, author: User, content: string,
                                  parentId: Option<int>, now: Timestamp)
    requires WellFormed(s)
    ensures WellFormed(AddComment(s, postTitle, author, content, parentId, now).store)
  {
  }

  /* ---------- comment counts ---------- */

  /** Every post row's comment count is the number of comments stored for
      its page. */
  ghost predicate CountsAgree(s: Store) {
    forall p :: p in s.posts ==> s.posts[p].commentCount == |CommentsOf(s, p)|
  }

  /** Adding a comment adds its id to its own page's comments and leaves
      every other page's comments alone. */
  lemma {:induction false} AddCommentComments(s: Store, postTitle: Title, author: User, content: string,
                                              parentId: Option<int>, now: Timestamp, q: nat)
    requires WellFormed(s) && postTitle.pageId != 0
    ensures var r := AddComment(s, postTitle, author, content, parentId, now);
      && r.commentId !in CommentsOf(s, q)
      && CommentsOf(r.store, q) ==
           if q == postTitle.pageId then CommentsOf(s, q) + {r.commentId} else CommentsOf(s, q)
  {
    var r := AddComment(s, postTitle, author, content, parentId, now);
    var s' := r.store;
    forall c
      ensures c in CommentsOf(s', q) <==>
        c in (if q == postTitle.pageId then CommentsOf(s, q) + {r.commentId} else CommentsOf(s, q))
    {
      if c == r.commentId {
        assert s'.comments[c].postPageId == postTitle.pageId;
      } else {
        assert c in s'.comments <==> c in s.comments;
        if c in s.comments {
          assert s'.comments[c] == s.comments[c];
        }
      }
    }
  }

  /** Adding a comment keeps the counts in step with the comments. */
  lemma {:induction false} AddCommentKeepsCounts(s: Store, postTitle: Title, author: User, content: string,
                                                 parentId: Option<int>, now: Timestamp)
    requires WellFormed(s) && CountsAgree(s)
    ensures CountsAgree(AddComment(s, postTitle, author, content, parentId, now).store)
  {
    var r := AddComment(s, postTitle, author, content, parentId, now);
    if postTitle.pageId != 0 {
      forall q | q in r.store.posts
        ensures r.store.posts[q].commentCount == |CommentsOf(r.store, q)|
      {
        AddCommentComments(s, postTitle, author, content, parentId, now, q);
      }
    }
  }

  /** Registering a page keeps the counts in step provided the page has no
      comments yet when its row is created; refreshing an existing row
      always does. */
  lemma {:induction false} RegisterPostKeepsCounts(s: Store, postTitle: Title, author: User, now: Timestamp)
    requires CountsAgree(s)
    requires postTitle.pageId !in s.posts ==> CommentsOf(s, postTitle.pageId) == {}
    ensures CountsAgree(RegisterPost(s, postTitle, author, now))
  {
    var s' := RegisterPost(s, postTitle, author, now);
    forall q | q in s'.posts
      ensures s'.posts[q].commentCount == |CommentsOf(s', q)|
    {
      assert CommentsOf(s', q) == CommentsOf(s, q);
    }
  }

  /** A comment added to a page before its row exists is not counted when
      the row is then created: the count starts at 0 whatever is stored. */
  lemma CountIgnoresEarlierComments()
    ensures var t := Title(NS_USER_BLOG, "A/P", 7, false);
      var u := User(3, "A");
      var s := RegisterPost(AddComment(EmptyStore, t, u, "hi", None, 1).store, t, u, 2);
      s.posts[7].commentCount == 0 && |CommentsOf(s, 7)| == 1
  {
    var t := Title(NS_USER_BLOG, "A/P", 7, false);
    var u := User(3, "A");
    var s := RegisterPost(AddComment(EmptyStore, t, u, "hi", None, 1).store, t, u, 2);
    assert CommentsOf(s, 7) == {1};
  }

  /** One comment submission: author, content, parent, time. */
  datatype Submission = Submission(author: User, content: string, parentId: Option<int>, now: Timestamp)

  /** Runs the submissions in order against one post. */
  function AddAll(s: Store, postTitle: Title, subs: seq<Submission>): Store
    decreases |subs|
  {
    if subs == [] then s
    else
      var first := subs[0];
      AddAll(AddComment(s, postTitle, first.author, first.content, first.parentId, first.now).store,
             postTitle, subs[1..])
  }

  /** For a registered post, the count grows by exactly the number of
      comments added, and the last commenter is the author of the last
      one. */
  lemma {:induction false} AddAllCounts(s: Store, postTitle: Title, subs: seq<Submission>)
    requires postTitle.pageId != 0 && postTitle.pageId in s.posts
    ensures var s' := AddAll(s, postTitle, subs);
      && postTitle.pageId in s'.posts
      && s'.posts[postTitle.pageId].commentCount == s.posts[postTitle.pageId].commentCount + |subs|
      && (subs != [] ==> s'.posts[postTitle.pageId].lastCommentUser == Some(subs[|subs| - 1].author.id))
    decreases |subs|
  {
    if subs != [] {
      var first := subs[0];
      var s1 := AddComment(s, postTitle, first.author, first.content, first.parentId, first.now).store;
      assert AddAll(s, postTitle, subs) == AddAll(s1, postTitle, subs[1..]);
      AddCommentBumpsPost(s, postTitle, first);
      AddAllCounts(s1, postTitle, subs[1..]);
      if |subs| == 1 {
        assert AddAll(s1, postTitle, subs[1..]) == s1;
      } else {
        assert subs[1..][|subs[1..]| - 1] == subs[|subs| - 1];
      }
    }
  }

  /** One added comment raises its registered post's count by one and
      makes its author the last commenter. */
  lemma AddCommentBumpsPost(s: Store, postTitle: Title, sub: Submission)
    requires postTitle.pageId != 0 && postTitle.pageId in s.posts
    ensures var s1 := AddComment(s, postTitle, sub.author, sub.content, sub.parentId, sub.now).store;
      && postTitle.pageId in s1.posts
      && s1.posts[postTitle.pageId].commentCount == s.posts[postTitle.pageId].commentCount + 1
      && s1.posts[postTitle.pageId].lastCommentUser == Some(sub.author.id)
  {
  }

  /** A post registered before any of its comments ends up counting exactly
      the comments stored for it, and that is the number added since
      registration. */
  lemma {:induction false} RegisteredFirstCountsAll(s: Store, postTitle: Title, author: User, now: Timestamp,
                                                    subs: seq<Submission>)
    requires WellFormed(s) && CountsAgree(s)
    requires postTitle.InNamespace(NS_USER_BLOG) && postTitle.pageId != 0
    requires postTitle.pageId !in s.posts && CommentsOf(s, postTitle.pageId) == {}
    ensures var s' := AddAll(RegisterPost(s, postTitle, author, now), postTitle, subs);
      && postTitle.pageId in s'.posts
      && s'.posts[postTitle.pageId].commentCount == |subs|
      && |CommentsOf(s', postTitle.pageId)| == |subs|
  {
    var s0 := RegisterPost(s, postTitle, author, now);
    RegisterPostKeepsCounts(s, postTitle, author, now);
    assert postTitle.pageId in s0.posts && s0.posts[postTitle.pageId].commentCount == 0;
    AddAllCounts(s0, postTitle, subs);
    AddAllKeepsCounts(s0, postTitle, subs);
  }

  lemma {:induction false} AddAllKeepsCounts(s: Store, postTitle: Title, subs: seq<Submission>)
    requires WellFormed(s) && CountsAgree(s)
    ensures WellFormed(AddAll(s, postTitle, subs)) && CountsAgree(AddAll(s, postTitle, subs))
    decreases |subs|
  {
    if subs != [] {
      var first := subs[0];
      AddCommentKeepsWellFormed(s, postTitle, first.author, first.content, first.parentId, first.now);
      AddCommentKeepsCounts(s, postTitle, first.author, first.content, first.parentId, first.now);
      var s1 := AddComment(s, postTitle, first.author, first.content, first.parentId, first.now).store;
      AddAllKeepsCounts(s1, postTitle, subs[1..]);
    }
  }

  /* ---------- post registration ---------- */

  /** Registering the same page twice leaves one row: created at the first
      call, touched at the second. */
  lemma RegisterPostTwice(s: Store, postTitle: Title, a1: User, a2: User, n1: Timestamp, n2: Timestamp)
    requires postTitle.InNamespace(NS_USER_BLOG) && postTitle.pageId != 0
    requires postTitle.pageId !in s.posts
    ensures var s' := RegisterPost(RegisterPost(s, postTitle, a1, n1), postTitle, a2, n2);
      && s'.posts.Keys == s.posts.Keys + {postTitle.pageId}
      && s'.posts[postTitle.pageId] == NewPostRow(a1, n1).(lastTouched := n2)
  {
  }

  /* ---------- likes ---------- */

  /** Liking twice is liking once, at the later time. */
  lemma LikeIdempotent(s: Store, commentId: int, user: User, n1: Timestamp, n2: Timestamp)
    ensures SetCommentLike(SetCommentLike(s, commentId, user, true, n1).store, commentId, user, true, n2)
         == SetCommentLike(s, commentId, user, true, n2)
  {
    var key := (commentId, user.id);
    assert s.likes[key := n1][key := n2] == s.likes[key := n2];
  }

  /** Liking then unliking a comment one did not like restores the store. */
  lemma LikeThenUnlike(s: Store, commentId: int, user: User, n1: Timestamp, n2: Timestamp)
    requires (commentId, user.id) !in s.likes
    ensures SetCommentLike(SetCommentLike(s, commentId, user, true, n1).store, commentId, user, false, n2).store == s
  {
    var key := (commentId, user.id);
    assert s.likes[key := n1] - {key} == s.likes;
  }

  /** A like changes the like count of its own comment only, by one when
      it is new. */
  lemma {:induction false} LikeCounts(s: Store, commentId: int, user: User, now: Timestamp, c: int)
    ensures var s' := SetCommentLike(s, commentId, user, true, now).store;
      |LikesOn(s', c)| == if c == commentId && (commentId, user.id) !in s.likes
                          then |LikesOn(s, c)| + 1 else |LikesOn(s, c)|
  {
    var key := (commentId, user.id);
    var s' := SetCommentLike(s, commentId, user, true, now).store;
    if c == commentId && key !in s.likes {
      assert LikesOn(s', c) == LikesOn(s, c) + {key};
    } else {
      assert LikesOn(s', c) == LikesOn(s, c);
    }
  }

  /* ---------- favorites ---------- */

  /** Every favorite was set by the author of the commented post. */
  ghost predicate FavoritesByPostAuthors(s: Store) {
    forall k :: k in s.favorites ==> IsPostAuthorOf(s, k.0, k.1)
  }

  lemma SetCommentFavoriteKeepsFavorites(s: Store, commentId: int, user: User, favorite: bool, now: Timestamp)
    requires FavoritesByPostAuthors(s)
    ensures FavoritesByPostAuthors(SetCommentFavorite(s, commentId, user, favorite, now).store)
  {
  }

  lemma SetCommentLikeKeepsFavorites(s: Store, commentId: int, user: User, like: bool, now: Timestamp)
    requires FavoritesByPostAuthors(s)
    ensures FavoritesByPostAuthors(SetCommentLike(s, commentId, user, like, now).store)
  {
  }

  lemma {:induction false} AddCommentKeepsFavorites(s: Store, postTitle: Title, author: User, content: string,
                                                    parentId: Option<int>, now: Timestamp)
    requires WellFormed(s) && FavoritesByPostAuthors(s)
    ensures FavoritesByPostAuthors(AddComment(s, postTitle, author, content, parentId, now).store)
  {
    var s' := AddComment(s, postTitle, author, content, parentId, now).store;
    forall k | k in s'.favorites
      ensures IsPostAuthorOf(s', k.0, k.1)
    {
      assert IsPostAuthorOf(s, k.0, k.1);
      if postTitle.pageId != 0 {
        var c := k.0 as nat;
        assert s'.comments[c] == s.comments[c];
        var p := s.comments[c].postPageId;
        assert s'.posts[p].userId == s.posts[p].userId;
      }
    }
  }

  lemma {:induction false} RegisterPostKeepsFavorites(s: Store, postTitle: Title, author: User, now: Timestamp)
    requires FavoritesByPostAuthors(s)
    ensures FavoritesByPostAuthors(RegisterPost(s, postTitle, author, now))
  {
    var s' := RegisterPost(s, postTitle, author, now);
    forall k | k in s'.favorites
      ensures IsPostAuthorOf(s', k.0, k.1)
    {
      assert IsPostAuthorOf(s, k.0, k.1);
      var p := s.comments[k.0 as nat].postPageId;
      assert s'.posts[p].userId == s.posts[p].userId;
    }
  }

  /** A favorite call by anyone but the post's author leaves the favorites
      as they were; the author's call changes only the author's own key. */
  lemma FavoritesOnlyChangeForPostAuthor(s: Store, commentId: int, user: User, favorite: bool, now: Timestamp)
    ensures var f' := SetCommentFavorite(s, commentId, user, favorite, now).store.favorites;
      && (!IsPostAuthorOf(s, commentId, user.id) ==> f' == s.favorites)
      && (forall k :: k in s.favorites && k != (commentId, user.id) ==> k in f' && f'[k] == s.favorites[k])
      && (forall k :: k in f' && k != (commentId, user.id) ==> k in s.favorites)
  {
  }

  /* ---------- parents ---------- */

  /** A reply may name a parent comment of a different post: the parent id
      is stored without any check. */
  lemma ParentMayBelongToAnotherPost()
    ensures var s1 := AddComment(EmptyStore, Title(NS_USER_BLOG, "A/P", 10, false), User(1, "A"), "x", None, 1);
      var s2 := AddComment(s1.store, Title(NS_USER_BLOG, "A/Q", 20, false), User(1, "A"), "y", Some(s1.commentId), 2);
      && s2.store.comments[s2.commentId].parentId == Some(s1.commentId as int)
      && s2.store.comments[s1.commentId].postPageId == 10
      && s2.store.comments[s2.commentId].postPageId == 20
  {
  }
}

=== FILE: blog_queries.dfy ===
/** The read side of the blog metadata service
    (includes/Services/BlogService.php): the comments of one post, and the
    three post listings. Title resolution and category membership belong
    to the wiki, not to the service, and are the `Wiki` parameter. */
module BlogQueries {
  import opened Common
  import opened Ordering
  import opened BlogStore

  /* ---------- comments of a post ---------- */

  /** One comment as `getCommentsForPost` reports it. */
  datatype CommentView = CommentView(
    id: nat,
    parentId: Option<int>,
    author: nat,
    created: Timestamp,
    lastEdited: Option<Timestamp>,
    lastEditedUser: Option<nat>,
    editCount: nat,
    content: string,
    likes: nat,
    favoritedByPostAuthor: bool)

  /** The ids of the comments on page `p`. */
  function CommentsOf(s: Store, p: nat): (r: set<nat>)
    ensures forall c :: c in r <==> c in s.comments && s.comments[c].postPageId == p
  {
    set c | c in s.comments && s.comments[c].postPageId == p
  }

  /** The comment sort key: creation time, ties broken by id. */
  function ByCreated(s: Store): nat -> int {
    c => if c in s.comments then s.comments[c].created else 0
  }

  /** The like rows of comment `c`: one per user who likes it. */
  function LikesOn(s: Store, c: int): set<Pair> {
    set k | k in s.likes && k.0 == c
  }

  /** The post author id the favorites are read for: 0 when the page has
      no post row. */
  function PostAuthorId(s: Store, p: nat): nat {
    if p in s.posts then s.posts[p].userId else 0
  }

  function ViewComment(s: Store, c: nat, postAuthor: nat): CommentView
    requires c in s.comments
  {
    var row := s.comments[c];
    CommentView(c, row.parentId, row.author, row.created, row.lastEdited, row.lastEditedUser,
                row.editCount, row.content, |LikesOn(s, c)|,
                postAuthor != 0 && (c, postAuthor) in s.favorites)
  }

  function CommentIds(vs: seq<CommentView>): (ids: seq<nat>)
    ensures |ids| == |vs| && forall i :: 0 <= i < |vs| ==> ids[i] == vs[i].id
  {
    seq(|vs|, i requires 0 <= i < |vs| => vs[i].id)
  }

  /** The view `v` reports comment `v.id` of page `p` as stored: the row's
      columns unchanged, the number of users who like it, and whether the
      post's author (a registered post with a non-zero author) favorited
      it. */
  ghost predicate ReportsComment(s: Store, p: nat, v: CommentView) {
    && v.id in s.comments
    && var row := s.comments[v.id];
    && row.postPageId == p
    && v.parentId == row.parentId && v.author == row.author && v.created == row.created
    && v.lastEdited == row.lastEdited && v.lastEditedUser == row.lastEditedUser
    && v.editCount == row.editCount && v.content == row.content
    && v.likes == |LikesOn(s, v.id)|
    && (v.favoritedByPostAuthor <==>
          p in s.posts && s.posts[p].userId != 0 && (v.id as int, s.posts[p].userId) in s.favorites)
  }

  /** `getCommentsForPost`: nothing for a page that does not exist;
      otherwise the page [offset, offset + limit) of the post's comments
      in (created, id) ascending order, each reported as stored. */
  function GetCommentsForPost(s: Store, postTitle: Title, limit: nat, offset: nat): (r: seq<CommentView>)
    ensures postTitle.pageId == 0 || CommentsOf(s, postTitle.pageId) == {} ==> r == []
    ensures |r| <= limit
    ensures postTitle.pageId != 0 ==>
      var p := postTitle.pageId;
      && IsPage(CommentsOf(s, p), ByCreated(s), offset, limit, CommentIds(r))
      && (forall i :: 0 <= i < |r| ==> ReportsComment(s, p, r[i]))
  {
    var p := postTitle.pageId;
    if p == 0 then []
    else
      var ids := Window(OrderBy(CommentsOf(s, p), ByCreated(s)), offset, limit);
      RankedWindow(CommentsOf(s, p), ByCreated(s), offset, limit);
      ViewComments(s, p, ids)
  }

  /** The views of the given comments of page `p`, in the given order. */
  function ViewComments(s: Store, p: nat, ids: seq<nat>): (r: seq<CommentView>)
    requires forall i :: 0 <= i < |ids| ==> ids[i] in CommentsOf(s, p)
    ensures CommentIds(r) == ids
    ensures forall i :: 0 <= i < |r| ==> ReportsComment(s, p, r[i])
  {
    var author := PostAuthorId(s, p);
    assert forall i :: 0 <= i < |ids| ==> ids[i] in s.comments && s.comments[ids[i]].postPageId == p by {
      forall i | 0 <= i < |ids| ensures ids[i] in s.comments && s.comments[ids[i]].postPageId == p {
        assert ids[i] in CommentsOf(s, p);
      }
    }
    var r := seq(|ids|, i requires 0 <= i < |ids| => ViewComment(s, ids[i], author));
    assert CommentIds(r) == ids;
    r
  }

  /** Consecutive comments of a page are in ascending creation time, and
      comments created at the same time are in ascending id order. */
  lemma CommentsAscending(s: Store, postTitle: Title, limit: nat, offset: nat, i: nat, j: nat)
    requires var r := GetCommentsForPost(s, postTitle, limit, offset); i < j < |r|
    ensures var r := GetCommentsForPost(s, postTitle, limit, offset);
      && r[i].created <= r[j].created
      && (r[i].created == r[j].created ==> r[i].id < r[j].id)
  {
    var r := GetCommentsForPost(s, postTitle, limit, offset);
    var ids := CommentIds(r);
    assert Precedes(ByCreated(s), ids[i], ids[j]);
  }

  /* ---------- post listings ---------- */

  /** What the service asks of the wiki: the title of a page id (none when
      the page cannot be loaded), the database key a category name
      normalises to (none when it is not a valid title), and the
      category links. */
  datatype Wiki = Wiki(
    titleOf: nat -> Option<Title>,
    categoryKey: string -> Option<string>,
    inCategory: (nat, string) -> bool)

  /** One post as the listings report it. */
  datatype PostView = PostView(
    pageId: nat,
    title: Title,
    userId: nat,
    username: string,
    created: Timestamp,
    lastTouched: Timestamp,
    commentCount: nat,
    lastComment: Option<Timestamp>,
    lastCommentUser: Option<nat>)

  /** The listing sort key: creation time descending. The SQL leaves rows
      with equal creation time unordered; the model puts them in ascending
      page id order. */
  function NewestFirst(s: Store): nat -> int {
    p => if p in s.posts then 0 - s.posts[p].created else 0
  }

  function PostIds(vs: seq<PostView>): (ids: seq<nat>)
    ensures |ids| == |vs| && forall i :: 0 <= i < |vs| ==> ids[i] == vs[i].pageId
  {
    seq(|vs|, i requires 0 <= i < |vs| => vs[i].pageId)
  }

  /** The view `v` reports the post row of its page as stored, under the
      title the wiki resolves it to. */
  ghost predicate ReportsPost(s: Store, w: Wiki, v: PostView) {
    && v.pageId in s.posts
    && w.titleOf(v.pageId) == Some(v.title)
    && var row := s.posts[v.pageId];
    && v.userId == row.userId && v.username == row.username
    && v.created == row.created && v.lastTouched == row.lastTouched
    && v.commentCount == row.commentCount && v.lastComment == row.lastComment
    && v.lastCommentUser == row.lastCommentUser
  }

  /** Turns the selected rows into views, skipping each page whose title
      cannot be resolved and keeping the order of the rest. */
  function Resolve(s: Store, w: Wiki, ids: seq<nat>): (r: seq<PostView>)
    requires forall i :: 0 <= i < |ids| ==> ids[i] in s.posts
    ensures |r| <= |ids|
    ensures forall i :: 0 <= i < |r| ==> ReportsPost(s, w, r[i])
    ensures forall p :: p in PostIds(r) <==> p in ids && w.titleOf(p).Some?
  {
    if ids == [] then []
    else
      var rest := Resolve(s, w, ids[1..]);
      assert forall p :: p in ids <==> p == ids[0] || p in ids[1..];
      match w.titleOf(ids[0])
      case None => rest
      case Some(t) =>
        var row := s.posts[ids[0]];
        var v := PostView(ids[0], t, row.userId, row.username, row.created, row.lastTouched,
                          row.commentCount, row.lastComment, row.lastCommentUser);
        assert PostIds([v] + rest) == [ids[0]] + PostIds(rest);
        [v] + rest
  }

  /** Dropping unresolvable titles keeps an ordered selection ordered. */
  lemma {:induction false} ResolveKeepsOrder(s: Store, w: Wiki, ids: seq<nat>)
    requires forall i :: 0 <= i < |ids| ==> ids[i] in s.posts
    requires Ordered(NewestFirst(s), ids)
    ensures Ordered(NewestFirst(s), PostIds(Resolve(s, w, ids)))
  {
    if ids != [] {
      OrderedTail(NewestFirst(s), ids);
      ResolveKeepsOrder(s, w, ids[1..]);
      ResolveStep(s, w, ids);
      if w.titleOf(ids[0]).Some? {
        FirstPrecedesResolved(s, w, ids);
        OrderedCons(NewestFirst(s), ids[0], PostIds(Resolve(s, w, ids[1..])));
      }
    }
  }

  /** One step of `Resolve`: the first page is kept exactly when its title
      resolves. */
  lemma ResolveStep(s: Store, w: Wiki, ids: seq<nat>)
    requires forall i :: 0 <= i < |ids| ==> ids[i] in s.posts
    requires ids != []
    ensures w.titleOf(ids[0]).None? ==> PostIds(Resolve(s, w, ids)) == PostIds(Resolve(s, w, ids[1..]))
    ensures w.titleOf(ids[0]).Some? ==> PostIds(Resolve(s, w, ids)) == [ids[0]] + PostIds(Resolve(s, w, ids[1..]))
  {
  }

  /** In an ordered selection, the first page precedes every page kept
      from the rest. */
  lemma FirstPrecedesResolved(s: Store, w: Wiki, ids: seq<nat>)
    requires forall i :: 0 <= i < |ids| ==> ids[i] in s.posts
    requires ids != [] && Ordered(NewestFirst(s), ids)
    ensures forall j :: 0 <= j < |PostIds(Resolve(s, w, ids[1..]))| ==>
      Precedes(NewestFirst(s), ids[0], PostIds(Resolve(s, w, ids[1..]))[j])
  {
    var tail := ids[1..];
    var restIds := PostIds(Resolve(s, w, tail));
    forall j | 0 <= j < |restIds| ensures Precedes(NewestFirst(s), ids[0], restIds[j]) {
      assert restIds[j] in tail;
      var k :| 0 <= k < |tail| && tail[k] == restIds[j];
      assert ids[k + 1] == restIds[j];
    }
  }

  /** The shared shape of the three listings: the page [offset, offset +
      limit) of the selected rows, newest first, with unresolvable titles
      dropped after paging. */
  function ListPosts(s: Store, w: Wiki, selected: set<nat>, limit: nat, offset: nat): (r: seq<PostView>)
    requires selected <= s.posts.Keys
    ensures |r| <= limit
    ensures Ordered(NewestFirst(s), PostIds(r))
    ensures forall i :: 0 <= i < |r| ==> ReportsPost(s, w, r[i])
    ensures forall p :: p in PostIds(r) <==>
      && p in selected
      && offset <= Rank(selected, NewestFirst(s), p) < offset + limit
      && w.titleOf(p).Some?
  {
    var ids := Window(OrderBy(selected, NewestFirst(s)), offset, limit);
    RankedWindow(selected, NewestFirst(s), offset, limit);
    assert forall i :: 0 <= i < |ids| ==> ids[i] in selected;
    ResolveKeepsOrder(s, w, ids);
    Resolve(s, w, ids)
  }

  /** `getRecentPosts`: every registered post is a candidate. */
  function GetRecentPosts(s: Store, w: Wiki, limit: nat, offset: nat): (r: seq<PostView>)
    ensures |r| <= limit
    ensures Ordered(NewestFirst(s), PostIds(r))
    ensures forall i :: 0 <= i < |r| ==> ReportsPost(s, w, r[i])
    ensures forall p :: p in PostIds(r) <==>
      p in s.posts && offset <= Rank(s.posts.Keys, NewestFirst(s), p) < offset + limit && w.titleOf(p).Some?
  {
    ListPosts(s, w, s.posts.Keys, limit, offset)
  }

  /** The posts whose stored username is exactly `username`. */
  function PostsBy(s: Store, username: string): (r: set<nat>)
    ensures forall p :: p in r <==> p in s.posts && s.posts[p].username == username
  {
    set p | p in s.posts && s.posts[p].username == username
  }

  /** `getUserPosts`: the posts stored under exactly this username. */
  function GetUserPosts(s: Store, w: Wiki, username: string, limit: nat, offset: nat): (r: seq<PostView>)
    ensures |r| <= limit
    ensures Ordered(NewestFirst(s), PostIds(r))
    ensures forall i :: 0 <= i < |r| ==> ReportsPost(s, w, r[i]) && r[i].username == username
    ensures forall p :: p in PostIds(r) <==>
      && p in PostsBy(s, username)
      && offset <= Rank(PostsBy(s, username), NewestFirst(s), p) < offset + limit
      && w.titleOf(p).Some?
  {
    ListPosts(s, w, PostsBy(s, username), limit, offset)
  }

  /** The registered posts whose page is in the user-blog namespace and in
      the category with database key `key`. */
  function PostsInCategory(s: Store, w: Wiki, key: string): (r: set<nat>)
    ensures forall p :: p in r <==>
      && p in s.posts
      && w.titleOf(p).Some? && w.titleOf(p).value.ns == NS_USER_BLOG
      && w.inCategory(p, key)
  {
    set p | p in s.posts && w.titleOf(p).Some? && w.titleOf(p).value.ns == NS_USER_BLOG && w.inCategory(p, key)
  }

  /** `getPostsByCategory`: nothing when the category name does not
      normalise to a title; otherwise the user-blog posts in that
      category. */
  function GetPostsByCategory(s: Store, w: Wiki, categoryName: string, limit: nat, offset: nat): (r: seq<PostView>)
    ensures w.categoryKey(categoryName).None? ==> r == []
    ensures |r| <= limit
    ensures Ordered(NewestFirst(s), PostIds(r))
    ensures forall i :: 0 <= i < |r| ==> ReportsPost(s, w, r[i]) && r[i].title.ns == NS_USER_BLOG
    ensures w.categoryKey(categoryName).Some? ==>
      var sel := PostsInCategory(s, w, w.categoryKey(categoryName).value);
      forall p :: p in PostIds(r) <==>
        p in sel && offset <= Rank(sel, NewestFirst(s), p) < offset + limit
  {
    match w.categoryKey(categoryName)
    case None => []
    case Some(key) =>
      var sel := PostsInCategory(s, w, key);
      var r := ListPosts(s, w, sel, limit, offset);
      forall i | 0 <= i < |r|
        ensures r[i].title.ns == NS_USER_BLOG
      {
        assert PostIds(r)[i] == r[i].pageId;
        assert r[i].pageId in sel;
        assert w.titleOf(r[i].pageId) == Some(r[i].title);
      }
      r
  }

  /** Newest first: along a listing, creation times never increase, and
      posts created at the same time are in ascending page id order. */
  lemma ListingNewestFirst(s: Store, r: seq<PostView>, i: nat, j: nat)
    requires Ordered(NewestFirst(s), PostIds(r))
    requires forall k :: 0 <= k < |r| ==> r[k].pageId in s.posts
    requires i < j < |r|
    ensures s.posts[r[i].pageId].created >= s.posts[r[j].pageId].created
    ensures s.posts[r[i].pageId].created == s.posts[r[j].pageId].created ==> r[i].pageId < r[j].pageId
  {
    var ids := PostIds(r);
    assert Precedes(NewestFirst(s), ids[i], ids[j]);
  }
}

=== FILE: blog_store.dfy ===
/** The blog metadata service's tables and its writes
    (includes/Services/BlogService.php): one row per registered blog post,
    the comment rows with their auto-increment id counter, the
    comment-likes and comment-favorites tables keyed by (comment, user), and
    the log of `UserBlogsAfterCommentAdded` events the service fires. The
    clock is a parameter: `now` is the database timestamp of the call. */
module BlogStore {
  import opened Common

  /** A row of `userblogs_posts`, keyed by page id. */
  datatype PostRow = PostRow(
    userId: nat,
    username: string,
    created: Timestamp,
    lastTouched: Timestamp,
    commentCount: nat,
    lastComment: Option<Timestamp>,
    lastCommentUser: Option<nat>)

  /** A row of `userblogs_comments`, keyed by comment id. */
  datatype CommentRow = CommentRow(
    postPageId: nat,
    parentId: Option<int>,
    author: nat,
    created: Timestamp,
    lastEdited: Option<Timestamp>,
    lastEditedUser: Option<nat>,
    editCount: nat,
    content: string)

  /** The key of the likes and favorites tables: (comment id, user id). */
  type Pair = (int, nat)

  /** The hook the service runs after inserting a comment. */
  datatype Event = AfterCommentAdded(postTitle: Title, commentId: nat, author: User, parentId: Option<int>)

  /** The four tables plus the event log. Likes and favorites map each
      (comment, user) key to the time it was last set, so a key occurs at
      most once in each table. */
  datatype Store = Store(
    posts: map<nat, PostRow>,
    comments: map<nat, CommentRow>,
    nextCommentId: nat,
    likes: map<Pair, Timestamp>,
    favorites: map<Pair, Timestamp>,
    events: seq<Event>)

  const EmptyStore: Store := Store(map[], map[], 1, map[], map[], [])

  /** The auto-increment discipline: every comment id is positive and below
      the id the next insert will receive. */
  predicate WellFormed(s: Store) {
    s.nextCommentId >= 1 && forall c :: c in s.comments ==> 1 <= c < s.nextCommentId
  }

  /** The comment row with the given id, if there is one. */
  function CommentAt(s: Store, commentId: int): (r: Option<CommentRow>)
    ensures r.Some? <==> commentId >= 0 && commentId as nat in s.comments
    ensures r.Some? ==> r.value == s.comments[commentId as nat]
  {
    if commentId >= 0 && commentId as nat in s.comments then Some(s.comments[commentId as nat]) else None
  }

  /* ---------- registerPost ---------- */

  /** The row `registerPost` inserts for a page it has not seen; the comment
      count is the schema default 0. */
  function NewPostRow(author: User, now: Timestamp): PostRow {
    PostRow(author.id, author.name, now, now, 0, None, None)
  }

  /** `registerPost`: ignore titles outside the user-blog namespace and pages
      that do not exist; refresh `last_touched` of a registered page;
      otherwise insert one new row. No other part of the state changes. */
  function RegisterPost(s: Store, postTitle: Title, author: User, now: Timestamp): (s': Store)
    ensures !postTitle.InNamespace(NS_USER_BLOG) || postTitle.pageId == 0 ==> s' == s
    ensures postTitle.InNamespace(NS_USER_BLOG) && postTitle.pageId != 0 ==>
      var p := postTitle.pageId;
      && s' == s.(posts := s'.posts)
      && s'.posts.Keys == s.posts.Keys + {p}
      && (p in s.posts ==> s'.posts[p] == s.posts[p].(lastTouched := now))
      && (p !in s.posts ==> s'.posts[p] == NewPostRow(author, now))
      && (forall q :: q in s.posts && q != p ==> s'.posts[q] == s.posts[q])
  {
    var p := postTitle.pageId;
    if !postTitle.InNamespace(NS_USER_BLOG) || p == 0 then s
    else if p in s.posts then s.(posts := s.posts[p := s.posts[p].(lastTouched := now)])
    else s.(posts := s.posts[p := NewPostRow(author, now)])
  }

  /* ---------- addComment ---------- */

  datatype Added = Added(store: Store, commentId: nat)

  /** The post row after one more comment by `author` at `now`. */
  function Bumped(row: PostRow, author: User, now: Timestamp): PostRow {
    row.(commentCount := row.commentCount + 1, lastComment := Some(now),
         lastCommentUser := Some(author.id), lastTouched := now)
  }

  /** `addComment`: for a page that does not exist, return 0 and change
      nothing. Otherwise insert one comment row under the next id, bump the
      post row if the page has one (the update matches no row otherwise),
      log one AfterCommentAdded event carrying the new id, and return that
      id. The parent id is stored as given: it is not checked to exist or
      to belong to the same post. */
  function AddComment(s: Store, postTitle: Title, author: User, content: string,
                      parentId: Option<int>, now: Timestamp): (r: Added)
    ensures postTitle.pageId == 0 ==> r == Added(s, 0)
    ensures postTitle.pageId != 0 ==>
      var p := postTitle.pageId;
      var id := r.commentId;
      var s' := r.store;
      && id == s.nextCommentId
      && s'.nextCommentId == id + 1
      && s'.comments.Keys == s.comments.Keys + {id}
      && s'.comments[id] == CommentRow(p, parentId, author.id, now, None, None, 0, content)
      && (forall c :: c in s.comments && c != id ==> s'.comments[c] == s.comments[c])
      && s'.posts.Keys == s.posts.Keys
      && (p in s.posts ==> s'.posts[p] == Bumped(s.posts[p], author, now))
      && (forall q :: q in s.posts && q != p ==> s'.posts[q] == s.posts[q])
      && s'.likes == s.likes && s'.favorites == s.favorites
      && s'.events == s.events + [AfterCommentAdded(postTitle, id, author, parentId)]
    ensures WellFormed(s) && postTitle.pageId != 0 ==> r.commentId > 0 && r.commentId !in s.comments
  {
    var p := postTitle.pageId;
    if p == 0 then Added(s, 0)
    else
      var id := s.nextCommentId;
      var row := CommentRow(p, parentId, author.id, now, None, None, 0, content);
      var posts := if p in s.posts then s.posts[p := Bumped(s.posts[p], author, now)] else s.posts;
      var event := AfterCommentAdded(postTitle, id, author, parentId);
      Added(Store(posts, s.comments[id := row], id + 1, s.likes, s.favorites, s.events + [event]), id)
  }

  /* ---------- likes and favorites ---------- */

  datatype Toggled = Toggled(store: Store, ok: bool)

  /** Upsert (refreshing the timestamp) or delete of one key. */
  function Toggle(table: map<Pair, Timestamp>, key: Pair, on: bool, now: Timestamp): map<Pair, Timestamp> {
    if on then table[key := now] else table - {key}
  }

  /** `table'` is `table` with `key` set (at `now`) or cleared, and every
      other key left as it was. */
  ghost predicate ToggledKey(table: map<Pair, Timestamp>, table': map<Pair, Timestamp>, key: Pair, on: bool, now: Timestamp) {
    && (key in table' <==> on)
    && (on ==> table'[key] == now)
    && (forall k :: k != key ==> (k in table' <==> k in table))
    && (forall k :: k != key && k in table ==> table'[k] == table[k])
  }

  /** `setCommentLike`: any caller may set or clear its own like on any
      comment id, existing or not; the call always reports success and
      touches only the likes table. */
  function SetCommentLike(s: Store, commentId: int, user: User, like: bool, now: Timestamp): (r: Toggled)
    ensures r.ok
    ensures r.store == s.(likes := r.store.likes)
    ensures ToggledKey(s.likes, r.store.likes, (commentId, user.id), like, now)
  {
    Toggled(s.(likes := Toggle(s.likes, (commentId, user.id), like, now)), true)
  }

  datatype CommentPostInfo = CommentPostInfo(postPageId: nat, commentAuthor: nat, postAuthor: nat)

  /** `getCommentAndPostInfo`: the comment joined to its post row; absent
      when the comment does not exist or its post has no row. */
  function GetCommentAndPostInfo(s: Store, commentId: int): (r: Option<CommentPostInfo>)
    ensures r.Some? <==> CommentAt(s, commentId).Some? && CommentAt(s, commentId).value.postPageId in s.posts
    ensures r.Some? ==>
      var c := s.comments[commentId as nat];
      r.value == CommentPostInfo(c.postPageId, c.author, s.posts[c.postPageId].userId)
  {
    match CommentAt(s, commentId)
    case None => None
    case Some(c) =>
      if c.postPageId in s.posts then Some(CommentPostInfo(c.postPageId, c.author, s.posts[c.postPageId].userId))
      else None
  }

  /** `userId` is the author of the registered post that comment
      `commentId` belongs to. */
  predicate IsPostAuthorOf(s: Store, commentId: int, userId: nat) {
    && commentId >= 0
    && commentId as nat in s.comments
    && s.comments[commentId as nat].postPageId in s.posts
    && s.posts[s.comments[commentId as nat].postPageId].userId == userId
  }

  /** `setCommentFavorite`: only the author of the comment's post may set or
      clear a favorite; anyone else, or a comment without a post row, gets
      false and no change. */
  function SetCommentFavorite(s: Store, commentId: int, user: User, favorite: bool, now: Timestamp): (r: Toggled)
    ensures r.ok <==> IsPostAuthorOf(s, commentId, user.id)
    ensures !r.ok ==> r.store == s
    ensures r.ok ==> r.store == s.(favorites := r.store.favorites)
    ensures r.ok ==> ToggledKey(s.favorites, r.store.favorites, (commentId, user.id), favorite, now)
  {
    match GetCommentAndPostInfo(s, commentId)
    case None => Toggled(s, false)
    case Some(info) =>
      if info.postAuthor != user.id then Toggled(s, false)
      else Toggled(s.(favorites := Toggle(s.favorites, (commentId, user.id), favorite, now)), true)
  }
}

=== FILE: common.dfy ===
/** Vocabulary shared by every part of the UserBlogs model: optional values,
    the extension's namespaces, users and their rights, and wiki page titles
    as the blog code sees them. The wiki's own title and user machinery is
    outside the model; only the facts the blog code reads are kept. */
module Common {

  datatype Option<+T> = None | Some(value: T)

  /** The namespaces the extension defines (UserBlogs.php:29-32). */
  const NS_USER_BLOG: int := 200
  const NS_USER_BLOG_TALK: int := 201
  const NS_BLOG: int := 202
  const NS_BLOG_TALK: int := 203

  /** Storage timestamps are opaque and totally ordered. */
  type Timestamp = nat

  function Min(a: int, b: int): int { if a <= b then a else b }
  function Max(a: int, b: int): int { if a >= b then a else b }

  /** A user identity; id 0 is the anonymous (unregistered) user. */
  datatype User = User(id: nat, name: string) {
    predicate Registered() { id != 0 }
  }

  /** The rights the blog code asks about: `userblogs-comment`,
      `userblogs-post` and the wiki's `delete`. */
  datatype Right = CommentRight | PostRight | DeleteRight

  /** The acting principal of a request: its user and the rights it holds. */
  datatype Actor = Actor(user: User, rights: set<Right>) {
    predicate IsAllowed(r: Right) { r in rights }
  }

  /** Namespaces with subpages enabled by the extension (UserBlogs.php:39-40). */
  predicate SubpagesEnabled(ns: int) { ns == NS_USER_BLOG || ns == NS_BLOG }

  /** A page title: namespace, display text, page id (0 when the page does
      not exist) and whether it names a special page. */
  datatype Title = Title(ns: int, text: string, pageId: nat, isSpecial: bool) {
    predicate Exists() { pageId != 0 }
    predicate InNamespace(n: int) { ns == n }
    predicate IsSubpage() { SubpagesEnabled(ns) && '/' in text }
  }

  /** A page name requested from the title factory: namespace plus text. */
  datatype PageName = PageName(ns: int, text: string)

  /** MediaWiki's HTMLForm calls a page's submit callback only for a POST
      carrying the user's edit token (`tokenOk`) whose required fields are
      all non-empty; otherwise it shows the form again and nothing is
      written. */
  predicate FormSubmits(tokenOk: bool, required: seq<string>) {
    tokenOk && forall i :: 0 <= i < |required| ==> required[i] != ""
  }
}

=== FILE: legacy.dfy ===
/** The legacy blog pages (includes/Hooks.php): page decoration for the
    user-blog namespace, the blog index with its privacy rule, the list of
    a user's posts read from the wiki's page table, and the threaded
    comment view built from the legacy comment table. The legacy tables
    (`user_blog_comments`, `user_blog_settings`) are separate from the
    blog metadata service's tables. HTML is reduced to the decisions it
    encodes: which comments, in what nesting, with which buttons. */
module Legacy {
  import opened Common
  import opened Ordering

  /* ---------- legacy tables ---------- */

  /** A row of `user_blog_comments`; page and parent may be NULL. */
  datatype LegacyRow = LegacyRow(pageId: Option<int>, userId: nat, parentId: Option<int>,
                                 content: string, timestamp: Timestamp)

  /** The legacy comment table with its auto-increment counter, and the
      privacy settings table (`ubs_user_id` to `ubs_is_public`). */
  datatype LegacyStore = LegacyStore(comments: map<nat, LegacyRow>, nextId: nat, settings: map<nat, int>)

  /** A row of the wiki's page table as the post list reads it: namespace
      and database key (spaces stored as underscores). */
  datatype PageRow = PageRow(ns: int, dbKey: string)

  /** A comment as the comment view handles it: id plus row. */
  datatype LegacyComment = LegacyComment(id: nat, userId: nat, parentId: Option<int>,
                                         content: string, timestamp: Timestamp)

  /* ---------- privacy ---------- */

  /** Whether a blog is public: a user with no settings row is public; a
      stored flag is public unless it is 0. */
  function IsPublic(settings: map<nat, int>, userId: nat): (r: bool)
    ensures userId !in settings ==> r
    ensures userId in settings ==> (r <==> settings[userId] != 0)
  {
    if userId in settings then settings[userId] != 0 else true
  }

  /* ---------- the list of a user's posts ---------- */

  /** `s` with every `from` replaced by `to`. */
  function Replace(s: string, from: char, to: char): (r: string)
    ensures |r| == |s|
    ensures forall i :: 0 <= i < |s| ==> r[i] == (if s[i] == from then to else s[i])
  {
    seq(|s|, i requires 0 <= i < |s| => if s[i] == from then to else s[i])
  }

  /** The database key of a title text: spaces become underscores. */
  function DbKey(text: string): string { Replace(text, ' ', '_') }

  /** The display text of a database key: underscores become spaces. */
  function DisplayText(key: string): string { Replace(key, '_', ' ') }

  /** The user-blog pages whose database key starts with `prefix`. */
  function PagesWithPrefix(pages: map<nat, PageRow>, prefix: string): (r: set<nat>)
    ensures forall p :: p in r <==> p in pages && pages[p].ns == NS_USER_BLOG && prefix <= pages[p].dbKey
  {
    set p | p in pages && pages[p].ns == NS_USER_BLOG && prefix <= pages[p].dbKey
  }

  /** Highest page id first. */
  function ByIdDescending(): nat -> int { p => 0 - p }

  /** The pages selected by `prefix`, each once, by descending page id. */
  function BlogPageIds(pages: map<nat, PageRow>, prefix: string): (r: seq<nat>)
    ensures forall p :: p in r <==> p in PagesWithPrefix(pages, prefix)
    ensures |r| == |PagesWithPrefix(pages, prefix)|
    ensures forall i, j :: 0 <= i < j < |r| ==> r[i] > r[j]
  {
    var r := OrderBy(PagesWithPrefix(pages, prefix), ByIdDescending());
    assert forall i, j :: 0 <= i < j < |r| ==> Precedes(ByIdDescending(), r[i], r[j]);
    r
  }

  /** The name the post list shows for a page: the `User_blog:` prefix and
      the title with underscores shown as spaces. */
  function PostName(row: PageRow): string {
    "User_blog:" + DisplayText(row.dbKey)
  }

  /** The names of the given pages, in the given order. */
  function PostNames(pages: map<nat, PageRow>, ids: seq<nat>): (r: seq<string>)
    requires forall i :: 0 <= i < |ids| ==> ids[i] in pages
    ensures |r| == |ids|
    ensures forall i :: 0 <= i < |ids| ==> r[i] == PostName(pages[ids[i]])
  {
    seq(|ids|, i requires 0 <= i < |ids| => PostName(pages[ids[i]]))
  }

  /** The names of the pages of `sel`. */
  function NamesOf(pages: map<nat, PageRow>, sel: set<nat>): set<string>
    requires sel <= pages.Keys
  {
    set p | p in sel :: PostName(pages[p])
  }

  /** Naming a listing of the pages of `sel` names each page of `sel` and
      nothing else. */
  lemma NamesOfListing(pages: map<nat, PageRow>, ids: seq<nat>, sel: set<nat>)
    requires sel <= pages.Keys
    requires forall p :: p in ids <==> p in sel
    ensures forall i :: 0 <= i < |ids| ==> ids[i] in pages
    ensures forall i :: 0 <= i < |ids| ==> PostNames(pages, ids)[i] in NamesOf(pages, sel)
    ensures forall p :: p in sel ==> PostName(pages[p]) in PostNames(pages, ids)
  {
    forall i | 0 <= i < |ids| ensures ids[i] in sel {
      assert ids[i] in ids;
    }
    var r := PostNames(pages, ids);
    assert forall i :: 0 <= i < |ids| ==> r[i] == PostName(pages[ids[i]]);
    forall p | p in sel ensures PostName(pages[p]) in r {
      var i :| 0 <= i < |ids| && ids[i] == p;
      assert r[i] == PostName(pages[p]);
    }
  }

  /** `r` names the pages `ids` in order, `ids` holds every page of `sel`
      and nothing else, and the ids descend: the result of
      `ORDER BY page_id DESC` over the pages of `sel`. */
  predicate NamesInIdOrder(pages: map<nat, PageRow>, sel: set<nat>, ids: seq<nat>, r: seq<string>) {
    && |ids| == |r|
    && (forall i :: 0 <= i < |ids| ==> ids[i] in sel && ids[i] in pages && r[i] == PostName(pages[ids[i]]))
    && (forall p :: p in sel ==> p in ids)
    && (forall i, j :: 0 <= i < j < |ids| ==> ids[i] > ids[j])
  }

  /** The post list for a LIKE pattern `<prefix>%`: the names of the
      user-blog pages whose key starts with `prefix`, highest page id
      first. */
  function ListingByPrefix(pages: map<nat, PageRow>, prefix: string): (r: seq<string>)
    ensures |r| == |PagesWithPrefix(pages, prefix)|
    ensures forall i :: 0 <= i < |r| ==> r[i] in NamesOf(pages, PagesWithPrefix(pages, prefix))
    ensures forall p :: p in PagesWithPrefix(pages, prefix) ==> PostName(pages[p]) in r
    ensures exists ids :: NamesInIdOrder(pages, PagesWithPrefix(pages, prefix), ids, r)
  {
    var sel := PagesWithPrefix(pages, prefix);
    var ids := BlogPageIds(pages, prefix);
    NamesOfListing(pages, ids, sel);
    var r := PostNames(pages, ids);
    assert NamesInIdOrder(pages, sel, ids, r);
    r
  }

  /** `getUserBlogPosts` as written: the LIKE pattern is built from the
      title TEXT of the blog index (spaces), while page titles are stored
      as database keys (underscores). The list names, newest page id
      first, exactly the user-blog pages whose key starts with the user
      name as given and a '/'. */
  function GetUserBlogPostsAsWritten(pages: map<nat, PageRow>, username: string): (r: seq<string>)
    ensures |r| == |PagesWithPrefix(pages, username + "/")|
    ensures forall i :: 0 <= i < |r| ==> r[i] in NamesOf(pages, PagesWithPrefix(pages, username + "/"))
    ensures forall p :: p in PagesWithPrefix(pages, username + "/") ==> PostName(pages[p]) in r
    ensures exists ids :: NamesInIdOrder(pages, PagesWithPrefix(pages, username + "/"), ids, r)
  {
    ListingByPrefix(pages, username + "/")
  }

  /** `getUserBlogPosts` with the pattern built from the database key of
      the user name: the user-blog pages under `<username>/`, newest page
      id first, each named `User_blog:` plus its title with underscores
      shown as spaces. */
  function GetUserBlogPosts(pages: map<nat, PageRow>, username: string): (r: seq<string>)
    ensures |r| == |PagesWithPrefix(pages, DbKey(username) + "/")|
    ensures forall i :: 0 <= i < |r| ==> r[i] in NamesOf(pages, PagesWithPrefix(pages, DbKey(username) + "/"))
    ensures forall p :: p in PagesWithPrefix(pages, DbKey(username) + "/") ==> PostName(pages[p]) in r
    ensures exists ids :: NamesInIdOrder(pages, PagesWithPrefix(pages, DbKey(username) + "/"), ids, r)
  {
    ListingByPrefix(pages, DbKey(username) + "/")
  }

  /** The user "A B" owns the page "A B/Post", stored under the key
      "A_B/Post": the pattern built from the title text misses it, the one
      built from the database key finds it. */
  lemma SpacedUserNameMissesPosts()
    ensures GetUserBlogPostsAsWritten(map[1 := PageRow(NS_USER_BLOG, "A_B/Post")], "A B") == []
    ensures GetUserBlogPosts(map[1 := PageRow(NS_USER_BLOG, "A_B/Post")], "A B") == ["User_blog:A B/Post"]
  {
    var pages := map[1 := PageRow(NS_USER_BLOG, "A_B/Post")];
    assert !("A B/" <= "A_B/Post") by { assert "A B/"[1] != "A_B/Post"[1]; }
    assert PagesWithPrefix(pages, "A B" + "/") == {};
    assert DbKey("A B") == "A_B";
    assert "A_B/" <= "A_B/Post";
    assert PagesWithPrefix(pages, DbKey("A B") + "/") == {1};
    var ids := BlogPageIds(pages, DbKey("A B") + "/");
    assert ids == [1] by { assert |ids| == 1 && ids[0] in {1}; }
    assert DisplayText("A_B/Post") == "A B/Post";
    var r := GetUserBlogPosts(pages, "A B");
    assert r == ListingByPrefix(pages, DbKey("A B") + "/") == PostNames(pages, ids);
    assert |r| == 1 && r[0] == PostName(pages[1]) == "User_blog:" + "A B/Post";
    assert "User_blog:" + "A B/Post" == "User_blog:A B/Post";
    assert r == [r[0]];
  }

  /* ---------- the blog index ---------- */

  /** What the index of a user's blog shows. */
  datatype IndexView =
    | NoIndex                        // not a user name, or an unknown user
    | PrivateNotice                  // a private blog seen by someone else
    | NoPosts                        // the notice that there are no posts
    | PostList(posts: seq<string>)   // the non-empty list of post names

  /** `showUserBlogIndex` for the index page of `username`, seen by
      `viewer`. `userIdByName` is the wiki's user lookup (0 for no such
      user). */
  function ShowUserBlogIndex(st: LegacyStore, pages: map<nat, PageRow>, userIdByName: string -> nat,
                             username: string, viewer: User): (r: IndexView)
    ensures userIdByName(username) == 0 <==> r == NoIndex
    ensures r == PrivateNotice <==>
      userIdByName(username) != 0 && !IsPublic(st.settings, userIdByName(username))
      && viewer.id != userIdByName(username)
    ensures r.PostList? ==> r.posts == GetUserBlogPosts(pages, username) && r.posts != []
    ensures r == NoPosts ==> GetUserBlogPosts(pages, username) == []
  {
    var owner := userIdByName(username);
    if owner == 0 then NoIndex
    else if !IsPublic(st.settings, owner) && viewer.id != owner then PrivateNotice
    else
      var posts := GetUserBlogPosts(pages, username);
      if posts == [] then NoPosts else PostList(posts)
  }

  /** The blog owner always sees the index, whatever the privacy flag. */
  lemma OwnerSeesIndex(st: LegacyStore, pages: map<nat, PageRow>, userIdByName: string -> nat,
                       username: string, viewer: User)
    requires userIdByName(username) == viewer.id && viewer.id != 0
    ensures ShowUserBlogIndex(st, pages, userIdByName, username, viewer) != PrivateNotice
    ensures ShowUserBlogIndex(st, pages, userIdByName, username, viewer) != NoIndex
  {
  }

  /* ---------- comment forms ---------- */

  /** A comment form: its element id suffix, the parent id its submit
      button carries, and whether it starts hidden with a cancel button. */
  datatype CommentForm = CommentForm(formKey: int, submitParent: int, hidden: bool, cancelButton: bool)

  /** `buildCommentForm`: keyed by the comment id when one is given (and
      not 0), else by the parent id; a reply form (parent > 0) is hidden and
      has a cancel button. */
  function BuildCommentForm(parentId: int, commentId: Option<int>): (f: CommentForm)
    ensures f.formKey == (if commentId.Some? && commentId.value != 0 then commentId.value else parentId)
    ensures f.submitParent == parentId
    ensures f.hidden <==> parentId > 0
    ensures f.cancelButton <==> parentId > 0
  {
    var key := if commentId.Some? && commentId.value != 0 then commentId.value else parentId;
    CommentForm(key, parentId, parentId > 0, parentId > 0)
  }

  /* ---------- the comment tree ---------- */

  /** The loose comparison `parent_id != $parentId` negated: a NULL parent
      equals 0, a stored parent equals the same number. */
  predicate ParentMatches(parentId: Option<int>, p: int) {
    if parentId.None? then p == 0 else parentId.value == p
  }

  /** One rendered comment: the comment, its buttons, its hidden reply
      form and its rendered replies. */
  datatype Rendered = Rendered(comment: LegacyComment, replyButton: bool, deleteButton: bool,
                               replyForm: CommentForm, replies: seq<Rendered>)

  /** The comments of `cs` whose parent matches `p`, in input order. */
  function Children(cs: seq<LegacyComment>, p: int): (r: seq<LegacyComment>)
    ensures |r| <= |cs|
    ensures forall c :: c in r <==> c in cs && ParentMatches(c.parentId, p)
  {
    if cs == [] then []
    else
      var rest := Children(cs[1..], p);
      assert forall c :: c in cs <==> c == cs[0] || c in cs[1..];
      if ParentMatches(cs[0].parentId, p) then [cs[0]] + rest else rest
  }

  /** The top-level comments of a rendering. */
  function Tops(ts: seq<Rendered>): (r: seq<LegacyComment>)
    ensures |r| == |ts| && forall i :: 0 <= i < |ts| ==> r[i] == ts[i].comment
  {
    seq(|ts|, i requires 0 <= i < |ts| => ts[i].comment)
  }

  /** Renders one comment for `viewer`: a reply button for a logged-in
      viewer, a delete button for the comment's author or a viewer with the
      delete right, and a hidden reply form keyed by the comment id. */
  function RenderComment(c: LegacyComment, viewer: Actor, replies: seq<Rendered>): (r: Rendered)
    ensures r.comment == c && r.replies == replies
    ensures r.replyButton <==> viewer.user.Registered()
    ensures r.deleteButton <==> viewer.user.id == c.userId || viewer.IsAllowed(DeleteRight)
    ensures r.replyForm.hidden <==> c.id > 0
    ensures r.replyForm.cancelButton <==> c.id > 0
    ensures r.replyForm.formKey == c.id && r.replyForm.submitParent == c.id
  {
    Rendered(c, viewer.user.Registered(), viewer.user.id == c.userId || viewer.IsAllowed(DeleteRight),
             BuildCommentForm(c.id, Some(c.id)), replies)
  }

  /** `buildCommentTree`: the comments of `all` under parent `p`, in input
      order, each followed by its own replies. The source recurses without
      a bound; here `fuel` bounds the nesting depth. */
  function BuildCommentTree(all: seq<LegacyComment>, p: int, viewer: Actor, fuel: nat): (r: seq<Rendered>)
    ensures fuel > 0 ==> Tops(r) == Children(all, p)
    ensures fuel == 0 ==> r == []
    decreases fuel, 1
  {
    if fuel == 0 then [] else BuildLevel(all, Children(all, p), viewer, fuel)
  }

  function BuildLevel(all: seq<LegacyComment>, level: seq<LegacyComment>, viewer: Actor, fuel: nat): (r: seq<Rendered>)
    requires fuel > 0
    ensures Tops(r) == level
    decreases fuel, 0, |level|
  {
    if level == [] then []
    else
      var c := level[0];
      var node := RenderComment(c, viewer, BuildCommentTree(all, c.id, viewer, fuel - 1));
      var rest := BuildLevel(all, level[1..], viewer, fuel);
      var r := [node] + rest;
      assert Tops(r) == level by {
        assert |Tops(r)| == |level|;
        forall i | 0 <= i < |level| ensures Tops(r)[i] == level[i] {
          if i > 0 { assert r[i] == rest[i - 1]; }
        }
      }
      r
  }

  /** Every comment shown anywhere in a rendering. */
  function Shown(ts: seq<Rendered>): set<LegacyComment>
    decreases ts
  {
    if ts == [] then {} else {ts[0].comment} + Shown(ts[0].replies) + Shown(ts[1..])
  }

  /** `c` hangs below parent `p`: directly, or below a child of `p`, at
      most `depth` levels down. */
  ghost predicate LinkedBelow(all: seq<LegacyComment>, p: int, c: LegacyComment, depth: nat)
    decreases depth
  {
    && c in all
    && (|| ParentMatches(c.parentId, p)
        || (depth > 0 && exists d :: d in all && ParentMatches(d.parentId, p) && LinkedBelow(all, d.id, c, depth - 1)))
  }

  lemma {:induction false} ShownLevel(all: seq<LegacyComment>, level: seq<LegacyComment>, viewer: Actor,
                                      fuel: nat, c: LegacyComment)
    requires fuel > 0
    ensures c in Shown(BuildLevel(all, level, viewer, fuel)) <==>
      exists d :: d in level && (c == d || c in Shown(BuildCommentTree(all, d.id, viewer, fuel - 1)))
    decreases |level|
  {
    if level != [] {
      ShownLevel(all, level[1..], viewer, fuel, c);
      var r := BuildLevel(all, level, viewer, fuel);
      assert r[1..] == BuildLevel(all, level[1..], viewer, fuel);
      assert forall d :: d in level <==> d == level[0] || d in level[1..];
    }
  }

  /** A comment is rendered exactly when it hangs below the requested
      parent within the nesting the fuel allows; a comment whose parent
      chain never reaches that parent is never rendered. */
  lemma {:induction false} ShownIffLinked(all: seq<LegacyComment>, p: int, viewer: Actor, fuel: nat, c: LegacyComment)
    ensures c in Shown(BuildCommentTree(all, p, viewer, fuel)) <==> fuel > 0 && LinkedBelow(all, p, c, fuel - 1)
    decreases fuel
  {
    if fuel > 0 {
      ShownLevel(all, Children(all, p), viewer, fuel, c);
      forall d | d in all && ParentMatches(d.parentId, p)
        ensures c in Shown(BuildCommentTree(all, d.id, viewer, fuel - 1)) <==>
          fuel - 1 > 0 && LinkedBelow(all, d.id, c, fuel - 2)
      {
        ShownIffLinked(all, d.id, viewer, fuel - 1, c);
      }
    }
  }

  /** `Children` is the subsequence of the matching comments: `idx` lists
      the positions it keeps, strictly increasing, and those are exactly the
      positions whose parent matches. */
  lemma {:induction false} ChildrenInInputOrder(cs: seq<LegacyComment>, p: int) returns (idx: seq<nat>)
    ensures |idx| == |Children(cs, p)|
    ensures forall i :: 0 <= i < |idx| ==> idx[i] < |cs| && Children(cs, p)[i] == cs[idx[i]]
    ensures Increasing(idx)
    ensures forall k :: 0 <= k < |cs| ==> (k in idx <==> ParentMatches(cs[k].parentId, p))
    decreases |cs|
  {
    if cs == [] {
      idx := [];
    } else {
      var rest := ChildrenInInputOrder(cs[1..], p);
      idx := ConsIndices(cs, p, Children(cs[1..], p), rest);
      assert Children(cs, p) == if ParentMatches(cs[0].parentId, p) then [cs[0]] + Children(cs[1..], p)
                                else Children(cs[1..], p);
    }
  }

  /** One step of `ChildrenInInputOrder`: the positions kept in `cs[1..]`,
      moved one place right, with position 0 in front when `cs[0]` matches. */
  lemma ConsIndices(cs: seq<LegacyComment>, p: int, kids: seq<LegacyComment>, rest: seq<nat>)
    returns (idx: seq<nat>)
    requires cs != [] && |rest| == |kids|
    requires forall i :: 0 <= i < |rest| ==> rest[i] < |cs| - 1 && kids[i] == cs[1..][rest[i]]
    requires Increasing(rest)
    requires forall k :: 0 <= k < |cs| - 1 ==> (k in rest <==> ParentMatches(cs[1..][k].parentId, p))
    ensures var ch := if ParentMatches(cs[0].parentId, p) then [cs[0]] + kids else kids;
      && |idx| == |ch|
      && (forall i :: 0 <= i < |idx| ==> idx[i] < |cs| && ch[i] == cs[idx[i]])
      && Increasing(idx)
      && (forall k :: 0 <= k < |cs| ==> (k in idx <==> ParentMatches(cs[k].parentId, p)))
  {
    var shifted := ShiftIndices(rest, |cs| - 1);
    assert forall i :: 0 <= i < |kids| ==> shifted[i] < |cs| && kids[i] == cs[shifted[i]] by {
      forall i | 0 <= i < |kids| ensures shifted[i] < |cs| && kids[i] == cs[shifted[i]] {
        assert cs[1..][rest[i]] == cs[rest[i] + 1];
      }
    }
    assert forall k :: 1 <= k < |cs| ==> (k in shifted <==> ParentMatches(cs[k].parentId, p)) by {
      forall k | 1 <= k < |cs| ensures k in shifted <==> ParentMatches(cs[k].parentId, p) {
        assert cs[k] == cs[1..][k - 1];
      }
    }
    if ParentMatches(cs[0].parentId, p) {
      idx := PrependZero(cs, p, kids, shifted);
    } else {
      idx := shifted;
    }
  }

  lemma PrependZero(cs: seq<LegacyComment>, p: int, kids: seq<LegacyComment>, shifted: seq<nat>)
    returns (idx: seq<nat>)
    requires cs != [] && ParentMatches(cs[0].parentId, p) && |shifted| == |kids|
    requires forall i :: 0 <= i < |kids| ==> shifted[i] < |cs| && kids[i] == cs[shifted[i]]
    requires Increasing(shifted) && 0 !in shifted
    requires forall k :: 1 <= k < |cs| ==> (k in shifted <==> ParentMatches(cs[k].parentId, p))
    ensures var ch := [cs[0]] + kids;
      && |idx| == |ch|
      && (forall i :: 0 <= i < |idx| ==> idx[i] < |cs| && ch[i] == cs[idx[i]])
      && Increasing(idx)
      && (forall k :: 0 <= k < |cs| ==> (k in idx <==> ParentMatches(cs[k].parentId, p)))
  {
    idx := [0] + shifted;
    var ch := [cs[0]] + kids;
    assert forall i :: 0 <= i < |idx| ==> idx[i] < |cs| && ch[i] == cs[idx[i]] by {
      forall i | 0 <= i < |idx| ensures idx[i] < |cs| && ch[i] == cs[idx[i]] {
        if i > 0 {
          assert idx[i] == shifted[i - 1] && ch[i] == kids[i - 1];
        }
      }
    }
    IncreasingFromZero(shifted);
    assert forall k :: 0 <= k < |cs| ==> (k in idx <==> ParentMatches(cs[k].parentId, p)) by {
      forall k | 0 <= k < |cs| ensures k in idx <==> ParentMatches(cs[k].parentId, p) {
        assert k in idx <==> k == 0 || k in shifted;
      }
    }
  }

  predicate Increasing(idx: seq<nat>) {
    forall i, j :: 0 <= i < j < |idx| ==> idx[i] < idx[j]
  }

  lemma IncreasingFromZero(s: seq<nat>)
    requires Increasing(s) && 0 !in s
    ensures Increasing([0] + s)
  {
    forall i, j | 0 <= i < j < |[0] + s| ensures ([0] + s)[i] < ([0] + s)[j] {
      assert ([0] + s)[j] == s[j - 1] && s[j - 1] in s;
      if i > 0 { assert ([0] + s)[i] == s[i - 1]; }
    }
  }

  /** The positions `rest` names in a sequence, moved one place right. */
  lemma ShiftIndices(rest: seq<nat>, n: nat) returns (shifted: seq<nat>)
    requires forall i :: 0 <= i < |rest| ==> rest[i] < n
    requires Increasing(rest)
    ensures Increasing(shifted)
    ensures |shifted| == |rest|
    ensures forall i :: 0 <= i < |rest| ==> shifted[i] == rest[i] + 1
    ensures forall k :: 1 <= k <= n ==> (k in shifted <==> k - 1 in rest)
    ensures 0 !in shifted
  {
    shifted := seq(|rest|, i requires 0 <= i < |rest| => rest[i] + 1);
    forall k | 1 <= k <= n ensures k in shifted <==> k - 1 in rest {
      if k in shifted {
        var i :| 0 <= i < |shifted| && shifted[i] == k;
        assert rest[i] == k - 1;
      }
      if k - 1 in rest {
        var i :| 0 <= i < |rest| && rest[i] == k - 1;
        assert shifted[i] == k;
      }
    }
  }

  /** The buttons of every rendered comment, replies included: a reply
      button exactly for a logged-in viewer, a delete button exactly when the
      viewer wrote the comment or holds the delete right. */
  predicate ButtonsFor(ts: seq<Rendered>, viewer: Actor)
    decreases ts
  {
    forall i :: 0 <= i < |ts| ==>
      && (ts[i].replyButton <==> viewer.user.Registered())
      && (ts[i].deleteButton <==> viewer.user.id == ts[i].comment.userId || viewer.IsAllowed(DeleteRight))
      && ButtonsFor(ts[i].replies, viewer)
  }

  /** Anywhere in the comment tree, a viewer who neither wrote a comment
      nor holds the delete right sees no delete button on it, and an
      anonymous viewer sees no reply button. */
  lemma {:induction false} TreeButtons(all: seq<LegacyComment>, p: int, viewer: Actor, fuel: nat)
    ensures ButtonsFor(BuildCommentTree(all, p, viewer, fuel), viewer)
    decreases fuel, 1
  {
    if fuel > 0 {
      LevelButtons(all, Children(all, p), viewer, fuel);
    }
  }

  lemma {:induction false} LevelButtons(all: seq<LegacyComment>, level: seq<LegacyComment>, viewer: Actor, fuel: nat)
    requires fuel > 0
    ensures ButtonsFor(BuildLevel(all, level, viewer, fuel), viewer)
    decreases fuel, 0, |level|
  {
    if level != [] {
      var r := BuildLevel(all, level, viewer, fuel);
      var rest := BuildLevel(all, level[1..], viewer, fuel);
      TreeButtons(all, level[0].id, viewer, fuel - 1);
      LevelButtons(all, level[1..], viewer, fuel);
      assert r[1..] == rest;
      forall i | 0 < i < |r|
        ensures && (r[i].replyButton <==> viewer.user.Registered())
                && (r[i].deleteButton <==> viewer.user.id == r[i].comment.userId || viewer.IsAllowed(DeleteRight))
                && ButtonsFor(r[i].replies, viewer)
      {
        assert r[i] == rest[i - 1];
      }
    }
  }

  /* ---------- the comment section ---------- */

  /** `c` reports, column for column, the stored row of its id, and that
      row belongs to the page. */
  predicate IsRowOf(st: LegacyStore, pageId: nat, c: LegacyComment) {
    && c.id in st.comments
    && st.comments[c.id] == LegacyRow(Some(pageId as int), c.userId, c.parentId, c.content, c.timestamp)
  }

  /** The comments of one page in timestamp order (ties by id): every
      stored row of the page exactly once, each with its own columns. */
  function PageComments(st: LegacyStore, pageId: nat): (r: seq<LegacyComment>)
    ensures forall i :: 0 <= i < |r| ==> IsRowOf(st, pageId, r[i])
    ensures forall id :: id in st.comments && st.comments[id].pageId == Some(pageId as int) ==>
      exists i :: 0 <= i < |r| && r[i].id == id
    ensures forall i, j :: 0 <= i < j < |r| ==>
      r[i].timestamp < r[j].timestamp || (r[i].timestamp == r[j].timestamp && r[i].id < r[j].id)
  {
    var ids := OrderBy(CommentIdsOf(st, pageId), ByTimestamp(st));
    CommentsOfListing(st, ids, CommentIdsOf(st, pageId));
    ListedRows(st, pageId, ids);
    AsComments(st, ids)
  }

  /** Reading an ordered listing of a page's comment ids yields that
      page's rows, column for column, in (timestamp, id) order. */
  lemma ListedRows(st: LegacyStore, pageId: nat, ids: seq<nat>)
    requires forall i :: 0 <= i < |ids| ==> ids[i] in CommentIdsOf(st, pageId)
    requires Ordered(ByTimestamp(st), ids)
    ensures forall i :: 0 <= i < |ids| ==> ids[i] in st.comments
    ensures var r := AsComments(st, ids);
      && (forall i :: 0 <= i < |r| ==> IsRowOf(st, pageId, r[i]))
      && (forall i, j :: 0 <= i < j < |r| ==>
            r[i].timestamp < r[j].timestamp || (r[i].timestamp == r[j].timestamp && r[i].id < r[j].id))
  {
    var r := AsComments(st, ids);
    forall i, j | 0 <= i < j < |r|
      ensures r[i].timestamp < r[j].timestamp || (r[i].timestamp == r[j].timestamp && r[i].id < r[j].id)
    {
      assert Precedes(ByTimestamp(st), ids[i], ids[j]);
    }
  }

  /** The comments with the given ids, in the given order. */
  function AsComments(st: LegacyStore, ids: seq<nat>): (r: seq<LegacyComment>)
    requires forall i :: 0 <= i < |ids| ==> ids[i] in st.comments
    ensures |r| == |ids|
    ensures forall i :: 0 <= i < |ids| ==> r[i] == AsComment(st, ids[i]) && r[i].id == ids[i]
  {
    seq(|ids|, i requires 0 <= i < |ids| => AsComment(st, ids[i]))
  }

  /** Reading a listing of the ids of `sel` yields each comment of `sel`
      and nothing else. */
  lemma CommentsOfListing(st: LegacyStore, ids: seq<nat>, sel: set<nat>)
    requires sel <= st.comments.Keys
    requires forall id :: id in ids <==> id in sel
    ensures forall i :: 0 <= i < |ids| ==> ids[i] in st.comments
    ensures var r := AsComments(st, ids);
      && (forall i :: 0 <= i < |r| ==> r[i].id in sel)
      && (forall id :: id in sel ==> exists i :: 0 <= i < |r| && r[i].id == id)
  {
    assert forall i :: 0 <= i < |ids| ==> ids[i] in sel;
    var r := AsComments(st, ids);
    forall id | id in sel ensures exists i :: 0 <= i < |r| && r[i].id == id {
      var i :| 0 <= i < |ids| && ids[i] == id;
      assert r[i].id == id;
    }
  }

  function CommentIdsOf(st: LegacyStore, pageId: nat): (r: set<nat>)
    ensures forall id :: id in r <==> id in st.comments && st.comments[id].pageId == Some(pageId as int)
  {
    set id | id in st.comments && st.comments[id].pageId == Some(pageId as int)
  }

  function ByTimestamp(st: LegacyStore): nat -> int {
    id => if id in st.comments then st.comments[id].timestamp else 0
  }

  function AsComment(st: LegacyStore, id: nat): LegacyComment
    requires id in st.comments
  {
    var row := st.comments[id];
    LegacyComment(id, row.userId, row.parentId, row.content, row.timestamp)
  }

  /** The comment section of a post: the top-level form (only for a
      logged-in viewer; otherwise the login prompt) and the comment tree
      from the root parent 0. */
  datatype CommentSection = CommentSection(pageId: nat, topForm: Option<CommentForm>, tree: seq<Rendered>)

  /** `showComments`: nothing for a page that does not exist. */
  function ShowComments(st: LegacyStore, postTitle: Title, viewer: Actor): (r: Option<CommentSection>)
    ensures r.None? <==> postTitle.pageId == 0
    ensures r.Some? ==>
      && r.value.pageId == postTitle.pageId
      && (r.value.topForm.Some? <==> viewer.user.Registered())
      && (r.value.topForm.Some? ==> !r.value.topForm.value.hidden && r.value.topForm.value.submitParent == 0)
      && Tops(r.value.tree) == Children(PageComments(st, postTitle.pageId), 0)
  {
    if postTitle.pageId == 0 then None
    else
      var cs := PageComments(st, postTitle.pageId);
      var form := if viewer.user.Registered() then Some(BuildCommentForm(0, None)) else None;
      Some(CommentSection(postTitle.pageId, form, BuildCommentTree(cs, 0, viewer, |cs|)))
  }

  /** Every comment of a rendered comment section carries the buttons its
      viewer is entitled to. */
  lemma SectionButtons(st: LegacyStore, postTitle: Title, viewer: Actor)
    ensures var r := ShowComments(st, postTitle, viewer);
      r.Some? ==> ButtonsFor(r.value.tree, viewer)
  {
    var cs := PageComments(st, postTitle.pageId);
    TreeButtons(cs, 0, viewer, |cs|);
  }

  /* ---------- page decoration ---------- */

  /** What `onBeforePageDisplay` adds to a page. */
  datatype Decoration =
    | Undecorated
    | IndexPage(index: IndexView)
    | CommentsPage(section: Option<CommentSection>)

  /** `onBeforePageDisplay`: only user-blog pages are decorated; a title
      without '/' gets the blog index of the user it names, one with '/'
      gets the comment section. */
  function OnBeforePageDisplay(st: LegacyStore, pages: map<nat, PageRow>, userIdByName: string -> nat,
                               t: Option<Title>, viewer: Actor): (r: Decoration)
    ensures r != Undecorated <==> t.Some? && t.value.ns == NS_USER_BLOG
    ensures r.IndexPage? <==> t.Some? && t.value.ns == NS_USER_BLOG && '/' !in t.value.text
    ensures r.IndexPage? ==> r.index == ShowUserBlogIndex(st, pages, userIdByName, t.value.text, viewer.user)
    ensures r.CommentsPage? ==> r.section == ShowComments(st, t.value, viewer)
  {
    if t.None? || t.value.ns != NS_USER_BLOG then Undecorated
    else if '/' !in t.value.text then IndexPage(ShowUserBlogIndex(st, pages, userIdByName, t.value.text, viewer.user))
    else CommentsPage(ShowComments(st, t.value, viewer))
  }
}

=== FILE: legacy_api.dfy ===
/** The legacy comment API (includes/Api/ApiBlogComment.php): a logged-in
    caller adds a comment to, or deletes a comment from, the legacy
    comment table. The API framework's parameter typing, token check and
    error-to-response mapping are outside the model; its requests arrive
    here already typed, with absent parameters as `None`. */
module LegacyApi {
  import opened Common
  import opened Php
  import opened Legacy

  datatype ApiRequest = ApiRequest(
    action: string,
    pageId: Option<int>,
    content: Option<string>,
    parentId: Option<int>,
    commentId: Option<int>)

  datatype ApiError = NotLoggedIn | InvalidAction | EmptyContent | NotFound | NoPermission

  datatype ApiReply =
    | ApiFailed(error: ApiError)
    | CommentAdded(id: nat, userId: nat, userName: string, parentId: Option<int>, content: string,
                   timestamp: Timestamp)
    | CommentDeleted(commentId: int)

  datatype ApiOutcome = ApiOutcome(store: LegacyStore, reply: ApiReply)

  /** The auto-increment discipline of the legacy table. */
  predicate Fresh(st: LegacyStore) {
    forall id :: id in st.comments ==> id < st.nextId
  }

  /** The submitted content, trimmed; "" when absent. */
  function RequestContent(req: ApiRequest): string {
    Trim(if req.content.Some? then req.content.value else "")
  }

  /** The row `addComment` inserts: the page id as given, the parent
      defaulting to 0. */
  function NewLegacyRow(caller: User, req: ApiRequest, now: Timestamp): LegacyRow {
    LegacyRow(req.pageId, caller.id, Some(if req.parentId.Some? then req.parentId.value else 0),
              RequestContent(req), now)
  }

  /** An insert into the auto-increment table: the row goes under the next
      id, the counter moves on, and every other row stays as it was. */
  function InsertRow(st: LegacyStore, row: LegacyRow): (r: LegacyStore)
    ensures r.nextId == st.nextId + 1
    ensures r.comments.Keys == st.comments.Keys + {st.nextId}
    ensures r.comments[st.nextId] == row
    ensures forall id :: id in st.comments && id != st.nextId ==> r.comments[id] == st.comments[id]
    ensures r.settings == st.settings
  {
    st.(comments := st.comments[st.nextId := row], nextId := st.nextId + 1)
  }

  /** `addComment`: the content is trimmed and rejected when PHP's empty()
      holds of it ("" or "0"); otherwise one row is inserted under the next
      id and the reply reports that row as stored. The page id is stored as
      given, without any check. */
  function AddLegacyComment(st: LegacyStore, caller: User, req: ApiRequest, now: Timestamp): (r: ApiOutcome)
    ensures EmptyString(RequestContent(req)) <==> r.reply == ApiFailed(EmptyContent)
    ensures EmptyString(RequestContent(req)) ==> r.store == st
    ensures !EmptyString(RequestContent(req)) ==>
      && r.store == InsertRow(st, NewLegacyRow(caller, req, now))
      && r.reply == CommentAdded(st.nextId, caller.id, caller.name, NewLegacyRow(caller, req, now).parentId,
                                 RequestContent(req), now)
  {
    var content := RequestContent(req);
    if EmptyString(content) then ApiOutcome(st, ApiFailed(EmptyContent))
    else
      var st' := InsertRow(st, NewLegacyRow(caller, req, now));
      var stored := st'.comments[st.nextId];
      ApiOutcome(st', CommentAdded(st.nextId, stored.userId, caller.name, stored.parentId, stored.content,
                                   stored.timestamp))
  }

  /** The caller may delete a comment it wrote, or any comment when it
      holds the delete right. */
  predicate MayDelete(caller: Actor, row: LegacyRow) {
    row.userId == caller.user.id || caller.IsAllowed(DeleteRight)
  }

  /** `deleteComment`: not found when no row has the id; no permission
      unless `MayDelete`; otherwise exactly that row is removed. */
  function DeleteLegacyComment(st: LegacyStore, caller: Actor, req: ApiRequest): (r: ApiOutcome)
    ensures var id := req.commentId;
      var found := id.Some? && id.value >= 0 && id.value as nat in st.comments;
      && (!found <==> r.reply == ApiFailed(NotFound))
      && (found && !MayDelete(caller, st.comments[id.value as nat]) <==> r.reply == ApiFailed(NoPermission))
      && (r.reply.ApiFailed? ==> r.store == st)
      && (!r.reply.ApiFailed? ==>
            && r.reply == CommentDeleted(id.value)
            && r.store == st.(comments := st.comments - {id.value as nat}))
  {
    var id := req.commentId;
    if id.None? || id.value < 0 || id.value as nat !in st.comments then ApiOutcome(st, ApiFailed(NotFound))
    else if !MayDelete(caller, st.comments[id.value as nat]) then ApiOutcome(st, ApiFailed(NoPermission))
    else ApiOutcome(st.(comments := st.comments - {id.value as nat}), CommentDeleted(id.value))
  }

  /** `execute`: the login check comes first, then the action dispatch. */
  function Execute(st: LegacyStore, caller: Actor, req: ApiRequest, now: Timestamp): (r: ApiOutcome)
    ensures !caller.user.Registered() ==> r == ApiOutcome(st, ApiFailed(NotLoggedIn))
    ensures caller.user.Registered() && req.action != "add" && req.action != "delete" ==>
      r == ApiOutcome(st, ApiFailed(InvalidAction))
    ensures caller.user.Registered() && req.action == "add" ==> r == AddLegacyComment(st, caller.user, req, now)
    ensures caller.user.Registered() && req.action == "delete" ==> r == DeleteLegacyComment(st, caller, req)
    ensures r.reply.ApiFailed? ==> r.store == st
  {
    if !caller.user.Registered() then ApiOutcome(st, ApiFailed(NotLoggedIn))
    else if req.action == "add" then AddLegacyComment(st, caller.user, req, now)
    else if req.action == "delete" then DeleteLegacyComment(st, caller, req)
    else ApiOutcome(st, ApiFailed(InvalidAction))
  }

  /** Stored content is never blank, "0", or padded with whitespace. */
  lemma AddedContentIsTrimmed(st: LegacyStore, caller: Actor, req: ApiRequest, now: Timestamp)
    ensures var r := Execute(st, caller, req, now);
      r.reply.CommentAdded? ==>
        && r.reply.content != "" && r.reply.content != "0"
        && !IsTrimChar(r.reply.content[0]) && !IsTrimChar(r.reply.content[|r.reply.content| - 1])
  {
  }

  /** Deleting a comment leaves its replies in place with their parent ids:
      there is no cascade. */
  lemma DeleteDoesNotCascade(st: LegacyStore, caller: Actor, req: ApiRequest, now: Timestamp, other: nat)
    requires req.action == "delete" && req.commentId.Some?
    requires other in st.comments && other as int != req.commentId.value
    ensures var r := Execute(st, caller, req, now);
      other in r.store.comments && r.store.comments[other] == st.comments[other]
  {
  }

  /** Removing a freshly inserted row undoes the insert. */
  lemma {:induction false} RemoveInserted(st: LegacyStore, row: LegacyRow)
    requires Fresh(st)
    ensures InsertRow(st, row).comments - {st.nextId} == st.comments
  {
    assert st.nextId !in st.comments;
  }

  /** A comment its author adds can be deleted by that author, which
      restores the comment table. */
  lemma {:induction false} AddThenDelete(st: LegacyStore, caller: Actor, req: ApiRequest, now: Timestamp)
    requires Fresh(st) && caller.user.Registered() && req.action == "add"
    requires Execute(st, caller, req, now).reply.CommentAdded?
    ensures var added := Execute(st, caller, req, now);
      var del := ApiRequest("delete", None, None, None, Some(added.reply.id));
      var r := Execute(added.store, caller, del, now);
      r.reply == CommentDeleted(added.reply.id) && r.store.comments == st.comments
  {
    var added := Execute(st, caller, req, now);
    var row := NewLegacyRow(caller.user, req, now);
    assert added.store == InsertRow(st, row) && added.reply.id == st.nextId;
    var del := ApiRequest("delete", None, None, None, Some(added.reply.id));
    assert MayDelete(caller, added.store.comments[st.nextId]);
    var r := DeleteLegacyComment(added.store, caller, del);
    assert r.store.comments == InsertRow(st, row).comments - {st.nextId};
    RemoveInserted(st, row);
  }
}

=== FILE: listing.dfy ===
/** Blog listing pages: the `{{#userblogs_listing:<category>|limit=<n>}}`
    parser function (includes/Hooks/Handlers/ParserHooks.php) and the
    special page that writes such a call into a new page
    (includes/Specials/SpecialCreateBlogListingPage.php). Arguments reach
    the parser function already expanded, as plain text. */
module Listing {
  import opened Common
  import opened Php
  import opened BlogStore
  import opened BlogQueries

  const DEFAULT_LISTING_LIMIT: nat := 20

  /* ---------- the limit argument ---------- */

  /** PCRE's `\s`: space, tab, line feed, vertical tab, form feed, carriage
      return. */
  predicate IsRegexSpace(c: char) {
    c == ' ' || c == '\t' || c == '\n' || c == '\r' || c as int == 0x0B || c as int == 0x0C
  }

  /** The first index at or after `i` that does not hold a `\s`
      character. */
  function SkipSpaceFrom(s: string, i: nat): (k: nat)
    requires i <= |s|
    ensures i <= k <= |s|
    ensures k < |s| ==> !IsRegexSpace(s[k])
    ensures forall j :: i <= j < k ==> IsRegexSpace(s[j])
    decreases |s| - i
  {
    if i < |s| && IsRegexSpace(s[i]) then SkipSpaceFrom(s, i + 1) else i
  }

  function LowerAscii(c: char): char {
    if 'A' <= c <= 'Z' then (c as int + 32) as char else c
  }

  /** `s` starts with "limit" in any mix of letter cases. */
  predicate StartsWithLimitWord(s: string) {
    |s| >= 5 && forall i :: 0 <= i < 5 ==> LowerAscii(s[i]) == "limit"[i]
  }

  /** The digits captured by `/^limit\s*=\s*(\d+)$/i`, if the whole string
      matches. The classes `\s`, `=` and `\d` share no character, so the
      match is the left-to-right scan below. */
  function MatchLimitArg(s: string): (r: Option<string>)
    ensures r.Some? ==> r.value != [] && AllDigits(r.value) && StartsWithLimitWord(s)
    ensures r.Some? ==> |r.value| <= |s| && s[|s| - |r.value|..] == r.value
  {
    if !StartsWithLimitWord(s) then None
    else
      var k := SkipSpaceFrom(s, 5);
      if k == |s| || s[k] != '=' then None
      else
        var m := SkipSpaceFrom(s, k + 1);
        if m < |s| && AllDigits(s[m..]) then Some(s[m..]) else None
  }

  /** The limit a second argument sets: max(1, N) for a match, where N is
      the (saturating) integer value of the digits; the default otherwise. */
  function LimitFromArg(arg: Option<string>): (limit: int)
    ensures 1 <= limit <= PHP_INT_MAX
    ensures arg.None? || MatchLimitArg(Trim(arg.value)).None? ==> limit == DEFAULT_LISTING_LIMIT
    ensures arg.Some? && MatchLimitArg(Trim(arg.value)).Some? ==>
      limit == Max(1, Saturate(DigitsValue(MatchLimitArg(Trim(arg.value)).value)))
  {
    if arg.None? then DEFAULT_LISTING_LIMIT else LimitFromText(Trim(arg.value))
  }

  /** The limit set by an already trimmed second argument. */
  function LimitFromText(text: string): (limit: int)
    ensures 1 <= limit <= PHP_INT_MAX
    ensures MatchLimitArg(text).None? ==> limit == DEFAULT_LISTING_LIMIT
    ensures MatchLimitArg(text).Some? ==> limit == Max(1, Saturate(DigitsValue(MatchLimitArg(text).value)))
  {
    match MatchLimitArg(text)
    case None => DEFAULT_LISTING_LIMIT
    case Some(digits) => IntCastOfDigits(digits); Max(1, IntCast(digits))
  }

  /** `s` matches `/^limit\s*=\s*(\d+)$/i` with the '=' at `k` and the
      captured digits starting at `m`: "limit" in any letter case, `\s`
      characters, '=', `\s` characters, then one or more digits to the
      end. */
  predicate LimitPatternAt(s: string, k: nat, m: nat) {
    && StartsWithLimitWord(s)
    && 5 <= k < m < |s|
    && (forall j :: 5 <= j < k ==> IsRegexSpace(s[j]))
    && s[k] == '='
    && (forall j :: k < j < m ==> IsRegexSpace(s[j]))
    && AllDigits(s[m..])
  }

  /** The scan in `MatchLimitArg` is the pattern: it matches exactly when
      some split of the string fits the pattern, and it captures the digits
      that split ends with. */
  lemma {:induction false} MatchLimitArgIsPattern(s: string)
    ensures forall k: nat, m: nat :: LimitPatternAt(s, k, m) ==> MatchLimitArg(s) == Some(s[m..])
    ensures MatchLimitArg(s).Some? ==>
      LimitPatternAt(s, SkipSpaceFrom(s, 5), SkipSpaceFrom(s, SkipSpaceFrom(s, 5) + 1))
      && MatchLimitArg(s).value == s[SkipSpaceFrom(s, SkipSpaceFrom(s, 5) + 1)..]
  {
    forall k: nat, m: nat | LimitPatternAt(s, k, m) ensures MatchLimitArg(s) == Some(s[m..]) {
      PatternSplitIsScan(s, k, m);
    }
  }

  /** A split that fits the pattern is the one the scan finds: the '=' is
      the first non-`\s` character after "limit", and the digits start at
      the first non-`\s` character after it. */
  lemma PatternSplitIsScan(s: string, k: nat, m: nat)
    requires LimitPatternAt(s, k, m)
    ensures SkipSpaceFrom(s, 5) == k && SkipSpaceFrom(s, k + 1) == m
  {
    assert !IsRegexSpace(s[k]);
    assert IsDigit(s[m..][0]);
  }

  /* ---------- the parser function ---------- */

  datatype ListingArgs = ListingArgs(category: string, limit: int)

  datatype Parsed = MissingCategory | Args(args: ListingArgs)

  /** The argument handling of `renderUserBlogsListing`: a first argument
      that is absent or blank after trimming is the missing-category error;
      otherwise the trimmed category and the limit of the second argument. */
  function ParseListingArgs(args: seq<string>): (r: Parsed)
    ensures r == MissingCategory <==> args == [] || Trim(args[0]) == ""
    ensures r.Args? ==> r.args.category == Trim(args[0]) && r.args.category != ""
    ensures r.Args? ==> 1 <= r.args.limit <= PHP_INT_MAX
    ensures r.Args? && |args| < 2 ==> r.args.limit == DEFAULT_LISTING_LIMIT
  {
    if args == [] then MissingCategory
    else
      var category := Trim(args[0]);
      if category == "" then MissingCategory
      else Args(ListingArgs(category, LimitFromArg(if |args| >= 2 then Some(args[1]) else None)))
  }

  datatype ListingOutput =
    | ListingError                                  // the missing-category message
    | EmptyListing(category: string)               // the no-posts message
    | PostsListing(category: string, posts: seq<PostView>)

  /** `renderUserBlogsListing`: the service is asked for the first `limit`
      posts of the trimmed category; an empty answer shows the empty-listing
      message instead of a list. */
  function RenderUserBlogsListing(s: Store, w: Wiki, args: seq<string>): (r: ListingOutput)
    ensures r == ListingError <==> ParseListingArgs(args) == MissingCategory
    ensures r.EmptyListing? ==>
      var a := ParseListingArgs(args).args;
      r.category == a.category && GetPostsByCategory(s, w, a.category, a.limit, 0) == []
    ensures r.PostsListing? ==>
      var a := ParseListingArgs(args).args;
      && r.category == a.category
      && r.posts == GetPostsByCategory(s, w, a.category, a.limit, 0)
      && r.posts != [] && |r.posts| <= a.limit
  {
    match ParseListingArgs(args)
    case MissingCategory => ListingError
    case Args(a) =>
      var posts := GetPostsByCategory(s, w, a.category, a.limit, 0);
      if posts == [] then EmptyListing(a.category) else PostsListing(a.category, posts)
  }

  /* ---------- writing a listing page ---------- */

  /** The text around the arguments of a listing call. */
  const CALL_OPEN: string := "{{#userblogs_listing:"
  const CALL_CLOSE: string := "}}"

  /** The listing call written into a new page. */
  function ListingWikitext(category: string, limit: nat): string {
    CALL_OPEN + category + "|" + LimitArg(limit) + CALL_CLOSE
  }

  /** The second argument of the listing call. */
  function LimitArg(limit: nat): string {
    "limit=" + NatToString(limit)
  }

  /** The limit field of the form: the (int) cast of the trimmed text,
      20 when that is not positive. */
  function ListingLimit(text: string): (limit: nat)
    ensures 1 <= limit <= PHP_INT_MAX
    ensures IntCast(Trim(text)) > 0 ==> limit == IntCast(Trim(text))
    ensures IntCast(Trim(text)) <= 0 ==> limit == DEFAULT_LISTING_LIMIT
  {
    var v := IntCast(Trim(text));
    if v <= 0 then DEFAULT_LISTING_LIMIT else v
  }

  /** A limit typed in exponent notation counts at its full value:
      "1e3" is a limit of 1000, not 1. */
  lemma ListingLimitOfExponent(ds: string, es: string)
    requires ds != [] && AllDigits(ds) && es != [] && AllDigits(es) && DigitsValue(ds) > 0
    ensures ListingLimit(ds + "e" + es) == Min(PHP_INT_MAX, DigitsValue(ds) * Pow10(DigitsValue(es)))
  {
    var s := ds + "e" + es;
    assert s[0] == ds[0] && IsDigit(s[0]) && !IsTrimChar(s[0]);
    assert s[|s| - 1] == es[|es| - 1] && IsDigit(s[|s| - 1]) && !IsTrimChar(s[|s| - 1]);
    assert Trim(s) == s;
    IntCastOfExponent(ds, es);
    TruncScaledUp(DigitsValue(ds), DigitsValue(es));
    TruncScaledGrows(DigitsValue(ds), DigitsValue(es));
  }

  datatype ListingForm = ListingForm(pageTitle: string, category: string, limit: string)

  datatype CreateListingOutcome =
    | ListingPermissionsError
    /** HTMLForm did not submit: no valid edit token, or an empty page
        title or category field; the form is shown again. */
    | ListingFormRejected
    | MissingPageTitle
    | MissingCategoryText
    | InvalidPageTitle
    | ListingPageExists
    | ListingEditFailed(title: Title, wikitext: string)
    | ListingCreated(title: Title, wikitext: string)     // saved, then redirected

  /** `onSubmit`: both fields are trimmed; the title text must be
      non-empty, then the category; the title must parse to a page outside
      the special namespace that does not exist yet. Only then is the
      listing call saved, and a successful save redirects to the page. The
      wiki's title parser and the page save are parameters. */
  function SubmitListingForm(form: ListingForm, parseTitle: string -> Option<Title>,
                             save: (Title, string) -> bool): (r: CreateListingOutcome)
    ensures !r.ListingPermissionsError? && !r.ListingFormRejected?
    ensures r.MissingPageTitle? <==> Trim(form.pageTitle) == ""
    ensures r.MissingCategoryText? <==> Trim(form.pageTitle) != "" && Trim(form.category) == ""
    ensures r.InvalidPageTitle? <==>
      (Trim(form.pageTitle) != "" && Trim(form.category) != ""
       && (parseTitle(Trim(form.pageTitle)).None? || parseTitle(Trim(form.pageTitle)).value.isSpecial))
    ensures r.ListingPageExists? ==> parseTitle(Trim(form.pageTitle)).value.Exists()
    ensures r.ListingEditFailed? || r.ListingCreated? ==>
      && parseTitle(Trim(form.pageTitle)) == Some(r.title)
      && !r.title.isSpecial && !r.title.Exists()
      && r.wikitext == ListingWikitext(Trim(form.category), ListingLimit(form.limit))
      && (r.ListingCreated? <==> save(r.title, r.wikitext))
  {
    ListingFromFields(Trim(form.pageTitle), Trim(form.category), ListingLimit(form.limit), parseTitle, save)
  }

  /** `onSubmit` from the point where the fields are trimmed and the limit
      is cast. */
  function ListingFromFields(pageTitleText: string, categoryText: string, limit: nat,
                             parseTitle: string -> Option<Title>, save: (Title, string) -> bool): (r: CreateListingOutcome)
    ensures !r.ListingPermissionsError? && !r.ListingFormRejected?
    ensures r.MissingPageTitle? <==> pageTitleText == ""
    ensures r.MissingCategoryText? <==> pageTitleText != "" && categoryText == ""
    ensures r.InvalidPageTitle? <==>
      (pageTitleText != "" && categoryText != ""
       && (parseTitle(pageTitleText).None? || parseTitle(pageTitleText).value.isSpecial))
    ensures r.ListingPageExists? ==> parseTitle(pageTitleText).value.Exists()
    ensures r.ListingEditFailed? || r.ListingCreated? ==>
      && parseTitle(pageTitleText) == Some(r.title)
      && !r.title.isSpecial && !r.title.Exists()
      && r.wikitext == ListingWikitext(categoryText, limit)
      && (r.ListingCreated? <==> save(r.title, r.wikitext))
  {
    if pageTitleText == "" then MissingPageTitle
    else if categoryText == "" then MissingCategoryText
    else
      var parsed := parseTitle(pageTitleText);
      if parsed.None? || parsed.value.isSpecial then InvalidPageTitle
      else if parsed.value.Exists() then ListingPageExists
      else
        var wikitext := ListingWikitext(categoryText, limit);
        if save(parsed.value, wikitext) then ListingCreated(parsed.value, wikitext)
        else ListingEditFailed(parsed.value, wikitext)
  }

  /** The required fields of the listing form: page title and category;
      the limit may be left empty. */
  function ListingFormRequired(form: ListingForm): seq<string> {
    [form.pageTitle, form.category]
  }

  /** The special page: only a registered user holding the posting right
      reaches the form, and HTMLForm hands it to `onSubmit` only with a
      valid token and both required fields filled in. */
  function CreateListingPage(actor: Actor, form: ListingForm, tokenOk: bool, parseTitle: string -> Option<Title>,
                             save: (Title, string) -> bool): (r: CreateListingOutcome)
    ensures r.ListingPermissionsError? <==> !actor.user.Registered() || !actor.IsAllowed(PostRight)
    ensures r.ListingFormRejected? <==>
      !r.ListingPermissionsError? && (!tokenOk || form.pageTitle == "" || form.category == "")
    ensures !r.ListingPermissionsError? && !r.ListingFormRejected? ==>
      r == SubmitListingForm(form, parseTitle, save)
  {
    if !actor.user.Registered() || !actor.IsAllowed(PostRight) then ListingPermissionsError
    else if !FormSubmits(tokenOk, ListingFormRequired(form)) then ListingFormRejected
    else
      assert ListingFormRequired(form)[0] == form.pageTitle && ListingFormRequired(form)[1] == form.category;
      SubmitListingForm(form, parseTitle, save)
  }

  /* ---------- reading the call back ---------- */

  /** `s` cut at every `sep`. */
  function Split(s: string, sep: char): (r: seq<string>)
    ensures |r| >= 1
    decreases |s|
  {
    if s == [] then [""]
    else
      var rest := Split(s[1..], sep);
      if s[0] == sep then [""] + rest else [[s[0]] + rest[0]] + rest[1..]
  }

  lemma {:induction false} SplitWithoutSep(s: string, sep: char)
    requires sep !in s
    ensures Split(s, sep) == [s]
    decreases |s|
  {
    if s != [] {
      SplitWithoutSep(s[1..], sep);
      assert [s[0]] + s[1..] == s;
    }
  }

  lemma {:induction false} SplitAtFirstSep(a: string, b: string, sep: char)
    requires sep !in a
    ensures Split(a + [sep] + b, sep) == [a] + Split(b, sep)
    decreases |a|
  {
    if a == [] {
      assert a + [sep] + b == [sep] + b;
      assert ([sep] + b)[1..] == b;
    } else {
      SplitAtFirstSep(a[1..], b, sep);
      assert (a + [sep] + b)[1..] == a[1..] + [sep] + b;
      assert [a[0]] + a[1..] == a;
    }
  }

  /** The arguments of a page consisting of one listing call: the text
      between the call's opening and closing braces, cut at '|'. */
  function SplitListingCall(w: string): (r: Option<seq<string>>)
  {
    if |w| >= |CALL_OPEN| + |CALL_CLOSE| && CALL_OPEN <= w && w[|w| - |CALL_CLOSE|..] == CALL_CLOSE
    then Some(Split(w[|CALL_OPEN|..|w| - |CALL_CLOSE|], '|'))
    else None
  }

  /** The text "limit=" followed by digits matches the pattern and
      captures exactly those digits. */
  lemma MatchEmittedLimit(ds: string)
    requires ds != [] && AllDigits(ds)
    ensures MatchLimitArg("limit=" + ds) == Some(ds)
  {
    var s := "limit=" + ds;
    assert StartsWithLimitWord(s) by {
      assert s[0] == 'l' && s[1] == 'i' && s[2] == 'm' && s[3] == 'i' && s[4] == 't';
    }
    assert s[5] == '=' && !IsRegexSpace(s[5]);
    assert SkipSpaceFrom(s, 5) == 5;
    assert s[6] == ds[0] && IsDigit(ds[0]);
    assert SkipSpaceFrom(s, 6) == 6;
    assert s[6..] == ds;
  }

  /** The text "limit=" followed by digits has nothing for trim() to
      remove. */
  lemma EmittedLimitIsTrimmed(ds: string)
    requires ds != [] && AllDigits(ds)
    ensures Trim("limit=" + ds) == "limit=" + ds
  {
    var s := "limit=" + ds;
    assert s[0] == 'l' && !IsTrimChar(s[0]);
    assert IsDigit(ds[|ds| - 1]);
    assert s[|s| - 1] == ds[|ds| - 1] && !IsTrimChar(s[|s| - 1]);
  }

  /** A trimmed argument that matches sets the limit from its digits. */
  lemma LimitOfMatch(arg: string, ds: string)
    requires Trim(arg) == arg && MatchLimitArg(arg) == Some(ds)
    ensures AllDigits(ds) && LimitFromArg(Some(arg)) == Max(1, Saturate(DigitsValue(ds)))
    ensures AllDigits(ds) && DigitsValue(ds) <= PHP_INT_MAX ==> LimitFromArg(Some(arg)) == Max(1, DigitsValue(ds))
  {
    if DigitsValue(ds) <= PHP_INT_MAX {
      SaturateInRange(DigitsValue(ds));
    }
  }

  /** A "limit=" argument with an in-range digit string sets the limit to
      the value of the digits, or 1 for zero. */
  lemma {:induction false} DigitsLimit(ds: string)
    requires ds != [] && AllDigits(ds) && DigitsValue(ds) <= PHP_INT_MAX
    ensures LimitFromArg(Some("limit=" + ds)) == Max(1, DigitsValue(ds))
  {
    var arg := "limit=" + ds;
    EmittedLimitIsTrimmed(ds);
    MatchEmittedLimit(ds);
    LimitOfMatch(arg, ds);
  }

  /** The limit argument the special page writes is matched by the parser
      function's pattern and reads back as the same number. */
  lemma {:induction false} LimitArgRoundTrip(n: nat)
    requires 1 <= n <= PHP_INT_MAX
    ensures LimitFromArg(Some("limit=" + NatToString(n))) == n
  {
    DigitsLimit(NatToString(n));
  }

  /** A call whose two arguments hold no '|' splits back into them. */
  lemma {:induction false} SplitCallOf(first: string, second: string)
    requires '|' !in first && '|' !in second
    ensures SplitListingCall(CALL_OPEN + first + "|" + second + CALL_CLOSE) == Some([first, second])
  {
    var inner := first + ['|'] + second;
    var w := CALL_OPEN + first + "|" + second + CALL_CLOSE;
    assert w == CALL_OPEN + inner + CALL_CLOSE;
    assert CALL_OPEN <= w;
    assert w[|w| - |CALL_CLOSE|..] == CALL_CLOSE;
    assert w[|CALL_OPEN|..|w| - |CALL_CLOSE|] == inner;
    SplitAtFirstSep(first, second, '|');
    SplitWithoutSep(second, '|');
    assert Split(inner, '|') == [first, second];
  }

  /** The limit argument the special page writes holds no '|'. */
  lemma NoBarInLimitArg(ds: string)
    requires AllDigits(ds)
    ensures '|' !in "limit=" + ds
  {
    var arg := "limit=" + ds;
    forall i | 0 <= i < |arg| ensures arg[i] != '|' {
      if i >= 6 { assert arg[i] == ds[i - 6]; assert IsDigit(ds[i - 6]); }
    }
  }

  /** The arguments the special page writes parse back as its category
      and limit. */
  lemma {:induction false} ParseEmittedArgs(category: string, n: nat)
    requires Trim(category) == category && category != ""
    requires 1 <= n <= PHP_INT_MAX
    ensures ParseListingArgs([category, "limit=" + NatToString(n)]) == Args(ListingArgs(category, n))
  {
    LimitArgRoundTrip(n);
  }

  /** A listing page created by the special page holds a call that the
      parser function reads back as the same category and limit, for a
      category without '|', '{' or '}'. */
  lemma {:induction false} ListingRoundTrip(category: string, limitText: string)
    requires Trim(category) == category && category != ""
    requires '|' !in category && '{' !in category && '}' !in category
    ensures var n := ListingLimit(limitText);
      var w := ListingWikitext(category, n);
      && SplitListingCall(w) == Some([category, "limit=" + NatToString(n)])
      && ParseListingArgs([category, "limit=" + NatToString(n)]) == Args(ListingArgs(category, n))
  {
    var n := ListingLimit(limitText);
    NoBarInLimitArg(NatToString(n));
    SplitCallOf(category, LimitArg(n));
    ParseEmittedArgs(category, n);
  }
}

=== FILE: notifications.dfy ===
/** Who is told about a new comment
    (includes/Hooks/Handlers/NotificationHooks.php): the handler of the
    `UserBlogsAfterCommentAdded` hook reads the post row and the parent
    comment row from the blog tables and sends at most one notification to
    the post's author and at most one to the parent comment's author. The
    wiki's user table is the `registered` parameter; delivery and
    presentation are outside the model. */
module Notifications {
  import opened Common
  import opened BlogStore

  /** A notification as sent: its type, the one recipient, the commenter
      as agent, the post title and the extra payload. */
  datatype Notification =
    | CommentOnPost(recipient: nat, agent: User, postTitle: Title, postPageId: nat, commentId: nat)
    | ReplyToComment(recipient: nat, agent: User, postTitle: Title, postPageId: nat, commentId: nat,
                     parentCommentId: int)

  /** `getPostInfo`: the author id of the page's post row. */
  function PostAuthorOf(s: Store, postTitle: Title): (r: Option<nat>)
    ensures r.Some? <==> postTitle.pageId in s.posts
    ensures r.Some? ==> r.value == s.posts[postTitle.pageId].userId
  {
    if postTitle.pageId in s.posts then Some(s.posts[postTitle.pageId].userId) else None
  }

  /** `getCommentInfo`: the author of a comment, looked up by id alone. */
  function CommentAuthorOf(s: Store, commentId: int): (r: Option<nat>)
    ensures r.Some? <==> CommentAt(s, commentId).Some?
    ensures r.Some? ==> r.value == s.comments[commentId as nat].author
  {
    match CommentAt(s, commentId)
    case None => None
    case Some(row) => Some(row.author)
  }

  /** Whether `who`, someone other than the commenter, is a registered
      user to notify. */
  predicate ShouldNotify(who: Option<nat>, commenter: User, registered: nat -> bool) {
    who.Some? && who.value != commenter.id && registered(who.value)
  }

  /** The post-author notification, if any. */
  function PostAuthorNotice(s: Store, registered: nat -> bool, postTitle: Title, commentId: nat,
                            author: User): Option<Notification>
  {
    var who := PostAuthorOf(s, postTitle);
    if ShouldNotify(who, author, registered)
    then Some(CommentOnPost(who.value, author, postTitle, postTitle.pageId, commentId))
    else None
  }

  /** The parent-author notification, if any; considered only for a reply. */
  function ReplyNotice(s: Store, registered: nat -> bool, postTitle: Title, commentId: nat,
                       author: User, parentCommentId: Option<int>): Option<Notification>
  {
    if parentCommentId.None? then None
    else
      var who := CommentAuthorOf(s, parentCommentId.value);
      if ShouldNotify(who, author, registered)
      then Some(ReplyToComment(who.value, author, postTitle, postTitle.pageId, commentId, parentCommentId.value))
      else None
  }

  function OptionToSeq<T>(o: Option<T>): seq<T> {
    if o.Some? then [o.value] else []
  }

  /** The post's author is told: the page has a post row whose author is
      registered and is not the commenter. */
  ghost predicate PostNoticeDue(s: Store, registered: nat -> bool, postTitle: Title, author: User) {
    && postTitle.pageId in s.posts
    && s.posts[postTitle.pageId].userId != author.id
    && registered(s.posts[postTitle.pageId].userId)
  }

  /** The parent's author is told: the comment is a reply, the parent row
      exists, and its author is registered and is not the commenter. */
  ghost predicate ReplyNoticeDue(s: Store, registered: nat -> bool, author: User, parentCommentId: Option<int>) {
    && parentCommentId.Some?
    && parentCommentId.value >= 0
    && parentCommentId.value as nat in s.comments
    && s.comments[parentCommentId.value as nat].author != author.id
    && registered(s.comments[parentCommentId.value as nat].author)
  }

  /** `onUserBlogsAfterCommentAdded`: the notifications sent, in order. */
  function OnCommentAdded(s: Store, registered: nat -> bool, postTitle: Title, commentId: nat,
                          author: User, parentCommentId: Option<int>): (r: seq<Notification>)
    ensures |r| <= 2
    ensures forall i :: 0 <= i < |r| ==>
      && r[i].recipient != author.id
      && registered(r[i].recipient)
      && r[i].agent == author && r[i].postTitle == postTitle
      && r[i].postPageId == postTitle.pageId && r[i].commentId == commentId
    ensures |r| == (if PostNoticeDue(s, registered, postTitle, author) then 1 else 0)
                  + (if ReplyNoticeDue(s, registered, author, parentCommentId) then 1 else 0)
    ensures PostNoticeDue(s, registered, postTitle, author) <==> |r| > 0 && r[0].CommentOnPost?
    ensures ReplyNoticeDue(s, registered, author, parentCommentId) <==> |r| > 0 && r[|r| - 1].ReplyToComment?
    ensures forall i :: 0 <= i < |r| && r[i].CommentOnPost? ==> r[i].recipient == s.posts[postTitle.pageId].userId
    ensures forall i :: 0 <= i < |r| && r[i].ReplyToComment? ==>
      && parentCommentId == Some(r[i].parentCommentId)
      && r[i].recipient == s.comments[r[i].parentCommentId as nat].author
  {
    OptionToSeq(PostAuthorNotice(s, registered, postTitle, commentId, author))
      + OptionToSeq(ReplyNotice(s, registered, postTitle, commentId, author, parentCommentId))
  }

  /** No de-duplication: when the post's author also wrote the parent
      comment, and is registered and not the commenter, that user gets two
      notifications. */
  lemma {:induction false} SameAuthorNotifiedTwice(s: Store, registered: nat -> bool, postTitle: Title,
                                                   commentId: nat, author: User, parentCommentId: int)
    requires postTitle.pageId in s.posts
    requires CommentAt(s, parentCommentId).Some?
    requires CommentAt(s, parentCommentId).value.author == s.posts[postTitle.pageId].userId
    requires s.posts[postTitle.pageId].userId != author.id && registered(s.posts[postTitle.pageId].userId)
    ensures var r := OnCommentAdded(s, registered, postTitle, commentId, author, Some(parentCommentId));
      |r| == 2 && r[0].recipient == r[1].recipient && r[0].CommentOnPost? && r[1].ReplyToComment?
  {
    var r := OnCommentAdded(s, registered, postTitle, commentId, author, Some(parentCommentId));
    assert PostAuthorNotice(s, registered, postTitle, commentId, author).Some?;
    assert ReplyNotice(s, registered, postTitle, commentId, author, Some(parentCommentId)).Some?;
  }

  /** The parent lookup ignores which post the parent belongs to: moving
      the parent comment to another page changes nothing that is sent. */
  lemma ParentPostIgnored(s: Store, registered: nat -> bool, postTitle: Title, commentId: nat,
                          author: User, parentCommentId: int, otherPage: nat)
    requires CommentAt(s, parentCommentId).Some?
    ensures var moved := s.(comments := s.comments[parentCommentId as nat :=
                              s.comments[parentCommentId as nat].(postPageId := otherPage)]);
      OnCommentAdded(moved, registered, postTitle, commentId, author, Some(parentCommentId))
        == OnCommentAdded(s, registered, postTitle, commentId, author, Some(parentCommentId))
  {
  }
}

=== FILE: ordering.dfy ===
/** Ordered reads over keyed tables. Every `ORDER BY` in the blog code sorts
    rows by one column and, where the column ties, the model breaks the tie
    by the row's key; a row's position is then its rank: the number of rows
    that come before it. A page of results is the window of ranks
    [offset, offset + limit). */
module Ordering {
  import opened Common

  /** `a` comes strictly before `b`: a smaller major key, or an equal major
      key and a smaller id. */
  predicate Precedes(major: nat -> int, a: nat, b: nat) {
    major(a) < major(b) || (major(a) == major(b) && a < b)
  }

  /** Every element strictly precedes every later element. */
  predicate Ordered(major: nat -> int, xs: seq<nat>) {
    forall i, j :: 0 <= i < j < |xs| ==> Precedes(major, xs[i], xs[j])
  }

  /** The tail of an ordered sequence is ordered. */
  lemma OrderedTail(major: nat -> int, xs: seq<nat>)
    requires Ordered(major, xs) && xs != []
    ensures Ordered(major, xs[1..])
  {
    forall i, j | 0 <= i < j < |xs| - 1 ensures Precedes(major, xs[1..][i], xs[1..][j]) {
      assert xs[1..][i] == xs[i + 1] && xs[1..][j] == xs[j + 1];
    }
  }

  /** An element that precedes everything in an ordered sequence can be
      put in front of it. */
  lemma OrderedCons(major: nat -> int, x: nat, xs: seq<nat>)
    requires Ordered(major, xs)
    requires forall j :: 0 <= j < |xs| ==> Precedes(major, x, xs[j])
    ensures Ordered(major, [x] + xs)
  {
    var ys := [x] + xs;
    forall i, j | 0 <= i < j < |ys| ensures Precedes(major, ys[i], ys[j]) {
      assert ys[j] == xs[j - 1];
      if i > 0 { assert ys[i] == xs[i - 1]; }
    }
  }

  /** The number of elements of `s` that come before `x`. */
  function Rank(s: set<nat>, major: nat -> int, x: nat): nat {
    |set y | y in s && Precedes(major, y, x)|
  }

  lemma PrecedesTransitive(major: nat -> int)
    ensures forall a, b, c :: Precedes(major, a, b) && Precedes(major, b, c) ==> Precedes(major, a, c)
  {
  }

  lemma LeastExists(s: set<nat>, major: nat -> int)
    requires s != {}
    ensures exists m :: m in s && forall y :: y in s && y != m ==> Precedes(major, m, y)
  {
    var m := LeastOf(s, major);
  }

  /** A least element of a non-empty set, found by induction on the set. */
  lemma {:induction false} LeastOf(s: set<nat>, major: nat -> int) returns (m: nat)
    requires s != {}
    ensures m in s && forall y :: y in s && y != m ==> Precedes(major, m, y)
    decreases s
  {
    var x :| x in s;
    if s == {x} {
      m := x;
    } else {
      var rest := s - {x};
      var k := LeastOf(rest, major);
      if Precedes(major, k, x) {
        m := k;
        forall y | y in s && y != m ensures Precedes(major, m, y) {
          if y != x {
            assert y in rest;
          }
        }
      } else {
        m := x;
        forall y | y in s && y != x ensures Precedes(major, x, y) {
          if y != k {
            assert y in rest && Precedes(major, k, y);
          }
        }
      }
    }
  }

  /** The element of a non-empty set that precedes all the others. */
  function Least(s: set<nat>, major: nat -> int): (m: nat)
    requires s != {}
    ensures m in s
    ensures forall y :: y in s && y != m ==> Precedes(major, m, y)
  {
    LeastExists(s, major);
    var m :| m in s && forall y :: y in s && y != m ==> Precedes(major, m, y);
    m
  }

  /** The elements of `s` listed in order: ordered, and holding exactly the
      elements of `s`, each once. */
  function OrderBy(s: set<nat>, major: nat -> int): (r: seq<nat>)
    ensures Ordered(major, r)
    ensures forall x :: x in r <==> x in s
    ensures |r| == |s|
    decreases s
  {
    if s == {} then []
    else
      var m := Least(s, major);
      var rest := OrderBy(s - {m}, major);
      assert forall j :: 0 <= j < |rest| ==> rest[j] in s - {m};
      [m] + rest
  }

  /** The window [offset, offset + limit) of a sequence. */
  function Window<T>(xs: seq<T>, offset: nat, limit: nat): (r: seq<T>)
    ensures |r| == if offset >= |xs| then 0 else Min(limit, |xs| - offset)
    ensures forall i :: 0 <= i < |r| ==> r[i] == xs[offset + i]
  {
    if offset >= |xs| then [] else xs[offset .. Min(|xs|, offset + limit)]
  }

  /** In an ordered listing of `s`, each element's position is its rank. */
  lemma {:induction false} RankIsPosition(s: set<nat>, major: nat -> int, xs: seq<nat>, k: nat)
    requires Ordered(major, xs)
    requires forall x :: x in xs <==> x in s
    requires k < |xs|
    ensures Rank(s, major, xs[k]) == k
  {
    var before := set y | y in s && Precedes(major, y, xs[k]);
    var prefix := xs[..k];
    forall y
      ensures y in before <==> y in prefix
    {
      if y in prefix {
        var i :| 0 <= i < k && prefix[i] == y;
        assert xs[i] == y;
      }
      if y in before {
        var i :| 0 <= i < |xs| && xs[i] == y;
        assert i < k;
        assert prefix[i] == y;
      }
    }
    assert before == Elements(prefix);
    OrderedPrefixCard(major, prefix);
  }

  /** The elements of a sequence, as a set. */
  function Elements(xs: seq<nat>): set<nat> {
    set y | y in xs
  }

  lemma {:induction false} OrderedPrefixCard(major: nat -> int, xs: seq<nat>)
    requires Ordered(major, xs)
    ensures |Elements(xs)| == |xs|
  {
    if xs != [] {
      var tail := xs[1..];
      OrderedPrefixCard(major, tail);
      assert forall j :: 0 <= j < |tail| ==> Precedes(major, xs[0], tail[j]) by {
        forall j | 0 <= j < |tail| ensures Precedes(major, xs[0], tail[j]) {
          assert tail[j] == xs[j + 1];
        }
      }
      assert xs[0] !in tail;
      assert Elements(xs) == {xs[0]} + Elements(tail);
    }
  }

  /** `w` is the page [offset, offset + limit) of `s` listed in order: as
      long as the ranks in that range allow, in order, the i-th element of
      rank offset + i, and holding exactly the elements whose rank falls in
      the range. */
  ghost predicate IsPage(s: set<nat>, major: nat -> int, offset: nat, limit: nat, w: seq<nat>) {
    && |w| == (if offset >= |s| then 0 else Min(limit, |s| - offset))
    && Ordered(major, w)
    && (forall i :: 0 <= i < |w| ==> Rank(s, major, w[i]) == offset + i)
    && (forall x :: x in w <==> x in s && offset <= Rank(s, major, x) < offset + limit)
  }

  /** The window of the ordered listing is the page. */
  lemma RankedWindow(s: set<nat>, major: nat -> int, offset: nat, limit: nat)
    ensures IsPage(s, major, offset, limit, Window(OrderBy(s, major), offset, limit))
  {
    var xs := OrderBy(s, major);
    WindowOrdered(major, xs, offset, limit);
    WindowRanks(s, major, xs, offset, limit);
    WindowMembers(s, major, xs, offset, limit);
  }

  lemma WindowOrdered(major: nat -> int, xs: seq<nat>, offset: nat, limit: nat)
    requires Ordered(major, xs)
    ensures Ordered(major, Window(xs, offset, limit))
  {
    var w := Window(xs, offset, limit);
    forall i, j | 0 <= i < j < |w| ensures Precedes(major, w[i], w[j]) {
      assert w[i] == xs[offset + i] && w[j] == xs[offset + j];
    }
  }

  lemma WindowRanks(s: set<nat>, major: nat -> int, xs: seq<nat>, offset: nat, limit: nat)
    requires Ordered(major, xs)
    requires forall x :: x in xs <==> x in s
    ensures var w := Window(xs, offset, limit);
      forall i :: 0 <= i < |w| ==> Rank(s, major, w[i]) == offset + i
  {
    var w := Window(xs, offset, limit);
    forall i | 0 <= i < |w|
      ensures Rank(s, major, w[i]) == offset + i
    {
      RankIsPosition(s, major, xs, offset + i);
    }
  }

  lemma {:induction false} WindowMembers(s: set<nat>, major: nat -> int, xs: seq<nat>, offset: nat, limit: nat)
    requires Ordered(major, xs)
    requires forall x :: x in xs <==> x in s
    ensures var w := Window(xs, offset, limit);
      forall x :: x in w <==> x in s && offset <= Rank(s, major, x) < offset + limit
  {
    var w := Window(xs, offset, limit);
    forall x | x in w
      ensures x in s && offset <= Rank(s, major, x) < offset + limit
    {
      var i :| 0 <= i < |w| && w[i] == x;
      assert xs[offset + i] == x;
      RankIsPosition(s, major, xs, offset + i);
    }
    forall x | x in s && offset <= Rank(s, major, x) < offset + limit
      ensures x in w
    {
      var k :| 0 <= k < |xs| && xs[k] == x;
      RankIsPosition(s, major, xs, k);
      assert w[k - offset] == x;
    }
  }

}

=== FILE: page_routing.dfy ===
/** What the skin hook adds to a page (includes/Hooks/Handlers/OutputHooks.php):
    the routing of a title to one of the blog views, the fixed page sizes
    those views ask the blog service for, and the handling of a comment
    posted from a blog post's comment block. HTML and messages are outside
    the model; a view is the data it shows. */
module PageRouting {
  import opened Common
  import opened Php
  import opened BlogStore
  import opened BlogQueries

  /** Every listing view asks for 50 posts from the start. */
  const LISTING_PAGE_SIZE: nat := 50
  /** The comment block asks for 100 comments from the start. */
  const COMMENTS_PAGE_SIZE: nat := 100
  const RECENT_POSTS_TEXT: string := "Recent posts"

  datatype Route =
    | NoRoute
    | RecentPostsPage
    | BlogCategoryPage(categoryName: string)
    | UserBlogIndex(username: string)
    | CommentsBlock(post: Title)

  predicate IsRecentPostsTitle(t: Title) {
    t.InNamespace(NS_BLOG) && !t.isSpecial && t.text == RECENT_POSTS_TEXT
  }

  /** `onBeforePageDisplay`: the first matching branch decides. The recent
      posts page is checked before the category branch; a subpage in the Blog
      namespace matches no branch. */
  function RouteOf(t: Option<Title>): (r: Route)
    ensures t.None? ==> r == NoRoute
    ensures r.RecentPostsPage? <==> t.Some? && IsRecentPostsTitle(t.value)
    ensures r.BlogCategoryPage? <==>
      t.Some? && t.value.InNamespace(NS_BLOG) && !t.value.IsSubpage() && !IsRecentPostsTitle(t.value)
    ensures r.UserBlogIndex? <==> t.Some? && t.value.InNamespace(NS_USER_BLOG) && !t.value.IsSubpage()
    ensures r.CommentsBlock? <==> t.Some? && t.value.InNamespace(NS_USER_BLOG) && t.value.IsSubpage()
    ensures r.BlogCategoryPage? ==> t.Some? && r.categoryName == t.value.text
    ensures r.UserBlogIndex? ==> t.Some? && r.username == t.value.text
    ensures r.CommentsBlock? ==> t == Some(r.post)
  {
    match t
    case None => NoRoute
    case Some(title) =>
      if IsRecentPostsTitle(title) then RecentPostsPage
      else if title.InNamespace(NS_BLOG) && !title.IsSubpage() then BlogCategoryPage(title.text)
      else if title.InNamespace(NS_USER_BLOG) && !title.IsSubpage() then UserBlogIndex(title.text)
      else if title.InNamespace(NS_USER_BLOG) && title.IsSubpage() then CommentsBlock(title)
      else NoRoute
  }

  /** Only titles in the two blog namespaces are decorated. */
  lemma RoutedTitlesAreBlogPages(t: Option<Title>)
    ensures RouteOf(t) != NoRoute ==> t.Some? && (t.value.ns == NS_BLOG || t.value.ns == NS_USER_BLOG)
    ensures t.Some? && t.value.InNamespace(NS_BLOG) && t.value.IsSubpage() ==> RouteOf(t) == NoRoute
  {
  }

  /* ---------- comment submission ---------- */

  /** The request fields the comment block reads. Absent fields are `None`;
      the token check is the session's verdict on the submitted token. */
  datatype CommentRequest = CommentRequest(
    posted: bool,
    action: Option<string>,
    tokenMatches: bool,
    content: Option<string>,
    parent: Option<string>)

  datatype Submission =
    | NotSubmitted
    | PermissionDenied
    | BadToken
    | EmptyComment
    | AddCommentCall(content: string, parentId: Option<int>)

  /** The string with every carriage return removed. */
  function WithoutCr(s: string): string
    decreases |s|
  {
    if s == [] then [] else (if s[0] == '\r' then [] else [s[0]]) + WithoutCr(s[1..])
  }

  /** `WebRequest::getText`: the field's value, "" when absent, with every
      "\r\n" pair replaced by "\n", scanning from the left. Only carriage
      returns that start such a pair are dropped. */
  function GetText(raw: Option<string>): (r: string)
    ensures raw.None? ==> r == ""
    ensures raw.Some? ==> |r| <= |raw.value|
    ensures raw.Some? && '\r' !in raw.value ==> r == raw.value
  {
    if raw.None? then "" else ReplaceCrlf(raw.value)
  }

  function ReplaceCrlf(s: string): (r: string)
    ensures |r| <= |s|
    ensures '\r' !in s ==> r == s
    decreases |s|
  {
    if |s| < 2 then s
    else if s[0] == '\r' && s[1] == '\n' then "\n" + ReplaceCrlf(s[2..])
    else
      assert '\r' !in s ==> '\r' !in s[1..];
      [s[0]] + ReplaceCrlf(s[1..])
  }

  /** Only carriage returns are dropped: every other character of the
      field survives, in order. */
  lemma GetTextKeepsText(raw: string)
    ensures WithoutCr(GetText(Some(raw))) == WithoutCr(raw)
  {
    ReplaceCrlfKeepsText(raw);
  }

  lemma {:induction false} ReplaceCrlfKeepsText(s: string)
    ensures WithoutCr(ReplaceCrlf(s)) == WithoutCr(s)
    decreases |s|
  {
    if |s| >= 2 {
      if s[0] == '\r' && s[1] == '\n' {
        var rest := ReplaceCrlf(s[2..]);
        ReplaceCrlfKeepsText(s[2..]);
        assert s[1..][1..] == s[2..];
        assert ("\n" + rest)[1..] == rest;
      } else {
        var rest := ReplaceCrlf(s[1..]);
        ReplaceCrlfKeepsText(s[1..]);
        assert ([s[0]] + rest)[1..] == rest;
      }
    }
  }

  /** A comment typed over several lines arrives with "\r\n" line breaks
      and is read with plain "\n" breaks. */
  lemma GetTextJoinsLines(a: string, b: string)
    requires '\r' !in a
    ensures GetText(Some(a + "\r\n" + b)) == a + "\n" + GetText(Some(b))
  {
    ReplaceCrlfJoinsLines(a, b);
  }

  lemma ReplaceCrlfJoinsLines(a: string, b: string)
    requires '\r' !in a
    ensures ReplaceCrlf(a + "\r\n" + b) == a + "\n" + ReplaceCrlf(b)
  {
    assert a + "\r\n" + b == a + ("\r\n" + b);
    ReplaceCrlfPrefix(a, "\r\n" + b);
    ReplaceCrlfPair(b);
  }

  /** A prefix without carriage returns passes through unchanged. */
  lemma {:induction false} ReplaceCrlfPrefix(a: string, x: string)
    requires '\r' !in a
    ensures ReplaceCrlf(a + x) == a + ReplaceCrlf(x)
    decreases |a|
  {
    if a == [] {
      assert a + x == x;
    } else {
      var y := a[1..] + x;
      var rx := ReplaceCrlf(x);
      assert ReplaceCrlf(a + x) == [a[0]] + ReplaceCrlf(y) by {
        assert a + x == [a[0]] + y;
        assert a[0] in a;
        ReplaceCrlfCons(a[0], y);
      }
      assert ReplaceCrlf(y) == a[1..] + rx by {
        ReplaceCrlfPrefix(a[1..], x);
      }
      assert [a[0]] + (a[1..] + rx) == a + rx by {
        assert a == [a[0]] + a[1..];
      }
    }
  }

  lemma ReplaceCrlfPair(t: string)
    ensures ReplaceCrlf("\r\n" + t) == "\n" + ReplaceCrlf(t)
  {
    assert ("\r\n" + t)[2..] == t;
  }

  lemma ReplaceCrlfCons(c: char, t: string)
    requires c != '\r'
    ensures ReplaceCrlf([c] + t) == [c] + ReplaceCrlf(t)
  {
    assert ([c] + t)[1..] == t;
  }

  /** The parent field as the request reads it: the integer value of the
      field, 0 when absent; only a positive value names a parent. */
  function ParentFromRequest(raw: Option<string>): (r: Option<int>)
    ensures r.Some? ==> r.value > 0
    ensures raw.None? ==> r.None?
    ensures raw.Some? && IntCast(raw.value) > 0 ==> r == Some(IntCast(raw.value))
    ensures r.Some? <==> raw.Some? && IntCast(raw.value) > 0
  {
    var v := if raw.Some? then IntCast(raw.value) else 0;
    if v > 0 then Some(v) else None
  }

  /** The submission part of `appendCommentsBlock`: a POST whose action is
      "add" is checked for permission, then for the token, then for content
      that is blank after trimming; only a request passing all three reaches
      `addComment`. The content is read with `getText`, so its line breaks
      arrive as "\n". */
  function DecideSubmission(actor: Actor, req: CommentRequest): (r: Submission)
    ensures r.NotSubmitted? <==> !req.posted || req.action != Some("add")
    ensures r.PermissionDenied? <==>
      req.posted && req.action == Some("add") && (!actor.user.Registered() || !actor.IsAllowed(CommentRight))
    ensures r.BadToken? ==> actor.user.Registered() && actor.IsAllowed(CommentRight) && !req.tokenMatches
    ensures r.EmptyComment? ==>
      req.tokenMatches && Trim(GetText(req.content)) == ""
    ensures r.AddCommentCall? <==>
      && req.posted && req.action == Some("add")
      && actor.user.Registered() && actor.IsAllowed(CommentRight)
      && req.tokenMatches
      && Trim(GetText(req.content)) != ""
    ensures r.AddCommentCall? ==>
      && r.content == Trim(GetText(req.content))
      && r.parentId == ParentFromRequest(req.parent)
  {
    if !req.posted || req.action != Some("add") then NotSubmitted
    else if !actor.user.Registered() || !actor.IsAllowed(CommentRight) then PermissionDenied
    else if !req.tokenMatches then BadToken
    else
      var content := Trim(GetText(req.content));
      if content == "" then EmptyComment
      else AddCommentCall(content, ParentFromRequest(req.parent))
  }

  /* ---------- the page views ---------- */

  datatype PageView =
    | Undecorated
    | RecentPostsView(posts: seq<PostView>)
    | CategoryView(categoryName: string, posts: seq<PostView>)
    | UserIndexView(username: string, posts: seq<PostView>)
    /** The block shown under a post, with any notice from a rejected
        submission. */
    | CommentsView(post: Title, notice: Submission, comments: seq<CommentView>)
    /** A submission reached `addComment`; the service's answer is not a
        status object, and what the page does after the call is not part
        of the model. */
    | CommentSubmitted(post: Title, store: Store, commentId: nat)

  /** The hook as a whole: route the title, ask the blog service with the
      fixed page sizes, and handle a posted comment. An empty listing is the
      view's empty message. */
  function OnBeforePageDisplay(s: Store, w: Wiki, t: Option<Title>, actor: Actor, req: CommentRequest,
                               now: Timestamp): (r: PageView)
    ensures RouteOf(t) == NoRoute ==> r == Undecorated
    ensures RouteOf(t).RecentPostsPage? ==>
      && r.RecentPostsView? && |r.posts| <= LISTING_PAGE_SIZE
      && r.posts == GetRecentPosts(s, w, LISTING_PAGE_SIZE, 0)
    ensures RouteOf(t).BlogCategoryPage? ==>
      && r.CategoryView? && r.categoryName == t.value.text
      && |r.posts| <= LISTING_PAGE_SIZE
      && r.posts == GetPostsByCategory(s, w, t.value.text, LISTING_PAGE_SIZE, 0)
    ensures RouteOf(t).UserBlogIndex? ==>
      && r.UserIndexView? && r.username == t.value.text
      && |r.posts| <= LISTING_PAGE_SIZE
      && r.posts == GetUserPosts(s, w, t.value.text, LISTING_PAGE_SIZE, 0)
    ensures RouteOf(t).CommentsBlock? && t.value.pageId == 0 ==> r == Undecorated
    ensures r.CommentsView? ==>
      && RouteOf(t) == CommentsBlock(r.post) && r.post.pageId != 0
      && r.notice == DecideSubmission(actor, req) && !r.notice.AddCommentCall?
      && |r.comments| <= COMMENTS_PAGE_SIZE
      && r.comments == GetCommentsForPost(s, r.post, COMMENTS_PAGE_SIZE, 0)
    ensures r.CommentSubmitted? ==>
      && RouteOf(t) == CommentsBlock(r.post) && r.post.pageId != 0
      && var call := DecideSubmission(actor, req);
      && call.AddCommentCall?
      && AddComment(s, r.post, actor.user, call.content, call.parentId, now) == Added(r.store, r.commentId)
  {
    match RouteOf(t)
    case NoRoute => Undecorated
    case RecentPostsPage => RecentPostsView(GetRecentPosts(s, w, LISTING_PAGE_SIZE, 0))
    case BlogCategoryPage(name) =>
      CategoryView(name, GetPostsByCategory(s, w, name, LISTING_PAGE_SIZE, 0))
    case UserBlogIndex(username) =>
      UserIndexView(username, GetUserPosts(s, w, username, LISTING_PAGE_SIZE, 0))
    case CommentsBlock(post) =>
      if post.pageId == 0 then Undecorated
      else
        match DecideSubmission(actor, req)
        case AddCommentCall(content, parentId) =>
          var added := AddComment(s, post, actor.user, content, parentId, now);
          CommentSubmitted(post, added.store, added.commentId)
        case notice =>
          CommentsView(post, notice, GetCommentsForPost(s, post, COMMENTS_PAGE_SIZE, 0))
  }

  /** A comment posted from the block is stored under the post's page with
      the trimmed, non-blank content and a positive parent, if any. */
  lemma {:induction false} SubmittedCommentIsStored(s: Store, w: Wiki, t: Option<Title>, actor: Actor,
                                                    req: CommentRequest, now: Timestamp)
    requires WellFormed(s)
    ensures var r := OnBeforePageDisplay(s, w, t, actor, req, now);
      r.CommentSubmitted? ==>
        && r.commentId > 0 && r.commentId !in s.comments
        && r.commentId in CommentsOf(r.store, r.post.pageId)
        && var row := r.store.comments[r.commentId];
        && row.author == actor.user.id && actor.user.Registered()
        && row.content == Trim(GetText(req.content)) && row.content != ""
        && (row.parentId.Some? ==> row.parentId.value > 0)
  {
    var r := OnBeforePageDisplay(s, w, t, actor, req, now);
    if r.CommentSubmitted? {
      assert r.commentId in r.store.comments;
    }
  }

  /** A rejected submission changes nothing: the comment block then shows
      exactly the comments a plain view of the page shows. */
  lemma RejectedSubmissionShowsPlainView(s: Store, w: Wiki, t: Option<Title>, actor: Actor,
                                         req: CommentRequest, now: Timestamp)
    requires !DecideSubmission(actor, req).AddCommentCall?
    ensures var plain := CommentRequest(false, None, false, None, None);
      var r := OnBeforePageDisplay(s, w, t, actor, req, now);
      var r0 := OnBeforePageDisplay(s, w, t, actor, plain, now);
      (r.CommentsView? <==> r0.CommentsView?) && (r.CommentsView? ==> r.comments == r0.comments)
      && (!r.CommentsView? ==> r == r0)
  {
  }
}

=== FILE: php.dfy ===
/** The PHP conversions the blog code relies on: trim(), empty() on
    strings, the (int) cast of a string, integer-to-string conversion, and
    the (bool)/(int)/string coercions applied to values of decoded JSON
    request bodies. */
module Php {
  import opened Common

  const PHP_INT_MAX: int := 0x7FFF_FFFF_FFFF_FFFF
  const PHP_INT_MIN: int := -0x8000_0000_0000_0000

  /* ---------- trim() ---------- */

  /** The characters trim() strips by default: space, tab, line feed,
      carriage return, NUL and vertical tab. */
  predicate IsTrimChar(c: char) {
    c == ' ' || c == '\t' || c == '\n' || c == '\r' || c == '\0' || c as int == 0x0B
  }

  predicate AllTrimChars(s: string) {
    forall i :: 0 <= i < |s| ==> IsTrimChar(s[i])
  }

  /** PHP trim(): the result has no trim character at either end, is empty
      exactly when the input consists of trim characters only, and leaves
      an already trimmed string alone. Trim characters are dropped from the
      front, then from the back. */
  function Trim(s: string): (r: string)
    ensures |r| <= |s|
    ensures r != [] ==> !IsTrimChar(r[0]) && !IsTrimChar(r[|r| - 1])
    ensures r == [] <==> AllTrimChars(s)
    ensures s == [] || (!IsTrimChar(s[0]) && !IsTrimChar(s[|s| - 1])) ==> r == s
    decreases |s|
  {
    if s != [] && IsTrimChar(s[0]) then
      var r := Trim(s[1..]);
      assert AllTrimChars(s) <==> AllTrimChars(s[1..]) by {
        if AllTrimChars(s[1..]) {
          forall i | 0 <= i < |s| ensures IsTrimChar(s[i]) {
            if i > 0 { assert s[i] == s[1..][i - 1]; }
          }
        }
      }
      r
    else if s != [] && IsTrimChar(s[|s| - 1]) then
      var init := s[..|s| - 1];
      var r := Trim(init);
      assert !AllTrimChars(s);
      assert init != [] && init[0] == s[0];
      assert !AllTrimChars(init);
      r
    else s
  }

  /** PHP empty() applied to a string: true for "" and for "0". */
  predicate EmptyString(s: string) { s == "" || s == "0" }

  /* ---------- digits and integer conversion ---------- */

  predicate IsDigit(c: char) { '0' <= c <= '9' }

  predicate AllDigits(s: string) {
    forall i :: 0 <= i < |s| ==> IsDigit(s[i])
  }

  /** The value of a decimal digit string (the empty string reads as 0). */
  function DigitsValue(ds: string): nat
    requires AllDigits(ds)
  {
    if ds == [] then 0
    else DigitsValue(ds[..|ds| - 1]) * 10 + (ds[|ds| - 1] as int - '0' as int)
  }

  function DigitChar(d: nat): (c: char)
    requires d < 10
    ensures IsDigit(c) && c as int - '0' as int == d
  {
    ('0' as int + d) as char
  }

  /** The decimal representation of a natural number: non-empty, all
      digits, reading back as the number, with a leading zero only for 0. */
  function NatToString(n: nat): (s: string)
    ensures s != [] && AllDigits(s)
    ensures DigitsValue(s) == n
    ensures (s[0] == '0') == (n == 0)
    decreases n
  {
    if n < 10 then [DigitChar(n)]
    else
      var prefix := NatToString(n / 10);
      var s := prefix + [DigitChar(n % 10)];
      assert s[..|s| - 1] == prefix;
      s
  }

  /** PHP's conversion of an integer to its decimal string. */
  function IntToString(i: int): string {
    if i < 0 then "-" + NatToString(-i) else NatToString(i)
  }

  /** Whitespace the (int) cast skips before the number. */
  predicate IsLeadingSpace(c: char) {
    c == ' ' || c == '\t' || c == '\n' || c == '\r' || c as int == 0x0B || c as int == 0x0C
  }

  function SkipLeadingSpace(s: string): (r: string)
    ensures |r| <= |s| && r == s[|s| - |r|..]
    ensures r != [] ==> !IsLeadingSpace(r[0])
  {
    if s != [] && IsLeadingSpace(s[0]) then SkipLeadingSpace(s[1..]) else s
  }

  /** The longest prefix of decimal digits. */
  function LeadingDigits(s: string): (r: string)
    ensures |r| <= |s| && r == s[..|r|]
    ensures AllDigits(r)
    ensures |r| < |s| ==> !IsDigit(s[|r|])
  {
    if s != [] && IsDigit(s[0]) then
      var r := LeadingDigits(s[1..]);
      [s[0]] + r
    else []
  }

  /** Clamp to the 64-bit integer range, as PHP does when an integer
      string overflows. */
  function Saturate(v: int): (r: int)
    ensures PHP_INT_MIN <= r <= PHP_INT_MAX
    ensures PHP_INT_MIN <= v <= PHP_INT_MAX ==> r == v
    ensures v > PHP_INT_MAX ==> r == PHP_INT_MAX
    ensures v < PHP_INT_MIN ==> r == PHP_INT_MIN
  {
    if v > PHP_INT_MAX then PHP_INT_MAX else if v < PHP_INT_MIN then PHP_INT_MIN else v
  }

  lemma SaturateInRange(v: nat)
    requires v <= PHP_INT_MAX
    ensures Saturate(v) == v
  {
  }

  function Pow10(k: nat): (r: nat)
    ensures r >= 1
  {
    if k == 0 then 1 else 10 * Pow10(k - 1)
  }

  /** The exponent a numeric string may carry after its mantissa: 'e' or
      'E', an optional sign and at least one digit. None when `s` does not
      start with one. */
  function ExponentPart(s: string): (r: Option<int>)
  {
    if s != [] && (s[0] == 'e' || s[0] == 'E') then
      var u := s[1..];
      var v := if u != [] && (u[0] == '-' || u[0] == '+') then u[1..] else u;
      var ds := LeadingDigits(v);
      if ds == [] then None
      else if u[0] == '-' then Some(0 - DigitsValue(ds))
      else Some(DigitsValue(ds))
    else None
  }

  /** `n * 10^k` truncated toward zero. */
  function TruncScaled(n: nat, k: int): nat
    decreases if k >= 0 then k else -k
  {
    if k == 0 then n
    else if k > 0 then TruncScaled(n * 10, k - 1)
    else TruncScaled(n / 10, k + 1)
  }

  /** Scaling up is multiplication by a power of ten. */
  lemma {:induction false} TruncScaledUp(n: nat, k: nat)
    ensures TruncScaled(n, k) == n * Pow10(k)
    decreases k
  {
    if k > 0 {
      TruncScaledUp(n * 10, k - 1);
      assert n * 10 * Pow10(k - 1) == n * (10 * Pow10(k - 1));
    }
  }

  /** Scaling up never makes a number smaller. */
  lemma {:induction false} TruncScaledGrows(n: nat, k: nat)
    ensures TruncScaled(n, k) >= n
    decreases k
  {
    if k > 0 {
      TruncScaledGrows(n * 10, k - 1);
    }
  }

  /** The magnitude an unsigned numeric prefix stands for: integer
      digits, optionally '.' and fraction digits (at least one digit in
      all), optionally an exponent; its exact value truncated toward
      zero. A string with no leading number reads as 0. */
  function LeadingMagnitude(u: string): (r: nat)
  {
    var ip := LeadingDigits(u);
    MagnitudeAfter(ip, u[|ip|..])
  }

  /** The magnitude of integer digits `ip` followed by `rest`, which
      does not start with a digit. */
  function MagnitudeAfter(ip: string, rest: string): (r: nat)
    requires AllDigits(ip)
  {
    var fp := if rest != [] && rest[0] == '.' then LeadingDigits(rest[1..]) else [];
    if ip == [] && fp == [] then 0
    else
      var after := if rest != [] && rest[0] == '.' then rest[1 + |fp|..] else rest;
      var e := if ExponentPart(after).Some? then ExponentPart(after).value else 0;
      TruncScaled(DigitsValue(ip + fp), e - |fp|)
  }

  /** PHP's (int) cast of a string: leading whitespace, an optional sign
      and the longest numeric prefix, integer or decimal with an exponent;
      a decimal is truncated toward zero, and the result is clamped to the
      64-bit range. Anything else reads as 0. */
  function IntCast(s: string): (r: int)
    ensures PHP_INT_MIN <= r <= PHP_INT_MAX
  {
    var t := SkipLeadingSpace(s);
    var signed := t != [] && (t[0] == '-' || t[0] == '+');
    var m := LeadingMagnitude(if signed then t[1..] else t);
    Saturate(if t != [] && t[0] == '-' then 0 - m else m)
  }

  /** Casting the decimal string of an in-range natural number gives the
      number back. */
  lemma IntCastOfNatString(n: nat)
    requires n <= PHP_INT_MAX
    ensures IntCast(NatToString(n)) == n
  {
    IntCastOfDigits(NatToString(n));
  }

  /** Casting a non-empty digit string gives its value, saturated at
      PHP_INT_MAX; in range, exactly its value. */
  lemma IntCastOfDigits(s: string)
    requires s != [] && AllDigits(s)
    ensures IntCast(s) == Saturate(DigitsValue(s))
    ensures DigitsValue(s) <= PHP_INT_MAX ==> IntCast(s) == DigitsValue(s)
  {
    var t := SkipLeadingSpace(s);
    assert !IsLeadingSpace(s[0]) by { assert IsDigit(s[0]); }
    assert t == s;
    assert !(t != [] && t[0] == '-') && !(t != [] && t[0] == '+') by { assert IsDigit(s[0]); }
    LeadingDigitsOfDigits(s);
    assert s[|s|..] == [] && s + [] == s;
    assert MagnitudeAfter(s, []) == DigitsValue(s);
  }

  /** A number in exponent notation, digits "e" digits, casts to its
      value, clamped to the 64-bit range. */
  lemma IntCastOfExponent(ds: string, es: string)
    requires ds != [] && AllDigits(ds) && es != [] && AllDigits(es)
    ensures IntCast(ds + "e" + es) == Saturate(DigitsValue(ds) * Pow10(DigitsValue(es)))
  {
    var s := ds + "e" + es;
    assert s == ds + ("e" + es) && s[0] == ds[0];
    IntCastOfUnsigned(s);
    MagnitudeSplit(ds, "e" + es);
    ExponentMagnitude(ds, es);
    TruncScaledUp(DigitsValue(ds), DigitsValue(es));
  }

  lemma ExponentMagnitude(ds: string, es: string)
    requires ds != [] && AllDigits(ds) && es != [] && AllDigits(es)
    ensures MagnitudeAfter(ds, "e" + es) == TruncScaled(DigitsValue(ds), DigitsValue(es))
  {
    ExponentOfDigits(es);
    MagnitudeWithoutPoint(ds, "e" + es);
  }

  lemma ExponentOfDigits(es: string)
    requires es != [] && AllDigits(es)
    ensures ExponentPart("e" + es) == Some(DigitsValue(es))
  {
    assert ("e" + es)[1..] == es;
    assert es[0] != '-' && es[0] != '+' by { assert IsDigit(es[0]); }
    LeadingDigitsOfDigits(es);
  }

  /** Integer digits followed by no '.' scale by the exponent alone. */
  lemma MagnitudeWithoutPoint(ip: string, rest: string)
    requires ip != [] && AllDigits(ip) && (rest == [] || rest[0] != '.')
    ensures MagnitudeAfter(ip, rest) ==
      TruncScaled(DigitsValue(ip), if ExponentPart(rest).Some? then ExponentPart(rest).value else 0)
  {
    assert ip + [] == ip;
  }

  /** A decimal fraction, digits "." digits, casts to its integer part:
      the fraction is truncated away. */
  lemma IntCastOfFraction(ds: string, fs: string)
    requires ds != [] && AllDigits(ds) && AllDigits(fs)
    ensures IntCast(ds + "." + fs) == Saturate(DigitsValue(ds))
  {
    var s := ds + "." + fs;
    assert s == ds + ("." + fs) && s[0] == ds[0];
    IntCastOfUnsigned(s);
    MagnitudeSplit(ds, "." + fs);
    FractionMagnitude(ds, fs);
    TruncFraction(ds, fs);
  }

  lemma FractionMagnitude(ds: string, fs: string)
    requires ds != [] && AllDigits(ds) && AllDigits(fs)
    ensures AllDigits(ds + fs)
    ensures MagnitudeAfter(ds, "." + fs) == TruncScaled(DigitsValue(ds + fs), 0 - |fs|)
  {
    var rest := "." + fs;
    assert rest[1..] == fs;
    LeadingDigitsOfDigits(fs);
    assert rest[1 + |fs|..] == [];
    assert ExponentPart([]) == None;
    MagnitudeWithPoint(ds, rest);
  }

  /** Integer digits followed by '.' take the fraction digits into the
      value and scale by the exponent less their count. */
  lemma MagnitudeWithPoint(ip: string, rest: string)
    requires ip != [] && AllDigits(ip) && rest != [] && rest[0] == '.'
    ensures var fp := LeadingDigits(rest[1..]);
      var after := rest[1 + |fp|..];
      && AllDigits(ip + fp)
      && MagnitudeAfter(ip, rest) ==
        TruncScaled(DigitsValue(ip + fp), (if ExponentPart(after).Some? then ExponentPart(after).value else 0) - |fp|)
  {
    var fp := LeadingDigits(rest[1..]);
    assert AllDigits(ip + fp);
  }

  /** A string starting with a digit casts to the magnitude it starts
      with. */
  lemma IntCastOfUnsigned(s: string)
    requires s != [] && IsDigit(s[0])
    ensures IntCast(s) == Saturate(LeadingMagnitude(s))
  {
    assert !IsLeadingSpace(s[0]);
    assert SkipLeadingSpace(s) == s;
  }

  /** A number that starts with digits and goes on with a non-digit:
      the digits are the integer part and the rest follows them. */
  lemma MagnitudeSplit(ds: string, tail: string)
    requires ds != [] && AllDigits(ds) && tail != [] && !IsDigit(tail[0])
    ensures LeadingMagnitude(ds + tail) == MagnitudeAfter(ds, tail)
  {
    LeadingDigitsStops(ds, tail);
    assert (ds + tail)[|ds|..] == tail;
  }

  /** The digits of `a` end where a non-digit starts `b`. */
  lemma {:induction false} LeadingDigitsStops(a: string, b: string)
    requires AllDigits(a) && b != [] && !IsDigit(b[0])
    ensures LeadingDigits(a + b) == a
    decreases |a|
  {
    if a == [] {
      assert a + b == b;
    } else {
      assert (a + b)[1..] == a[1..] + b;
      LeadingDigitsStops(a[1..], b);
      assert [a[0]] + a[1..] == a;
    }
  }

  /** Dropping the fraction digits of `ds + fs` leaves the value of
      `ds`. */
  lemma {:induction false} TruncFraction(ds: string, fs: string)
    requires AllDigits(ds) && AllDigits(fs)
    ensures AllDigits(ds + fs)
    ensures TruncScaled(DigitsValue(ds + fs), 0 - |fs|) == DigitsValue(ds)
    decreases |fs|
  {
    if fs == [] {
      assert ds + fs == ds;
    } else {
      var x := ds + fs;
      var fs' := fs[..|fs| - 1];
      assert x[..|x| - 1] == ds + fs';
      assert DigitsValue(x) / 10 == DigitsValue(ds + fs');
      TruncFraction(ds, fs');
    }
  }

  lemma {:induction false} LeadingDigitsOfDigits(s: string)
    requires AllDigits(s)
    ensures LeadingDigits(s) == s
  {
    if s != [] {
      LeadingDigitsOfDigits(s[1..]);
    }
  }

  /* ---------- decoded JSON request bodies ---------- */

  /** A scalar of a decoded JSON body; arrays and objects are not modelled. */
  datatype Json = JNull | JBool(b: bool) | JInt(i: int) | JStr(s: string)

  /** A decoded JSON object; a body that does not decode is the empty map
      (`json_decode(...) ?: []`). */
  type Body = map<string, Json>

  /** `$data[$key] ?? null`, and `isset($data[$key])` as `.Some?`: a value
      that is absent or null reads as missing. */
  function Field(body: Body, key: string): (r: Option<Json>)
    ensures r.Some? <==> key in body && !body[key].JNull?
    ensures r.Some? ==> r.value == body[key]
  {
    if key in body && !body[key].JNull? then Some(body[key]) else None
  }

  /** PHP's (bool) cast. */
  function ToBool(j: Json): bool {
    match j
    case JNull => false
    case JBool(b) => b
    case JInt(i) => i != 0
    case JStr(s) => s != "" && s != "0"
  }

  /** PHP's (int) cast. */
  function ToInt(j: Json): int {
    match j
    case JNull => 0
    case JBool(b) => if b then 1 else 0
    case JInt(i) => i
    case JStr(s) => IntCast(s)
  }

  /** Coercion of a scalar passed where PHP expects a string. */
  function ToStr(j: Json): string {
    match j
    case JNull => ""
    case JBool(b) => if b then "1" else ""
    case JInt(i) => IntToString(i)
    case JStr(s) => s
  }
}

=== FILE: rest.dfy ===
/** The REST handlers (includes/Rest): each reads its path and query
    parameters, already typed by the REST framework, and a decoded JSON
    body; checks the caller and the input in a fixed order; and makes at
    most one blog service call. A response is its status and payload; the
    error messages, URLs and prefixed title text are outside the model.
    The wiki's title factory and page store are parameters, and so is
    the comment editor the edit handler expects, which the blog service
    does not provide. */
module Rest {
  import opened Common
  import opened Php
  import opened BlogStore
  import opened BlogQueries
  import opened Specials
  import opened BlogInvariants

  const OK: int := 200
  const BAD_REQUEST: int := 400
  const FORBIDDEN: int := 403
  const NOT_FOUND: int := 404
  const SERVER_ERROR: int := 500

  /** One post in a listing response. */
  datatype PostItem = PostItem(
    pageId: nat,
    title: Title,
    slug: string,
    username: string,
    userId: nat,
    created: Timestamp,
    lastTouched: Timestamp,
    commentCount: nat,
    lastComment: Option<Timestamp>,
    lastCommentUser: Option<nat>)

  datatype Reply =
    | Failed(status: int, error: string)
    | CreatedPost(pageId: nat, title: Title)
    | CommentCreated(commentId: nat)
    | CommentEdited
    | LikeSet(liked: bool)
    | FavoriteSet(favorite: bool)
    | CommentsPage(postPageId: int, post: Title, comments: seq<CommentView>, limit: nat, offset: nat)
    | PostsPage(limit: nat, offset: nat, posts: seq<PostItem>)
    | UserPostsPage(username: string, limit: nat, offset: nat, posts: seq<PostItem>)

  /** The blog tables after a request, and the response. */
  datatype Response = Response(store: Store, reply: Reply) {
    predicate Ok() { !reply.Failed? }
  }

  /** `Title::newFromID`: the title of an existing page; no page has a
      negative id. */
  function TitleFromId(w: Wiki, pageId: int): (r: Option<Title>)
    ensures pageId < 0 ==> r.None?
    ensures pageId >= 0 ==> r == w.titleOf(pageId)
  {
    if pageId < 0 then None else w.titleOf(pageId)
  }

  /** The page a post handler looks up exists and is in the user-blog
      namespace. */
  predicate IsPostPage(t: Option<Title>) {
    t.Some? && t.value.InNamespace(NS_USER_BLOG)
  }

  /* ---------- creating a post ---------- */

  /** The trimmed `title` field of the body, "" when missing. */
  function BodyTitle(body: Body): string {
    var f := Field(body, "title");
    Trim(if f.Some? then ToStr(f.value) else "")
  }

  /** The `content` field of the body, "" when missing. */
  function BodyContent(body: Body): string {
    var f := Field(body, "content");
    if f.Some? then ToStr(f.value) else ""
  }

  /** The checks of `UserPostCreateHandler::run` that come before the
      save: the posting right, the caller being the path's user, a title
      (already trimmed) that is not empty, and a page name the title
      factory accepts. `None` means all passed. */
  function PostCreateChecks(actor: Actor, pathUsername: string, title: string,
                            makeTitleSafe: PageName -> Option<Title>): (r: Option<Reply>)
    ensures r.Some? ==> r.value.Failed?
    ensures !actor.IsAllowed(PostRight) ==> r == Some(Failed(FORBIDDEN, "forbidden"))
    ensures actor.IsAllowed(PostRight) && actor.user.name != pathUsername ==> r == Some(Failed(FORBIDDEN, "forbidden"))
    ensures actor.IsAllowed(PostRight) && actor.user.name == pathUsername ==>
      && (title == "" ==> r == Some(Failed(BAD_REQUEST, "invalid")))
      && (title != "" ==>
            (r.None? <==> makeTitleSafe(PageName(NS_USER_BLOG, pathUsername + "/" + title)).Some?))
  {
    if !actor.IsAllowed(PostRight) then Some(Failed(FORBIDDEN, "forbidden"))
    else if actor.user.name != pathUsername then Some(Failed(FORBIDDEN, "forbidden"))
    else if title == "" then Some(Failed(BAD_REQUEST, "invalid"))
    else if makeTitleSafe(PageName(NS_USER_BLOG, pathUsername + "/" + title)).None?
    then Some(Failed(BAD_REQUEST, "invalid"))
    else None
  }

  /** The page name of a post created through the API is the path's user
      name, a '/', and the trimmed title: the same name the special page
      builds for that user. */
  lemma ApiPostPageName(actor: Actor, pathUsername: string, body: Body)
    requires actor.user.name == pathUsername
    ensures PageName(NS_USER_BLOG, pathUsername + "/" + BodyTitle(body))
      == PostPageName(actor.user, if Field(body, "title").Some? then ToStr(Field(body, "title").value) else "")
  {
  }

  /** Whether the page store's answer is an edit result. The store answers
      a save with a revision record, or with nothing when no revision was
      saved; neither is an edit result. */
  predicate IsEditResult(saved: Option<NewPageId>) {
    false
  }

  /** The guard after the save, as written: `!$result instanceof
      EditResult` reads as `!($result instanceof EditResult)`, so the
      request fails whenever the answer is not an edit result, or is one
      that is not OK. */
  predicate SaveFailedAsWritten(saved: Option<NewPageId>) {
    !IsEditResult(saved) || saved.None?
  }

  /** `UserPostCreateHandler::run` as written: the page is saved once the
      checks pass, and the answer is then 500 unless the guard lets it
      through, in which case the post is registered under the title as
      built. */
  function UserPostCreateAsWritten(s: Store, actor: Actor, pathUsername: string, body: Body,
                                   makeTitleSafe: PageName -> Option<Title>,
                                   save: (Title, string) -> Option<NewPageId>, now: Timestamp): (r: Response)
    ensures PostCreateChecks(actor, pathUsername, BodyTitle(body), makeTitleSafe).Some? ==>
      r == Response(s, PostCreateChecks(actor, pathUsername, BodyTitle(body), makeTitleSafe).value)
    ensures PostCreateChecks(actor, pathUsername, BodyTitle(body), makeTitleSafe).None? ==>
      var t := makeTitleSafe(PageName(NS_USER_BLOG, pathUsername + "/" + BodyTitle(body))).value;
      (SaveFailedAsWritten(save(t, BodyContent(body))) <==> r == Response(s, Failed(SERVER_ERROR, "editfailed")))
  {
    match PostCreateChecks(actor, pathUsername, BodyTitle(body), makeTitleSafe)
    case Some(failure) => Response(s, failure)
    case None =>
      var t := makeTitleSafe(PageName(NS_USER_BLOG, pathUsername + "/" + BodyTitle(body))).value;
      if SaveFailedAsWritten(save(t, BodyContent(body))) then Response(s, Failed(SERVER_ERROR, "editfailed"))
      else Response(RegisterPost(s, t, actor.user, now), CreatedPost(t.pageId, t))
  }

  /** No request to the handler as written succeeds, and none registers a
      post: a save that succeeds is still answered 500. */
  lemma {:induction false} UserPostCreateNeverSucceeds(s: Store, actor: Actor, pathUsername: string, body: Body,
                                                       makeTitleSafe: PageName -> Option<Title>,
                                                       save: (Title, string) -> Option<NewPageId>, now: Timestamp)
    ensures var r := UserPostCreateAsWritten(s, actor, pathUsername, body, makeTitleSafe, save, now);
      !r.Ok() && r.store == s
      && (PostCreateChecks(actor, pathUsername, BodyTitle(body), makeTitleSafe).None? ==> r.reply == Failed(SERVER_ERROR, "editfailed"))
  {
    if PostCreateChecks(actor, pathUsername, BodyTitle(body), makeTitleSafe).None? {
      var t := makeTitleSafe(PageName(NS_USER_BLOG, pathUsername + "/" + BodyTitle(body))).value;
      assert SaveFailedAsWritten(save(t, BodyContent(body)));
    }
  }

  /** The steps of `UserPostCreateHandler::run` after the checks, with
      the save check it evidently intends: 500 when no revision was saved;
      otherwise the post is registered under the new page's id and the
      answer carries that id. */
  function SaveAndRegister(s: Store, author: User, t: Title, content: string,
                           save: (Title, string) -> Option<NewPageId>, now: Timestamp): (r: Response)
    ensures save(t, content).None? <==> r.reply == Failed(SERVER_ERROR, "editfailed")
    ensures save(t, content).None? ==> r.store == s
    ensures save(t, content).Some? ==>
      var t' := t.(pageId := save(t, content).value);
      && r.reply == CreatedPost(t'.pageId, t')
      && r.store == RegisterPost(s, t', author, now)
  {
    match save(t, content)
    case None => Response(s, Failed(SERVER_ERROR, "editfailed"))
    case Some(pid) =>
      var t' := t.(pageId := pid);
      Response(RegisterPost(s, t', author, now), CreatedPost(pid, t'))
  }

  /** `UserPostCreateHandler::run` with the evidently intended save check:
      a failed check is answered as such and changes nothing; otherwise the
      page named by the path's user and the trimmed title is saved with the
      body's content. */
  function UserPostCreate(s: Store, actor: Actor, pathUsername: string, body: Body,
                          makeTitleSafe: PageName -> Option<Title>,
                          save: (Title, string) -> Option<NewPageId>, now: Timestamp): (r: Response)
    ensures PostCreateChecks(actor, pathUsername, BodyTitle(body), makeTitleSafe).Some? ==>
      r == Response(s, PostCreateChecks(actor, pathUsername, BodyTitle(body), makeTitleSafe).value)
    ensures PostCreateChecks(actor, pathUsername, BodyTitle(body), makeTitleSafe).None? ==>
      && actor.user.name == pathUsername
      && makeTitleSafe(PageName(NS_USER_BLOG, pathUsername + "/" + BodyTitle(body))).Some?
      && r == SaveAndRegister(s, actor.user, makeTitleSafe(PageName(NS_USER_BLOG, pathUsername + "/" + BodyTitle(body))).value,
                              BodyContent(body), save, now)
  {
    match PostCreateChecks(actor, pathUsername, BodyTitle(body), makeTitleSafe)
    case Some(failure) => Response(s, failure)
    case None =>
      var t := makeTitleSafe(PageName(NS_USER_BLOG, pathUsername + "/" + BodyTitle(body))).value;
      SaveAndRegister(s, actor.user, t, BodyContent(body), save, now)
  }

  /** A post saved by the corrected handler is owned by its author: the
      page has a metadata row in the author's name, and the comment table
      is untouched. */
  lemma SavedPostIsRegistered(s: Store, author: User, t: Title, content: string,
                              save: (Title, string) -> Option<NewPageId>, now: Timestamp)
    requires t.ns == NS_USER_BLOG
    requires save(t, content).Some? ==> save(t, content).value as nat !in s.posts
    ensures var r := SaveAndRegister(s, author, t, content, save, now);
      r.Ok() ==>
        && r.reply.CreatedPost? && r.reply.pageId in r.store.posts
        && r.store.posts[r.reply.pageId] == NewPostRow(author, now)
        && r.store.comments == s.comments
  {
  }

  /** A post created through the corrected handler is owned by the
      caller: its page is in the user-blog namespace (when the title
      factory keeps the namespace) and has a metadata row in the caller's
      name. */
  lemma {:induction false} ApiCreatedPostIsRegistered(s: Store, actor: Actor, pathUsername: string, body: Body,
                                                      makeTitleSafe: PageName -> Option<Title>,
                                                      save: (Title, string) -> Option<NewPageId>, now: Timestamp)
    requires var t := makeTitleSafe(PageName(NS_USER_BLOG, pathUsername + "/" + BodyTitle(body)));
      t.Some? ==>
        && t.value.ns == NS_USER_BLOG
        && (save(t.value, BodyContent(body)).Some? ==> save(t.value, BodyContent(body)).value as nat !in s.posts)
    ensures var r := UserPostCreate(s, actor, pathUsername, body, makeTitleSafe, save, now);
      r.Ok() ==>
        && r.reply.CreatedPost? && r.reply.pageId in r.store.posts
        && r.store.posts[r.reply.pageId].userId == actor.user.id
        && r.store.posts[r.reply.pageId].username == pathUsername
        && r.store.comments == s.comments
  {
    if PostCreateChecks(actor, pathUsername, BodyTitle(body), makeTitleSafe).None? {
      var t := makeTitleSafe(PageName(NS_USER_BLOG, pathUsername + "/" + BodyTitle(body))).value;
      SavedPostIsRegistered(s, actor.user, t, BodyContent(body), save, now);
    }
  }

  /* ---------- comments ---------- */

  /** `PostCommentCreateHandler::run`: 404 for a page that is missing or
      outside the user-blog namespace, checked before the commenting right
      (403); 400 when the content is missing or exactly the empty string
      (blank content is not rejected: nothing is trimmed); then one
      `addComment` call whose id is returned as is. A present `parentId` is
      cast to an integer. */
  function PostCommentCreate(s: Store, w: Wiki, actor: Actor, postPageId: int, body: Body,
                             now: Timestamp): (r: Response)
    ensures !IsPostPage(TitleFromId(w, postPageId)) <==> r.reply == Failed(NOT_FOUND, "notfound")
    ensures r.reply == Failed(FORBIDDEN, "forbidden") <==>
      IsPostPage(TitleFromId(w, postPageId)) && !actor.IsAllowed(CommentRight)
    ensures r.reply == Failed(BAD_REQUEST, "invalid") <==>
      && IsPostPage(TitleFromId(w, postPageId)) && actor.IsAllowed(CommentRight)
      && (Field(body, "content").None? || Field(body, "content") == Some(JStr("")))
    ensures !r.Ok() ==> r.store == s
    ensures r.Ok() ==>
      var parent := Field(body, "parentId");
      && r.reply.CommentCreated?
      && AddComment(s, TitleFromId(w, postPageId).value, actor.user, ToStr(Field(body, "content").value),
                    if parent.Some? then Some(ToInt(parent.value)) else None, now)
         == Added(r.store, r.reply.commentId)
  {
    var t := TitleFromId(w, postPageId);
    if !IsPostPage(t) then Response(s, Failed(NOT_FOUND, "notfound"))
    else if !actor.IsAllowed(CommentRight) then Response(s, Failed(FORBIDDEN, "forbidden"))
    else
      var content := Field(body, "content");
      var parent := Field(body, "parentId");
      if content.None? || content.value == JStr("") then Response(s, Failed(BAD_REQUEST, "invalid"))
      else
        var added := AddComment(s, t.value, actor.user, ToStr(content.value),
                                if parent.Some? then Some(ToInt(parent.value)) else None, now);
        Response(added.store, CommentCreated(added.commentId))
  }

  /** Whitespace-only content is stored verbatim through the API, where the
      comment form under a post would reject it. */
  lemma {:induction false} BlankCommentAccepted(s: Store, w: Wiki, actor: Actor, postPageId: int,
                                                blank: string, now: Timestamp)
    requires IsPostPage(TitleFromId(w, postPageId)) && TitleFromId(w, postPageId).value.pageId != 0
    requires actor.IsAllowed(CommentRight)
    requires blank != "" && AllTrimChars(blank)
    ensures var r := PostCommentCreate(s, w, actor, postPageId, map["content" := JStr(blank)], now);
      && r.Ok() && Trim(blank) == ""
      && r.store.comments[r.reply.commentId].content == blank
  {
    var body := map["content" := JStr(blank)];
    assert Field(body, "content") == Some(JStr(blank));
    assert Field(body, "parentId").None?;
  }

  /** `PostCommentEditHandler::run` as written: 400 when the content is
      missing. Otherwise the handler calls `editComment` on the blog
      service, which defines no such method; PHP raises an Error for the
      call and the REST framework answers it with a 500. The page id of the
      path is not consulted. */
  function PostCommentEditAsWritten(actor: Actor, postPageId: int, commentId: int, body: Body): (r: Reply)
    ensures r.Failed?
    ensures Field(body, "content").None? <==> r == Failed(BAD_REQUEST, "invalid")
    ensures Field(body, "content").Some? <==> r == Failed(SERVER_ERROR, "internal")
  {
    if Field(body, "content").None? then Failed(BAD_REQUEST, "invalid")
    else Failed(SERVER_ERROR, "internal")
  }

  /** `PostCommentEditHandler::run` as its comment says it is meant to
      work, with the comment editor it expects the service to provide as a
      parameter: 400 when the content is missing; otherwise the editor
      decides, false meaning 403. The page id of the path is not
      consulted. */
  function PostCommentEdit(actor: Actor, postPageId: int, commentId: int, body: Body,
                           editComment: (int, User, string) -> bool): (r: Reply)
    ensures Field(body, "content").None? <==> r == Failed(BAD_REQUEST, "invalid")
    ensures Field(body, "content").Some? ==>
      (r == CommentEdited <==> editComment(commentId, actor.user, ToStr(Field(body, "content").value)))
    ensures r != CommentEdited && Field(body, "content").Some? ==> r == Failed(FORBIDDEN, "forbidden")
  {
    var content := Field(body, "content");
    if content.None? then Failed(BAD_REQUEST, "invalid")
    else if !editComment(commentId, actor.user, ToStr(content.value)) then Failed(FORBIDDEN, "forbidden")
    else CommentEdited
  }

  /** The handler as written never edits a comment: where the intended
      handler would consult the editor, it answers 500 instead, and the
      two agree only on a missing content field. */
  lemma EditAsWrittenNeverEdits(actor: Actor, postPageId: int, commentId: int, body: Body,
                                editComment: (int, User, string) -> bool)
    ensures PostCommentEditAsWritten(actor, postPageId, commentId, body) != CommentEdited
    ensures PostCommentEditAsWritten(actor, postPageId, commentId, body)
         == PostCommentEdit(actor, postPageId, commentId, body, editComment)
        <==> Field(body, "content").None?
  {
  }

  /** The same edit sent under any post gets the same answer, from the
      handler as written and from the intended one. */
  lemma EditIgnoresPostPage(actor: Actor, p1: int, p2: int, commentId: int, body: Body,
                            editComment: (int, User, string) -> bool)
    ensures PostCommentEditAsWritten(actor, p1, commentId, body)
         == PostCommentEditAsWritten(actor, p2, commentId, body)
    ensures PostCommentEdit(actor, p1, commentId, body, editComment)
         == PostCommentEdit(actor, p2, commentId, body, editComment)
  {
  }

  /** A flag of the body: its (bool) cast when present, true otherwise. */
  function FlagOrTrue(body: Body, key: string): (r: bool)
    ensures Field(body, key).None? ==> r
    ensures Field(body, key).Some? ==> r == ToBool(Field(body, key).value)
  {
    var f := Field(body, key);
    if f.Some? then ToBool(f.value) else true
  }

  /** `CommentLikeHandler::run`: anonymous callers get 403 and nothing is
      called; otherwise the like is set or cleared for the caller and the
      answer is ok with the requested flag, whatever the service says. */
  function CommentLike(s: Store, actor: Actor, commentId: int, body: Body, now: Timestamp): (r: Response)
    ensures !actor.user.Registered() <==> r == Response(s, Failed(FORBIDDEN, "forbidden"))
    ensures actor.user.Registered() ==>
      && r.reply == LikeSet(FlagOrTrue(body, "like"))
      && r.store == s.(likes := r.store.likes)
      && ToggledKey(s.likes, r.store.likes, (commentId, actor.user.id), FlagOrTrue(body, "like"), now)
  {
    if !actor.user.Registered() then Response(s, Failed(FORBIDDEN, "forbidden"))
    else
      var like := FlagOrTrue(body, "like");
      var toggled := SetCommentLike(s, commentId, actor.user, like, now);
      Response(toggled.store, LikeSet(like))
  }

  /** A like sent through the API and then withdrawn restores the store,
      when the caller did not like the comment before. */
  lemma {:induction false} LikeThenUnlikeThroughApi(s: Store, actor: Actor, commentId: int,
                                                    n1: Timestamp, n2: Timestamp)
    requires actor.user.Registered() && (commentId, actor.user.id) !in s.likes
    ensures var liked := CommentLike(s, actor, commentId, map["like" := JBool(true)], n1);
      && liked.reply == LikeSet(true)
      && CommentLike(liked.store, actor, commentId, map["like" := JBool(false)], n2)
         == Response(s, LikeSet(false))
  {
    var on: Body := map["like" := JBool(true)];
    var off: Body := map["like" := JBool(false)];
    assert FlagOrTrue(on, "like") && !FlagOrTrue(off, "like");
    LikeThenUnlike(s, commentId, actor.user, n1, n2);
  }

  /** `CommentFavoriteHandler::run`: anonymous callers get 403; a refusal
      by the service (the caller is not the post's author) is 403 too and
      changes nothing; otherwise ok with the requested flag. */
  function CommentFavorite(s: Store, actor: Actor, commentId: int, body: Body, now: Timestamp): (r: Response)
    ensures r.reply == Failed(FORBIDDEN, "forbidden") <==>
      !actor.user.Registered() || !IsPostAuthorOf(s, commentId, actor.user.id)
    ensures !r.Ok() ==> r.store == s
    ensures r.Ok() ==>
      && r.reply == FavoriteSet(FlagOrTrue(body, "favorite"))
      && r.store == s.(favorites := r.store.favorites)
      && ToggledKey(s.favorites, r.store.favorites, (commentId, actor.user.id), FlagOrTrue(body, "favorite"), now)
  {
    if !actor.user.Registered() then Response(s, Failed(FORBIDDEN, "forbidden"))
    else
      var fav := FlagOrTrue(body, "favorite");
      var toggled := SetCommentFavorite(s, commentId, actor.user, fav, now);
      if !toggled.ok then Response(s, Failed(FORBIDDEN, "forbidden"))
      else Response(toggled.store, FavoriteSet(fav))
  }

  /** Favouriting through the API keeps every favourite pair a post
      author's. */
  lemma FavoriteKeepsInvariant(s: Store, actor: Actor, commentId: int, body: Body, now: Timestamp)
    requires FavoritesByPostAuthors(s)
    ensures FavoritesByPostAuthors(CommentFavorite(s, actor, commentId, body, now).store)
  {
    if actor.user.Registered() {
      SetCommentFavoriteKeepsFavorites(s, commentId, actor.user, FlagOrTrue(body, "favorite"), now);
    }
  }

  /* ---------- read-only views ---------- */

  /** The page size of a view: at least 1, the route's default when absent. */
  function ClampLimit(raw: Option<int>, default: nat): (limit: nat)
    ensures limit >= 1
    ensures raw.Some? && raw.value >= 1 ==> limit == raw.value
    ensures raw.Some? && raw.value < 1 ==> limit == 1
    ensures raw.None? ==> limit == Max(1, default)
  {
    Max(1, if raw.Some? then raw.value else default)
  }

  /** The offset of a view: never negative, 0 when absent. */
  function ClampOffset(raw: Option<int>): (offset: nat)
    ensures raw.Some? && raw.value >= 0 ==> offset == raw.value
    ensures raw.None? || raw.value < 0 ==> offset == 0
  {
    Max(0, if raw.Some? then raw.value else 0)
  }

  const COMMENTS_DEFAULT_LIMIT: nat := 50
  const POSTS_DEFAULT_LIMIT: nat := 20

  /** `PostCommentsViewHandler::run`: 404 for a page that is missing or
      outside the user-blog namespace; otherwise the service's comments for
      that page, unchanged, with the requested page id and the clamped
      paging echoed. */
  function PostCommentsView(s: Store, w: Wiki, postPageId: int, limit: Option<int>, offset: Option<int>): (r: Reply)
    ensures !IsPostPage(TitleFromId(w, postPageId)) <==> r == Failed(NOT_FOUND, "notfound")
    ensures r.CommentsPage? ==>
      && r.postPageId == postPageId && TitleFromId(w, postPageId) == Some(r.post)
      && r.limit == ClampLimit(limit, COMMENTS_DEFAULT_LIMIT) && r.offset == ClampOffset(offset)
      && r.comments == GetCommentsForPost(s, r.post, r.limit, r.offset)
      && |r.comments| <= r.limit
    ensures !r.Failed? ==> r.CommentsPage?
  {
    var t := TitleFromId(w, postPageId);
    if !IsPostPage(t) then Failed(NOT_FOUND, "notfound")
    else
      var l := ClampLimit(limit, COMMENTS_DEFAULT_LIMIT);
      var o := ClampOffset(offset);
      CommentsPage(postPageId, t.value, GetCommentsForPost(s, t.value, l, o), l, o)
  }

  /** The last segment of a subpage title's text (the whole text when the
      namespace has no subpages): the post's slug. */
  function SubpageText(t: Title): (r: string)
    ensures '/' !in r || !SubpagesEnabled(t.ns)
    ensures |r| <= |t.text| && r == t.text[|t.text| - |r|..]
    ensures '/' !in t.text || !SubpagesEnabled(t.ns) ==> r == t.text
  {
    if SubpagesEnabled(t.ns) then LastSegment(t.text) else t.text
  }

  function LastSegment(s: string): (r: string)
    ensures '/' !in r
    ensures |r| <= |s| && r == s[|s| - |r|..]
    ensures '/' !in s ==> r == s
    ensures |r| < |s| ==> s[|s| - |r| - 1] == '/'
    decreases |s|
  {
    if s == [] then []
    else if s[|s| - 1] == '/' then []
    else
      var init := LastSegment(s[..|s| - 1]);
      assert s == s[..|s| - 1] + [s[|s| - 1]];
      init + [s[|s| - 1]]
  }

  /** The slug of a post's page is the title it was created with: the
      segment after the `<user>/` the special page puts in front. */
  lemma {:induction false} SlugOfPostPage(user: User, titleText: string, pageId: nat, isSpecial: bool)
    requires '/' !in Trim(titleText)
    ensures SubpageText(Title(NS_USER_BLOG, PostPageName(user, titleText).text, pageId, isSpecial))
         == Trim(titleText)
  {
    var title := Trim(titleText);
    var s := PostPageName(user, titleText).text;
    var r := LastSegment(s);
    var n := |user.name|;
    assert s[n] == '/' && s[n + 1..] == title;
    assert |r| == |title|;
  }

  /** The listing item of one post: its fields copied, plus the slug. */
  function ToItem(p: PostView): (item: PostItem)
    ensures item.pageId == p.pageId && item.title == p.title && item.slug == SubpageText(p.title)
    ensures item.username == p.username && item.userId == p.userId
    ensures item.created == p.created && item.lastTouched == p.lastTouched
    ensures item.commentCount == p.commentCount
    ensures item.lastComment == p.lastComment && item.lastCommentUser == p.lastCommentUser
  {
    PostItem(p.pageId, p.title, SubpageText(p.title), p.username, p.userId, p.created, p.lastTouched,
             p.commentCount, p.lastComment, p.lastCommentUser)
  }

  function ToItems(ps: seq<PostView>): (items: seq<PostItem>)
    ensures |items| == |ps|
    ensures forall i :: 0 <= i < |ps| ==> items[i] == ToItem(ps[i])
  {
    seq(|ps|, i requires 0 <= i < |ps| => ToItem(ps[i]))
  }

  /** `RecentPostsViewHandler::run`: the service is asked with the clamped
      paging, and each post it returns becomes one item, in order. */
  function RecentPostsView(s: Store, w: Wiki, limit: Option<int>, offset: Option<int>): (r: Reply)
    ensures r.PostsPage?
    ensures r.limit == ClampLimit(limit, POSTS_DEFAULT_LIMIT) && r.offset == ClampOffset(offset)
    ensures var posts := GetRecentPosts(s, w, r.limit, r.offset);
      && |r.posts| == |posts| <= r.limit
      && forall i :: 0 <= i < |posts| ==> r.posts[i] == ToItem(posts[i])
  {
    var l := ClampLimit(limit, POSTS_DEFAULT_LIMIT);
    var o := ClampOffset(offset);
    PostsPage(l, o, ToItems(GetRecentPosts(s, w, l, o)))
  }

  /** `UserPostsViewHandler::run`: as the recent view, for the posts whose
      stored username is the path's username, which is echoed. */
  function UserPostsView(s: Store, w: Wiki, username: string, limit: Option<int>, offset: Option<int>): (r: Reply)
    ensures r.UserPostsPage? && r.username == username
    ensures r.limit == ClampLimit(limit, POSTS_DEFAULT_LIMIT) && r.offset == ClampOffset(offset)
    ensures var posts := GetUserPosts(s, w, username, r.limit, r.offset);
      && |r.posts| == |posts| <= r.limit
      && (forall i :: 0 <= i < |posts| ==> r.posts[i] == ToItem(posts[i]))
      && (forall i :: 0 <= i < |r.posts| ==> r.posts[i].username == username)
  {
    var l := ClampLimit(limit, POSTS_DEFAULT_LIMIT);
    var o := ClampOffset(offset);
    UserPostsPage(username, l, o, ToItems(GetUserPosts(s, w, username, l, o)))
  }

  /** Asking again with the echoed paging gives the same page. */
  lemma {:induction false} EchoedPagingIsStable(s: Store, w: Wiki, username: string, postPageId: int,
                                                limit: Option<int>, offset: Option<int>)
    ensures var r := PostCommentsView(s, w, postPageId, limit, offset);
      r.CommentsPage? ==> PostCommentsView(s, w, postPageId, Some(r.limit), Some(r.offset)) == r
    ensures var r := RecentPostsView(s, w, limit, offset);
      RecentPostsView(s, w, Some(r.limit), Some(r.offset)) == r
    ensures var r := UserPostsView(s, w, username, limit, offset);
      UserPostsView(s, w, username, Some(r.limit), Some(r.offset)) == r
  {
    var c := PostCommentsView(s, w, postPageId, limit, offset);
    if c.CommentsPage? {
      assert ClampLimit(Some(c.limit), COMMENTS_DEFAULT_LIMIT) == c.limit;
      assert ClampOffset(Some(c.offset)) == c.offset;
    }
    var r := RecentPostsView(s, w, limit, offset);
    assert ClampLimit(Some(r.limit), POSTS_DEFAULT_LIMIT) == r.limit;
    assert ClampOffset(Some(r.offset)) == r.offset;
    var u := UserPostsView(s, w, username, limit, offset);
    assert ClampLimit(Some(u.limit), POSTS_DEFAULT_LIMIT) == u.limit;
    assert ClampOffset(Some(u.offset)) == u.offset;
  }
}

=== FILE: specials.dfy ===
/** The special pages that write or point at blog pages:
    Special:CreateBlogPost (includes/Specials/SpecialCreateBlogPost.php),
    Special:BlogSettings (includes/Specials/SpecialBlogSettings.php) and
    Special:MyBlog (includes/Specials/SpecialMyBlog.php). The wiki's title
    factory and page store are parameters; forms arrive as their submitted
    field values. */
module Specials {
  import opened Common
  import opened Php
  import opened BlogStore
  import opened Legacy

  /** The id the page store gives a page it has created. */
  type NewPageId = n: nat | n > 0 witness 1

  /* ---------- Special:CreateBlogPost ---------- */

  datatype PostForm = PostForm(title: string, content: string)

  datatype CreatePostOutcome =
    | PostPermissionsError
    /** HTMLForm did not submit: no valid edit token, or an empty title or
        content field; the form is shown again. */
    | PostFormRejected
    | MissingPostTitle
    | InvalidPostTitle
    | PostExists(title: Title)
    | PostEditFailed(title: Title)
    /** Saved, registered with the blog service, then redirected. */
    | PostCreated(title: Title, pageId: NewPageId, store: Store)

  /** The page a user's post with the given title text goes to: always a
      subpage of the user's own blog. */
  function PostPageName(user: User, titleText: string): (r: PageName)
    ensures r.ns == NS_USER_BLOG
    ensures |r.text| == |user.name| + 1 + |Trim(titleText)|
    ensures r.text[..|user.name|] == user.name && r.text[|user.name|] == '/'
    ensures r.text[|user.name| + 1..] == Trim(titleText)
  {
    var title := Trim(titleText);
    SplitAtSlash(user.name, title);
    PageName(NS_USER_BLOG, user.name + "/" + title)
  }

  /** `a + "/" + b` splits back into `a`, the '/', and `b`. */
  lemma SplitAtSlash(a: string, b: string)
    ensures var s := a + "/" + b;
      |s| == |a| + 1 + |b| && s[..|a|] == a && s[|a|] == '/' && s[|a| + 1..] == b
  {
    var s := a + "/" + b;
    assert s[..|a|] == a;
    assert s[|a| + 1..] == b;
  }

  /** The required fields of the post form: title and content. */
  function PostFormRequired(form: PostForm): seq<string> {
    [form.title, form.content]
  }

  /** `execute` and `onSubmit`: the registration and posting-right gates,
      then HTMLForm's token and required-field checks, then a title that is
      non-empty after trimming, a page name the title factory accepts, and
      a page that does not exist yet. The post is registered with the blog
      service only after the page store reports a saved revision, under the
      id the store gave the new page. */
  function CreateBlogPost(s: Store, actor: Actor, form: PostForm, tokenOk: bool,
                          makeTitleSafe: PageName -> Option<Title>,
                          save: (Title, string) -> Option<NewPageId>, now: Timestamp): (r: CreatePostOutcome)
    ensures r.PostPermissionsError? <==> !actor.user.Registered() || !actor.IsAllowed(PostRight)
    ensures r.PostFormRejected? <==>
      !r.PostPermissionsError? && (!tokenOk || form.title == "" || form.content == "")
    ensures r.MissingPostTitle? <==>
      !r.PostPermissionsError? && !r.PostFormRejected? && Trim(form.title) == ""
    ensures r.InvalidPostTitle? <==>
      !r.PostPermissionsError? && !r.PostFormRejected? && Trim(form.title) != ""
      && makeTitleSafe(PostPageName(actor.user, form.title)).None?
    ensures r.PostExists? || r.PostEditFailed? || r.PostCreated? ==>
      && tokenOk && form.content != ""
      && makeTitleSafe(PostPageName(actor.user, form.title)) == Some(r.title)
      && (r.PostExists? <==> r.title.Exists())
    ensures r.PostEditFailed? ==> save(r.title, form.content).None?
    ensures r.PostCreated? ==>
      && save(r.title, form.content) == Some(r.pageId)
      && r.store == RegisterPost(s, r.title.(pageId := r.pageId), actor.user, now)
  {
    if !actor.user.Registered() || !actor.IsAllowed(PostRight) then PostPermissionsError
    else if !FormSubmits(tokenOk, PostFormRequired(form)) then PostFormRejected
    else
      assert PostFormRequired(form)[0] == form.title && PostFormRequired(form)[1] == form.content;
      if Trim(form.title) == "" then MissingPostTitle
      else
        match makeTitleSafe(PostPageName(actor.user, form.title))
        case None => InvalidPostTitle
        case Some(t) =>
          if t.Exists() then PostExists(t)
          else match save(t, form.content)
            case None => PostEditFailed(t)
            case Some(pid) => PostCreated(t, pid, RegisterPost(s, t.(pageId := pid), actor.user, now))
  }

  /** A created post has a metadata row for its new page, owned by the
      creating user, provided the title factory kept the requested
      namespace and the page store handed out an id with no row yet. */
  lemma {:induction false} CreatedPostIsRegistered(s: Store, actor: Actor, form: PostForm, tokenOk: bool,
                                                   makeTitleSafe: PageName -> Option<Title>,
                                                   save: (Title, string) -> Option<NewPageId>, now: Timestamp)
    requires var t := makeTitleSafe(PostPageName(actor.user, form.title));
      t.Some? ==>
        && t.value.ns == NS_USER_BLOG
        && (save(t.value, form.content).Some? ==> save(t.value, form.content).value as nat !in s.posts)
    ensures var r := CreateBlogPost(s, actor, form, tokenOk, makeTitleSafe, save, now);
      r.PostCreated? ==>
        && save(r.title, form.content) == Some(r.pageId)
        && r.store.posts.Keys == s.posts.Keys + {r.pageId as nat}
        && r.store.posts[r.pageId].userId == actor.user.id
        && r.store.posts[r.pageId].username == actor.user.name
        && r.store.posts[r.pageId].commentCount == 0
        && r.store.comments == s.comments
  {
    var r := CreateBlogPost(s, actor, form, tokenOk, makeTitleSafe, save, now);
    if r.PostCreated? {
      RegisterNewPage(s, r.title, r.pageId, actor.user, now);
    }
  }

  /** Registering a user-blog title under a page id with no row yet adds
      exactly that row, the author's, and leaves comments alone. */
  lemma RegisterNewPage(s: Store, t: Title, pid: NewPageId, author: User, now: Timestamp)
    requires t.ns == NS_USER_BLOG && pid as nat !in s.posts
    ensures var s' := RegisterPost(s, t.(pageId := pid), author, now);
      && s'.posts.Keys == s.posts.Keys + {pid as nat}
      && s'.posts[pid] == NewPostRow(author, now)
      && s'.comments == s.comments
  {
  }

  /* ---------- Special:BlogSettings ---------- */

  /** What the settings page shows: the login message, or the form with
      the checkbox state (after a confirmation when a save came first). */
  datatype SettingsView = MustLogin | SettingsForm(isPublic: bool, saved: bool)

  datatype SettingsOutcome = SettingsOutcome(settings: map<nat, int>, view: SettingsView)

  /** `handleSaveSettings`: the checkbox becomes 1 or 0 and is written to
      the user's row, updating it when it exists and inserting it otherwise. */
  function SaveSetting(settings: map<nat, int>, userId: nat, checked: bool): (r: map<nat, int>)
    ensures r.Keys == settings.Keys + {userId}
    ensures r[userId] == (if checked then 1 else 0)
    ensures forall u :: u in settings && u != userId ==> r[u] == settings[u]
  {
    var flag := if checked then 1 else 0;
    if userId in settings then settings[userId := flag]
    else settings[userId := flag]
  }

  /** `execute`: an anonymous visitor sees only the login message and
      nothing is read or written; a POST saves the checkbox and shows the
      form again; any other request shows the form with the stored setting,
      public when the user has no row. */
  function BlogSettings(settings: map<nat, int>, user: User, posted: bool, checked: bool): (r: SettingsOutcome)
    ensures !user.Registered() ==> r == SettingsOutcome(settings, MustLogin)
    ensures user.Registered() && !posted ==>
      && r.settings == settings
      && r.view == SettingsForm(user.id !in settings || settings[user.id] != 0, false)
    ensures user.Registered() && posted ==>
      && r.settings.Keys == settings.Keys + {user.id}
      && r.settings[user.id] in {0, 1}
      && (forall u :: u in settings && u != user.id ==> r.settings[u] == settings[u])
      && r.view == SettingsForm(checked, true)
  {
    if !user.Registered() then SettingsOutcome(settings, MustLogin)
    else if posted then
      var settings' := SaveSetting(settings, user.id, checked);
      SettingsOutcome(settings', SettingsForm(IsPublic(settings', user.id), true))
    else SettingsOutcome(settings, SettingsForm(IsPublic(settings, user.id), false))
  }

  /** Saving and then visiting the page shows what was saved. */
  lemma {:induction false} SavedSettingIsShown(settings: map<nat, int>, user: User, checked: bool, again: bool)
    requires user.Registered()
    ensures var saved := BlogSettings(settings, user, true, checked).settings;
      BlogSettings(saved, user, false, again).view == SettingsForm(checked, false)
  {
    var saved := BlogSettings(settings, user, true, checked).settings;
    assert saved == SaveSetting(settings, user.id, checked);
    assert user.id in saved;
  }

  /** Clearing the checkbox makes the blog index private to everyone but
      its owner; ticking it makes the index visible to all. */
  lemma {:induction false} SettingGovernsIndex(st: LegacyStore, pages: map<nat, PageRow>,
                                               userIdByName: string -> nat, owner: User, checked: bool,
                                               viewer: User)
    requires owner.Registered() && userIdByName(owner.name) == owner.id
    ensures var st' := st.(settings := BlogSettings(st.settings, owner, true, checked).settings);
      var shown := ShowUserBlogIndex(st', pages, userIdByName, owner.name, viewer);
      shown == PrivateNotice <==> !checked && viewer.id != owner.id
  {
    var st' := st.(settings := BlogSettings(st.settings, owner, true, checked).settings);
    assert st'.settings == SaveSetting(st.settings, owner.id, checked);
    assert IsPublic(st'.settings, owner.id) == checked;
  }

  /* ---------- Special:MyBlog ---------- */

  /** The request parameters Special:MyBlog lists for its redirect. */
  const MY_BLOG_PARAMS: set<string> := {"action", "preload", "editintro", "section"}

  /** The parameters MediaWiki's RedirectSpecialPage carries over for every
      redirecting special page, whatever the page lists. */
  const REDIRECT_PAGE_PARAMS: set<string> := {"uselang", "useskin", "variant", "debug", "safemode"}

  /** The request parameters carried over by the redirect. */
  const FORWARDED_PARAMS: set<string> := MY_BLOG_PARAMS + REDIRECT_PAGE_PARAMS

  /** `getRedirect`: the current user's blog, or the given subpage of it.
      An absent subpage reads as the empty string. */
  function MyBlogRedirect(user: User, subpage: Option<string>): (r: PageName)
    ensures r.ns == NS_USER_BLOG
    ensures subpage.None? || subpage.value == "" ==> r.text == user.name
    ensures subpage.Some? && subpage.value != "" ==>
      && |r.text| == |user.name| + 1 + |subpage.value|
      && r.text[..|user.name|] == user.name && r.text[|user.name|] == '/'
      && r.text[|user.name| + 1..] == subpage.value
  {
    var sub := if subpage.Some? then subpage.value else "";
    if sub != "" then PageName(NS_USER_BLOG, user.name + "/" + sub)
    else PageName(NS_USER_BLOG, user.name)
  }

  /** The query parameters the redirect keeps, unchanged. */
  function ForwardedParams(params: map<string, string>): (r: map<string, string>)
    ensures r.Keys == params.Keys * FORWARDED_PARAMS
    ensures forall k :: k in r ==> r[k] == params[k]
  {
    map k | k in params && k in FORWARDED_PARAMS :: params[k]
  }

  /** Forwarding is a filter: a query holding only the page's four
      parameters and the five the redirect base class adds passes through
      unchanged, so forwarding twice is forwarding once, and nothing
      outside those nine ever reaches the redirect. */
  lemma {:induction false} ForwardingIsFilter(params: map<string, string>)
    ensures params.Keys <= FORWARDED_PARAMS ==> ForwardedParams(params) == params
    ensures ForwardedParams(ForwardedParams(params)) == ForwardedParams(params)
    ensures forall k :: k in ForwardedParams(params) ==>
      k in {"action", "preload", "editintro", "section", "uselang", "useskin", "variant", "debug", "safemode"}
  {
    var r := ForwardedParams(params);
    if params.Keys <= FORWARDED_PARAMS {
      assert r.Keys == params.Keys;
    }
    assert ForwardedParams(r).Keys == r.Keys;
  }

  /** Special:MyBlog with a post's title leads to the page that
      Special:CreateBlogPost creates for that title. */
  lemma MyBlogReachesCreatedPost(user: User, titleText: string)
    requires Trim(titleText) != ""
    ensures MyBlogRedirect(user, Some(Trim(titleText))) == PostPageName(user, titleText)
  {
  }
}
